=== FILE: README.md ===
# Recruiting lifecycle — a Dafny model

This project models the core of a recruiting platform. Companies publish job
postings, applicants submit resumes and cover letters, an external evaluator
scores the submissions, and reviewers decide on the applications. The
platform has three parts, and each is modelled in its own terms.

- **Backend (Java, Spring).**
  - `StatusResolver` covers the posting-status resolver and the daily re-scan that persists changed statuses.
  - `ApplicationService` covers submission, the reviewer's decision and per-posting statistics, over the store of `ApplicationStore`.
  - `EvaluationIngestion` covers the two paths by which an evaluation report enters the store: the regular one and the administrator's replacement.
  - `JobPostingResponse` covers the posting's response view and the criteria export sent to the evaluator.
  - The entities are plain datatypes in `Postings` and `ApplicationStatuses`.
- **Frontend (TypeScript/JavaScript, React).**
  - `ApiUtils` holds the enum/label converters of the API layer.
  - `DateUtils` is the workspace screens' date parsing and three-way period status.
  - `MainDashboard` is the dashboard's four-way posting status, its buckets and evaluation progress.
  - `EmploymentTypeUtils` holds the employment-type labels and colours.
  - `ReviewPanel` and `ApplicationReview` model the review screen: status groups, scores, and the highlighting of evaluated passages in an answer.
  - `FinalEvaluation` is the final-decision screen.
  - `StatusAgreement` relates the backend resolver to the two browser-side status rules.
- **Evaluator (Python).**
  - `P2Evaluator` is the quantitative rule engine and the resume part of the report it sends back.
  - `P1Builder` is the asset builder: the scoring-rule rewrite, the retrieval packets, the per-criterion tally and the selection of what is uploaded.
  - `SentenceRefiner` matches a language model's clue back to a sentence of the original text.
- **Shared.** `Wrappers`, `Seqs`, `Sorting`, `Text` and `Numbers` hold the `Option`/`Result` types and the sequence, sorting and string functions the models share.

Every operation is a pure function or a method over immutable values. A store
update returns either the new store or an error; on an error the caller keeps
the store it had, which is how the transactions roll back. The clock is a
parameter: backend instants are seconds on one local timeline, and browser
times are JavaScript milliseconds. The language model, the knowledge bases
and the two floating-point rule types are parameters of the Python models.

Some behaviours of the code are easy to misread; the model follows the code:

- The posting-status resolver uses strict `isBefore`/`isAfter` comparisons, so the start and the end instant of an application window are `EVALUATION_COMPLETE` (`StatusResolver.BoundaryInstantsAreEvaluationComplete`). Only at those two instants does the result differ from a half-open reading of the same windows (`StatusResolver.DisagreementOnlyAtBoundaries`).
- The regular ingestion path inserts a further evaluation result without deleting the previous one. Only the administrator's path replaces the result. This reading assumes the `evaluation_result` table has no unique constraint on `application_id` (see Left out).
- The administrator's path does not write the answers' scores.
- The report's fields are the camelCase names the service reads (`resumeEvaluations[*].resumeItemId`, `score`, `applicationId`). The snake_case field declarations of the transfer object are not used.

## Model

| member | source | states |
|---|---|---|
| StatusResolver.DeterminePostingStatus | backend/src/main/java/com/jangyeonguk/backend/service/JobPostingService.java:389-423 | a missing application start or end gives SCHEDULED; IN_PROGRESS exactly when start < now < end; CLOSED exactly when now is past the start, outside the open application window and strictly between the end and the evaluation end (the application end standing in for a missing one); SCHEDULED exactly when a date is missing or now is before the start |
| StatusResolver.MissingBoundaryIsAlwaysScheduled | backend/src/main/java/com/jangyeonguk/backend/service/JobPostingService.java:395-399 | without an application start or end date the status is SCHEDULED at every instant |
| StatusResolver.NoEvaluationEndNeverCloses | backend/src/main/java/com/jangyeonguk/backend/service/JobPostingService.java:402-418 | a posting without an evaluation end date is never CLOSED |
| StatusResolver.StrictIntervals | backend/src/main/java/com/jangyeonguk/backend/service/JobPostingService.java:408-418 | before the start: SCHEDULED; strictly inside the application window: IN_PROGRESS; strictly between the application end and the evaluation end: CLOSED |
| StatusResolver.BoundaryInstantsAreEvaluationComplete | backend/src/main/java/com/jangyeonguk/backend/service/JobPostingService.java:412-422 | at exactly the start instant and exactly the end instant the status is EVALUATION_COMPLETE, because both strict comparisons fail there |
| StatusResolver.DisagreementOnlyAtBoundaries | backend/src/main/java/com/jangyeonguk/backend/service/JobPostingService.java:408-422 | the strict comparisons and a half-open reading of the same windows can differ only when now is exactly the start or the end instant |
| StatusResolver.StartInstantDisagrees | backend/src/main/java/com/jangyeonguk/backend/service/JobPostingService.java:408-422 | at the start instant a half-open reading says IN_PROGRESS while the resolver says EVALUATION_COMPLETE |
| StatusResolver.StaleCountZero | backend/src/main/java/com/jangyeonguk/backend/service/JobPostingService.java:366-375 | no posting needs saving exactly when every stored status already equals the resolver's |
| StatusResolver.Refreshed | backend/src/main/java/com/jangyeonguk/backend/service/JobPostingService.java:366-372 | after the scan no posting is stale at that instant, so a rescan would count zero updates; each posting keeps its place and differs from the stored one at most in its status |
| StatusResolver.StalePositionsAreStale | backend/src/main/java/com/jangyeonguk/backend/service/JobPostingService.java:369-374 | every saved posting is one whose status differed, listed once each in scan order, and there are as many as the update count |
| StatusResolver.StalePostingsAreSaved | backend/src/main/java/com/jangyeonguk/backend/service/JobPostingService.java:369-374 | every posting whose status differed is saved |
| StatusResolver.UpdateJobPostingStatuses | backend/src/main/java/com/jangyeonguk/backend/service/JobPostingService.java:358-381 | the scan fails (a null current status cannot be described) exactly when some posting has no status; otherwise it returns the refreshed postings, saves exactly the postings whose status differed, and counts them |
| StatusResolver.ScanStep | backend/src/main/java/com/jangyeonguk/backend/service/JobPostingService.java:366-375 | one loop iteration refreshes the next posting and saves and counts it exactly when its status differed |
| StatusResolver.RescanIsIdempotent | backend/src/main/java/com/jangyeonguk/backend/service/JobPostingService.java:358-381 | a second scan at the same instant changes, saves and counts nothing |
| StatusResolver.CreateJobPosting | backend/src/main/java/com/jangyeonguk/backend/service/JobPostingService.java:54-185 | creation fails exactly when no company is registered, either score weight is missing (the export cannot divide it, and the rethrown error rolls the creation back) or the evaluator does not take the criteria; otherwise the posting keeps the request's dates (at the start of their days) and weights and carries the date-derived status |
| StatusResolver.UpdateJobPosting | backend/src/main/java/com/jangyeonguk/backend/service/JobPostingService.java:237-345 | an unknown id fails; otherwise the posting keeps its id and company, takes the request's dates and carries the status derived from them, and its items and questions are exactly the request's, none surviving from before, each question without its blank-named criteria |
| StatusResolver.StoredQuestion | backend/src/main/java/com/jangyeonguk/backend/service/JobPostingService.java:312-330 | a saved question keeps its id and content and exactly those criteria whose name does not trim to empty |
| StatusResolver.RequestedStatusIsIgnored | backend/src/main/java/com/jangyeonguk/backend/service/JobPostingService.java:79-87 | the status a request asks for has no influence on what create or update store |
| ApiUtils.ConvertPostingStatus | frontend_figma/src/services/api.ts:476-490 | every backend posting status gets one of the four screen labels; any other string reads as `scheduled` |
| ApiUtils.ConvertToPostingStatus | frontend_figma/src/services/api.ts:492-505 | a string that is not one of the four labels converts to SCHEDULED |
| ApiUtils.PostingStatusRoundTrip | frontend_figma/src/services/api.ts:476-505 | converting a posting status to its label and back gives the status |
| ApiUtils.PostingLabelRoundTrip | frontend_figma/src/services/api.ts:476-505 | converting a label to its status and back gives the label |
| ApiUtils.ConvertApplicationStatus | frontend_figma/src/services/api.ts:508-524 | every application status gets one of the five labels, never `failed`; any other string reads as `not-evaluated` |
| ApiUtils.ConvertToApplicationStatus | frontend_figma/src/services/api.ts:526-539 | a label outside the four it knows converts to BEFORE_EVALUATION; ON_HOLD is never produced |
| ApiUtils.ApplicationStatusRoundTrip | frontend_figma/src/services/api.ts:508-539 | the round trip status → label → status is the identity except on ON_HOLD, which comes back as IN_PROGRESS |
| ApiUtils.OnHoldCollapsesIntoPending | frontend_figma/src/services/api.ts:516-519 | the two distinct statuses ON_HOLD and IN_PROGRESS share the label `pending`, so the conversion is not injective |
| ApiUtils.ApplicationLabelRoundTrip | frontend_figma/src/services/api.ts:508-539 | every label except `failed` survives label → status → label |
| ApiUtils.FailedIsNeverProduced | frontend_figma/src/services/api.ts:508-539 | no status converts to `failed`, and `failed` converts back to BEFORE_EVALUATION |
| ApplicationStatuses.ValueOf | backend/src/main/java/com/jangyeonguk/backend/domain/application/ApplicationStatus.java:11-17 | an enum lookup by name: it finds exactly the status with that name and fails exactly when no status has it |
| ApplicationStatuses.ValueOfName | backend/src/main/java/com/jangyeonguk/backend/domain/application/ApplicationStatus.java:11-17 | looking a status up by its own name finds it |
| ApplicationStore.ApplicantByEmail | backend/src/main/java/com/jangyeonguk/backend/service/ApplicationService.java:91 | the email lookup finds the first applicant with that email, and fails exactly when no applicant has it |
| ApplicationStore.LatestApplicationOf | backend/src/main/java/com/jangyeonguk/backend/service/ApplicationService.java:345-346 | the applicant's last application in creation order: it belongs to the applicant, no later one does, and the lookup fails exactly when the applicant has none |
| ApplicationStore.ApplicationById | backend/src/main/java/com/jangyeonguk/backend/service/ApplicationService.java:699-700 | the id lookup finds an application with that id and fails exactly when there is none |
| ApplicationStore.ResumeItemById | backend/src/main/java/com/jangyeonguk/backend/service/ApplicationService.java:109-110 | the id lookup finds the first resume item with that id and fails exactly when there is none |
| ApplicationService.KnownApplicant | backend/src/main/java/com/jangyeonguk/backend/service/ApplicationService.java:91 | the lookup finds an applicant exactly when the email is not null and some stored applicant has it, and what it finds carries that email |
| ApplicationService.FindOrCreateApplicant | backend/src/main/java/com/jangyeonguk/backend/service/ApplicationService.java:91-97 | a known email reuses that applicant and leaves the store as it is; otherwise a null name or email fails with a NOT NULL violation, and a name and email append exactly one applicant with them under a fresh id and change nothing else |
| ApplicationService.ApplicantRegistered | backend/src/main/java/com/jangyeonguk/backend/service/ApplicationService.java:91-97 | after a successful find-or-create the email is not null and the store holds an applicant with the returned id and that email |
| ApplicationService.SaveResumeAnswers | backend/src/main/java/com/jangyeonguk/backend/service/ApplicationService.java:107-119 | saving fails with IllegalArgumentException exactly when some answer has a null or unknown resume item; otherwise one answer per input is appended, in order, with fresh ids, the input's item and content and no score, and nothing else changes |
| ApplicationService.SaveCoverAnswers | backend/src/main/java/com/jangyeonguk/backend/service/ApplicationService.java:122-135 | saving fails with IllegalArgumentException exactly when some answer has a null or unknown question; otherwise one answer per input is appended, in order, with fresh ids and the input's question and content, and nothing else changes |
| ApplicationService.SaveAnswers | backend/src/main/java/com/jangyeonguk/backend/service/ApplicationService.java:107-135 | the resume answers are saved before the cover-letter answers; saving fails with IllegalArgumentException exactly when some answer has a null or unknown item or question; on success applications, applicants and results are untouched, the old answers stay first and one new answer per input follows in input order, carrying the application, the referenced item or question and the submitted content |
| ApplicationService.ResumeRowsInOrder | backend/src/main/java/com/jangyeonguk/backend/service/ApplicationService.java:108-119 | each saved resume answer sits at its input's position after the existing answers, with the application, the resume item and the content the input gave and no score yet |
| ApplicationService.CoverRowsInOrder | backend/src/main/java/com/jangyeonguk/backend/service/ApplicationService.java:122-135 | each saved cover-letter answer sits at its input's position after the existing answers, with the application, the question and the content the input gave |
| ApplicationService.SubmitApplication | backend/src/main/java/com/jangyeonguk/backend/service/ApplicationService.java:85-135 | submission succeeds exactly when the posting exists, the applicant is found by email or has a name and email to be stored with, and every answer names an existing resume item or question; the failure is a NOT NULL violation when the applicant is the cause and IllegalArgumentException otherwise (store unchanged); on success one application in BEFORE_EVALUATION is appended for the posting, linked to an applicant with the request's email, a known applicant is reused or exactly one added, each input becomes one answer of the new application in order with its item or question and content (resume answers without a score), and the evaluation results are left alone |
| ApplicationService.SubmitPreservesValid | backend/src/main/java/com/jangyeonguk/backend/service/ApplicationService.java:85-135 | a successful submission keeps the store well formed: ids unique and below the id counter, references resolve |
| ApplicationService.FindOrCreatePreservesValid | backend/src/main/java/com/jangyeonguk/backend/service/ApplicationService.java:91-97 | finding or creating the applicant keeps the store well formed |
| ApplicationService.AddApplicationPreservesValid | backend/src/main/java/com/jangyeonguk/backend/service/ApplicationService.java:99-104 | adding the application keeps the store well formed |
| ApplicationService.SaveResumeAnswersPreservesValid | backend/src/main/java/com/jangyeonguk/backend/service/ApplicationService.java:107-119 | saving resume answers keeps the store well formed |
| ApplicationService.SaveCoverAnswersPreservesValid | backend/src/main/java/com/jangyeonguk/backend/service/ApplicationService.java:122-135 | saving cover-letter answers keeps the store well formed |
| ApplicationService.ResubmissionReusesApplicant | backend/src/main/java/com/jangyeonguk/backend/service/ApplicationService.java:91-97 | after one submission the email is known, so a second submission with the same email adds no applicant |
| ApplicationService.SaveEvaluation | backend/src/main/java/com/jangyeonguk/backend/service/ApplicationService.java:698-716 | a missing application raises IllegalArgumentException, a null status a null-pointer error and a status that is not one of the five enum names IllegalArgumentException; on success exactly that application's comment and status change, the status being the named one |
| ApplicationService.StatisticsFor | backend/src/main/java/com/jangyeonguk/backend/service/ApplicationService.java:546-572 | a posting's line counts its applications and those ACCEPTED or REJECTED, and pending is the difference, never negative |
| ApplicationService.Totals | backend/src/main/java/com/jangyeonguk/backend/service/ApplicationService.java:575-584 | the accumulated completed count never exceeds the accumulated total |
| ApplicationService.ApplicationStatistics | backend/src/main/java/com/jangyeonguk/backend/service/ApplicationService.java:535-600 | one line per posting in order, each as `StatisticsFor` states; the global pending count is the global total less the global completed count, never negative |
| ApplicationService.UncountedPostingAddsNothing | backend/src/main/java/com/jangyeonguk/backend/service/ApplicationService.java:575-580 | a posting that is neither CLOSED nor IN_PROGRESS leaves the global totals unchanged |
| ApplicationService.CountedPostingAddsItsCounts | backend/src/main/java/com/jangyeonguk/backend/service/ApplicationService.java:575-580 | a CLOSED or IN_PROGRESS posting adds exactly its own total and completed counts to the global ones |
| EvaluationIngestion.CalculateTotalScore | backend/src/main/java/com/jangyeonguk/backend/service/ApplicationService.java:423-449 | the loop's total is the sum of the report's resume scores, a null score or a null list counting 0; the maximum score neither caps nor excludes an item |
| EvaluationIngestion.ScoreSumAppend | backend/src/main/java/com/jangyeonguk/backend/service/ApplicationService.java:427-442 | the total of two reports joined is the sum of their totals |
| EvaluationIngestion.ScoreSumCoversEachItem | backend/src/main/java/com/jangyeonguk/backend/service/ApplicationService.java:427-442 | with non-negative scores the total is at least every single item's score |
| EvaluationIngestion.ScoreSumNonNegative | backend/src/main/java/com/jangyeonguk/backend/service/ApplicationService.java:427-442 | with non-negative scores the total is non-negative |
| EvaluationIngestion.MaxScoreOf | backend/src/main/java/com/jangyeonguk/backend/service/ApplicationService.java:363-364 | the snapshot's maximum is the first matching item's `maxScore`, 10 when that is null or no item has the id |
| EvaluationIngestion.SnapshotKeepsEvaluations | backend/src/main/java/com/jangyeonguk/backend/service/ApplicationService.java:353-375 | the stored snapshot has one entry per evaluation, in order, with its id, name, content and score and the item's maximum |
| EvaluationIngestion.TotalMatchesSnapshot | backend/src/main/java/com/jangyeonguk/backend/service/ApplicationService.java:353-401 | the stored total equals the sum of the scores in the stored snapshot |
| EvaluationIngestion.WriteScore | backend/src/main/java/com/jangyeonguk/backend/service/ApplicationService.java:378-393 | one evaluation changes only the score of the first answer of that application and item, and no other field or answer |
| EvaluationIngestion.WriteScoresEffect | backend/src/main/java/com/jangyeonguk/backend/service/ApplicationService.java:378-393 | after the whole report only scores change; an answer gets a score exactly when it is the first of its application and item and the report evaluates that item, and then it holds the last such evaluation's score |
| EvaluationIngestion.SameKeysSameFirst | backend/src/main/java/com/jangyeonguk/backend/service/ApplicationService.java:381-385 | writing scores does not change which answer is the first one for an application and item |
| EvaluationIngestion.ResolveLatestApplication | backend/src/main/java/com/jangyeonguk/backend/service/ApplicationService.java:342-346 | the regular path resolves the email's first applicant and that applicant's last application, and fails exactly when the email is null, unknown or the applicant has no application (the last as an index error) |
| EvaluationIngestion.ProcessEvaluationResult | backend/src/main/java/com/jangyeonguk/backend/service/ApplicationService.java:336-418 | the regular path succeeds exactly when the application resolves and the report has a name and a posting id; then only that application changes (to IN_PROGRESS), the scores are written back as `WriteScoresEffect` states, one result is appended with the summed total and the report's email, and nothing else changes; on failure the store stays as it was |
| EvaluationIngestion.RegularPathAccumulatesResults | backend/src/main/java/com/jangyeonguk/backend/service/ApplicationService.java:396-408 | the regular path deletes nothing: the application has one more result afterwards |
| EvaluationIngestion.TrimStart | backend/src/main/java/com/jangyeonguk/backend/service/ApplicationService.java:828-831 | `String.trim` from the left removes exactly the leading characters up to U+0020 |
| EvaluationIngestion.TrimEnd | backend/src/main/java/com/jangyeonguk/backend/service/ApplicationService.java:828-831 | `String.trim` from the right removes exactly the trailing characters up to U+0020 |
| EvaluationIngestion.TrimEmptyIffAllSpace | backend/src/main/java/com/jangyeonguk/backend/service/ApplicationService.java:828-831 | a string trims to empty exactly when all its characters are at most U+0020 |
| EvaluationIngestion.ValidateForAdmin | backend/src/main/java/com/jangyeonguk/backend/service/ApplicationService.java:827-839 | validation passes exactly when the name and the email are not blank and the posting id is present; a failure is IllegalArgumentException |
| EvaluationIngestion.ResolveForAdmin | backend/src/main/java/com/jangyeonguk/backend/service/ApplicationService.java:735-759 | an application found by the report's id wins; otherwise the email's first applicant's last application; otherwise IllegalArgumentException |
| EvaluationIngestion.AdminOutcome | backend/src/main/java/com/jangyeonguk/backend/service/ApplicationService.java:722-822 | the administrator's path fails with the validation error first, then with the resolution error, then when the application already has two or more results; otherwise it replaces the application's result by the one built from the report |
| EvaluationIngestion.RecordOfReport | backend/src/main/java/com/jangyeonguk/backend/service/ApplicationService.java:798-808 | the stored result belongs to the resolved application, takes a fresh id, the summed total and the report's email |
| EvaluationIngestion.AdminStoreChanges | backend/src/main/java/com/jangyeonguk/backend/service/ApplicationService.java:761-810 | the replacement sets only the resolved application to IN_PROGRESS, leaves the answers (and their scores) alone and changes nothing but the applications, the results and the id counter |
| EvaluationIngestion.AdminLeavesExactlyOneResult | backend/src/main/java/com/jangyeonguk/backend/service/ApplicationService.java:766-810 | after the replacement the application has exactly the new result, and every other application's results are as before |
| EvaluationIngestion.KeptThenNew | backend/src/main/java/com/jangyeonguk/backend/service/ApplicationService.java:766-810 | deleting the single previous result and appending the new one leaves the application with just the new one and other applications untouched |
| EvaluationIngestion.AdminFailsOnDuplicatedResults | backend/src/main/java/com/jangyeonguk/backend/service/ApplicationService.java:766 | an application with two or more stored results makes the single-row lookup, and so the administrator's path, fail |
| EvaluationIngestion.AdminIngestionIsRepeatable | backend/src/main/java/com/jangyeonguk/backend/service/ApplicationService.java:722-822 | after a successful administrator ingestion the same report resolves to the same application and succeeds again |
| EvaluationIngestion.ReplaceIsRepeatable | backend/src/main/java/com/jangyeonguk/backend/service/ApplicationService.java:735-770 | the replacement keeps the resolution and leaves at most one result for the application |
| EvaluationIngestion.ResolveIgnoresStatus | backend/src/main/java/com/jangyeonguk/backend/service/ApplicationService.java:735-759 | resolution does not depend on applications' statuses or comments |
| EvaluationIngestion.FilterKeepsResultIds | backend/src/main/java/com/jangyeonguk/backend/service/ApplicationService.java:769 | deleting results keeps the remaining ids increasing and below the id counter |
| EvaluationIngestion.ProcessPreservesValid | backend/src/main/java/com/jangyeonguk/backend/service/ApplicationService.java:336-418 | the regular path keeps the store well formed |
| EvaluationIngestion.AdminPreservesValid | backend/src/main/java/com/jangyeonguk/backend/service/ApplicationService.java:722-822 | the administrator's path keeps the store well formed |
| EvaluationIngestion.ReplacePreservesValid | backend/src/main/java/com/jangyeonguk/backend/service/ApplicationService.java:761-810 | replacing a result with a fresh id keeps the store well formed |
| JobPostingResponse.From | backend/src/main/java/com/jangyeonguk/backend/dto/jobposting/JobPostingResponseDto.java:60-94 | the view never has null item or question lists (null reads as empty), counts 0 applications for a null list and the list's size otherwise, copies status, id, company and both score weights, and reduces each present date to the calendar day that contains it |
| JobPostingResponse.ExportItem | backend/src/main/java/com/jangyeonguk/backend/dto/jobposting/JobPostingResponseDto.java:150-172 | an exported item keeps its id and name, its `score_weight` is its `maxScore`, and it carries one criterion per criterion of the item |
| JobPostingResponse.ExportItems | backend/src/main/java/com/jangyeonguk/backend/dto/jobposting/JobPostingResponseDto.java:129-173 | the export is exactly the exportable items, in their original order, each exported as `ExportItem` states |
| JobPostingResponse.ExportQuestion | backend/src/main/java/com/jangyeonguk/backend/dto/jobposting/JobPostingResponseDto.java:179-212 | a question is exported with its id and every criterion in order, each with its name and all its details in order, each detail with its grade and description only (no score per grade) |
| JobPostingResponse.ToEvaluationData | backend/src/main/java/com/jangyeonguk/backend/dto/jobposting/JobPostingResponseDto.java:99-217 | the export exists exactly when both score weights are present (a null one fails the division) and then carries them; resume items are exported, filtered, exactly when the view has a list; cover-letter questions likewise, but all of them, one for one |
| JobPostingResponse.ExportKeepsExactlyExportable | backend/src/main/java/com/jangyeonguk/backend/dto/jobposting/JobPostingResponseDto.java:131-149 | no exported item is named "이름" or "이메일", has no criteria or a zero weight; an item is kept exactly when it passes all three tests |
| JobPostingResponse.ExportKeepsOrder | backend/src/main/java/com/jangyeonguk/backend/dto/jobposting/JobPostingResponseDto.java:130-173 | exported items appear in the order of the items they come from |
| JobPostingResponse.NameAndEmailNeverExported | backend/src/main/java/com/jangyeonguk/backend/dto/jobposting/JobPostingResponseDto.java:122-136 | for any posting the export of its view fails exactly when a score weight is missing; otherwise it has a resume-item list, and the name and email items are never in it |
| DateUtils.ParseInt | frontend_figma/src/utils/dateUtils.ts:12 | `parseInt` of text without any digit is `NaN` |
| DateUtils.LeadingNumber | frontend_figma/src/utils/dateUtils.ts:12 | there is a leading number exactly when the text starts with a digit |
| DateUtils.ParseIntOfDigits | frontend_figma/src/utils/dateUtils.ts:12 | `parseInt` of a run of decimal digits is its decimal value |
| DateUtils.ParseIntOfUnsigned | frontend_figma/src/utils/dateUtils.ts:12 | text that starts with a digit and has no `0x` prefix parses as its leading run of decimal digits, with no whitespace or sign skipped |
| DateUtils.ParseIntOfHex | frontend_figma/src/utils/dateUtils.ts:12 | text with a `0x` or `0X` prefix parses as the run of hexadecimal digits after it, and is `NaN` exactly when no hexadecimal digit follows the prefix |
| DateUtils.ParseIntHexExample | frontend_figma/src/utils/dateUtils.ts:12 | `parseInt("0x1A")` is 26, although its leading decimal run is 0 |
| DateUtils.LeadingHex | frontend_figma/src/utils/dateUtils.ts:12 | a hexadecimal value is read exactly when the text starts with a hexadecimal digit |
| DateUtils.JsYear | frontend_figma/src/utils/dateUtils.ts:12 | `new Date` reads a year from 0 to 99 as 1900 to 1999 and keeps every other year |
| DateUtils.EpochIsDayZero | frontend_figma/src/utils/dateUtils.ts:12 | the day numbering puts 1970-01-01 at day 0, as JavaScript's `Date` does |
| DateUtils.NextMonthStart | frontend_figma/src/utils/dateUtils.ts:12-26 | each month's first day follows the previous month's first day by that month's length, leap Februaries included |
| DateUtils.YearLength | frontend_figma/src/utils/dateUtils.ts:12 | consecutive March 1sts are 365 days apart, 366 when the year is a Gregorian leap year |
| DateUtils.MonthOverflowCarries | frontend_figma/src/utils/dateUtils.ts:12 | a month number twelve past another is the same month of the next year, as `new Date` normalises it |
| DateUtils.MakeDayOfCalendarDate | frontend_figma/src/utils/dateUtils.ts:12 | a calendar date's day is its month's first day plus the day of month less one |
| DateUtils.NewDate | frontend_figma/src/utils/dateUtils.ts:12 | the date is valid exactly when year, month and day are all numbers |
| DateUtils.ParseDate | frontend_figma/src/utils/dateUtils.ts:10-13 | a valid date needs at least three dot-separated pieces |
| DateUtils.ParseDateDenotes | frontend_figma/src/utils/dateUtils.ts:10-13 | "YY.MM.DD" denotes year 2000 + YY, month MM (counted from 1) and day DD |
| DateUtils.ParseDateOfThree | frontend_figma/src/utils/dateUtils.ts:10-13 | three dot-free pieces joined by dots are read as year, month and day |
| DateUtils.NewDateInThe2000s | frontend_figma/src/utils/dateUtils.ts:12 | a non-negative two-digit year lands in the 2000s, past the 0..99 rule |
| DateUtils.CalculateWorkspaceStatus | frontend_figma/src/utils/dateUtils.ts:16-35 | the function throws exactly when the period has no " - " separator (the missing end piece cannot be split) |
| DateUtils.PhaseOnPartition | frontend_figma/src/utils/dateUtils.ts:28-34 | with both days known: scheduled exactly before the start day, recruiting exactly from the start day to the end day inclusive, completed exactly after both |
| DateUtils.WorkspaceStatusPartition | frontend_figma/src/utils/dateUtils.ts:16-35 | for a period of two readable dates the result is scheduled exactly before the start day, recruiting exactly from the start day through the end day, completed otherwise |
| DateUtils.PeriodPieces | frontend_figma/src/utils/dateUtils.ts:17 | a period of two space-free dates splits back into the two dates |
| DateUtils.UnreadableStartIsCompleted | frontend_figma/src/utils/dateUtils.ts:28-34 | an unreadable start date compares false both ways, so the period reads as completed whatever the day |
| DateUtils.TimeOfDayIsIrrelevant | frontend_figma/src/utils/dateUtils.ts:23-26 | two instants of the same Korean calendar day give the same result |
| EmploymentTypeUtils.EmploymentTypeLabel | frontend_figma/src/utils/employmentTypeUtils.ts:7-22 | a known type's name gives that type's Korean label; any other string gives the full-time label |
| EmploymentTypeUtils.EmploymentTypeColor | frontend_figma/src/utils/employmentTypeUtils.ts:27-42 | a known type's name gives that type's badge classes; the gray default is returned exactly for strings that name no known type |
| EmploymentTypeUtils.KnownTypesAreDistinguished | frontend_figma/src/utils/employmentTypeUtils.ts:7-41 | two different known types have different labels and different colours |
| EmploymentTypeUtils.LabelsDiffer | frontend_figma/src/utils/employmentTypeUtils.ts:9-18 | the five labels are pairwise distinct |
| EmploymentTypeUtils.ColorsDiffer | frontend_figma/src/utils/employmentTypeUtils.ts:29-38 | the five badge colours are pairwise distinct |
| EmploymentTypeUtils.UnknownTypeReadsAsFullTime | frontend_figma/src/utils/employmentTypeUtils.ts:19-20 | a name that is no known type shows the full-time label |
| EmploymentTypeUtils.OptionsAgreeWithLabels | frontend_figma/src/utils/employmentTypeUtils.ts:47-53 | the option list has five entries, offers every type with its label, and each option's text is the label of its value |
| MainDashboard.JsDate | frontend/src/components/MainDashboard.js:156-158 | `new Date(null)` is the epoch, a timestamp is itself, and only an unreadable value is an invalid date |
| MainDashboard.GetPostingStatus | frontend/src/components/MainDashboard.js:154-164 | scheduled exactly when the start is after now; active exactly when the start is not after now and the end is after now; evaluation-completed only with a present evaluation end that is not after now |
| MainDashboard.StatusOnReadableDates | frontend/src/components/MainDashboard.js:154-164 | on readable dates: scheduled before the start, active from the start (inclusive) to the end (exclusive), evaluation-completed once the evaluation end has passed, completed otherwise |
| MainDashboard.NoEvaluationEndStaysCompleted | frontend/src/components/MainDashboard.js:158-163 | without an evaluation end date a posting that is completed stays completed forever |
| MainDashboard.NullStartIsEpoch | frontend/src/components/MainDashboard.js:156-160 | a null start date reads as the epoch, so the posting is never scheduled after it |
| MainDashboard.Categorize | frontend/src/components/MainDashboard.js:56-83 | every posting lands in exactly one of the four buckets |
| MainDashboard.CategorizeAgreesWithStatus | frontend/src/components/MainDashboard.js:56-83 | each bucket holds exactly the postings `getPostingStatus` gives that status, in order |
| MainDashboard.CompletedCardCountsFinished | frontend/src/components/MainDashboard.js:252 | the "completed" card counts the postings that are completed or evaluation-completed |
| MainDashboard.RoundedPercentage | frontend/src/components/MainDashboard.js:51 | the integer nearest to the exact percentage 100n/d, halves rounded up (the screen rounds a double; see Left out) |
| MainDashboard.GetApplicationStats | frontend/src/components/MainDashboard.js:41-53 | the total counts the posting's applications; the evaluated count is the number of applications that are the posting's and have status EVALUATION_COMPLETE, PASSED or FAILED; the percentage is 0 without applications and otherwise the evaluated share of the total in percent, rounded to the nearest integer (halves up), so between 0 and 100 |
| MainDashboard.EvaluatedAmongMine | frontend/src/components/MainDashboard.js:42-46 | filtering the posting's applications by evaluated status counts exactly the applications that are the posting's and evaluated |
| MainDashboard.EvaluatedCountsOneMore | frontend/src/components/MainDashboard.js:42-46 | one more application raises the evaluated count by one exactly when it is the posting's and its status is EVALUATION_COMPLETE, PASSED or FAILED, and raises the total by one exactly when it is the posting's |
| MainDashboard.Percentage | frontend/src/components/MainDashboard.js:51 | no applications give 0; otherwise the value is the rounded share in percent, from 0 to 100 |
| MainDashboard.PercentageBounds | frontend/src/components/MainDashboard.js:51 | a part of a whole rounds to a percentage from 0 to 100 |
| MainDashboard.BackendNameIsNotEvaluated | frontend/src/components/MainDashboard.js:44-46 | no backend application status name is one of the three names counted as evaluated |
| MainDashboard.BackendStatusesNeverCountAsEvaluated | frontend/src/components/MainDashboard.js:44-51 | when every application carries a backend status name the evaluated count and the percentage are 0 |
| MainDashboard.NothingEvaluatedIsZeroPercent | frontend/src/components/MainDashboard.js:51 | nothing evaluated rounds to 0 percent |
| StatusAgreement.DashboardOf | frontend/src/components/MainDashboard.js:160-163 | the dashboard reading of a backend status: scheduled exactly for SCHEDULED, active exactly for IN_PROGRESS |
| StatusAgreement.PhaseOf | frontend_figma/src/utils/dateUtils.ts:28-34 | the workspace reading of a backend status: scheduled exactly for SCHEDULED, recruiting exactly for IN_PROGRESS |
| StatusAgreement.DashboardDisagreement | frontend/src/components/MainDashboard.js:154-164 | on ordered dates the dashboard and the backend disagree exactly at the start instant of a non-empty window, at the end instant of a non-empty evaluation window, and after the end when there is no evaluation end |
| StatusAgreement.DashboardAgreesInsideWindows | frontend/src/components/MainDashboard.js:154-164 | with all three dates and away from the start and end instants the dashboard and the backend agree |
| StatusAgreement.StartInstantActiveOnDashboard | frontend/src/components/MainDashboard.js:160-161 | exactly at the start instant the dashboard says active while the backend says EVALUATION_COMPLETE |
| StatusAgreement.NoEvaluationEndPartsWays | frontend/src/components/MainDashboard.js:162-163 | after the end without an evaluation end date the dashboard says completed while the backend says EVALUATION_COMPLETE |
| StatusAgreement.MissingStartReadsAsEpoch | frontend/src/components/MainDashboard.js:156-160 | a missing start date is SCHEDULED for the backend but never scheduled on the dashboard at a time after the epoch |
| StatusAgreement.WorkspaceAgreesAwayFromBoundaryDays | frontend_figma/src/utils/dateUtils.ts:16-35 | on a day that is neither the start day nor the end day the workspace phase is the backend's status read as a phase |
| StatusAgreement.PhaseAwayFromBoundaryDays | frontend_figma/src/utils/dateUtils.ts:28-34 | away from the boundary days the backend's status, read as a phase, is fixed by the day alone |
| StatusAgreement.EndDayIsInclusiveOnlyInBrowser | frontend_figma/src/utils/dateUtils.ts:30-31 | on the end day the workspace says recruiting while the backend is no longer IN_PROGRESS |
| ReviewPanel.CategorizeByStatus | frontend_figma/src/components/ApplicationReview.tsx:207-212 | each of the five groups holds exactly the applications whose status string is that status's name, in list order |
| ReviewPanel.GroupMembership | frontend_figma/src/components/ApplicationReview.tsx:207-212 | an application is in a status's group exactly when its status string names that status |
| ReviewPanel.GroupsAndUnknownCoverAll | frontend_figma/src/components/ApplicationReview.tsx:207-212 | the five group sizes plus the applications with an unknown status add up to all applications |
| ReviewPanel.ExactlyOneGroup | frontend_figma/src/components/ApplicationReview.tsx:207-212 | an application meets exactly one of the five status filters or has a status none of them names |
| ReviewPanel.GroupsPartition | frontend_figma/src/components/ApplicationReview.tsx:207-212 | when every status is a backend status the five groups partition the applications |
| ReviewPanel.EvaluatedCountOutsideFirstGroups | frontend_figma/src/components/ApplicationReview.tsx:1048 | the evaluated count is the number of applications in neither the before-evaluation nor the in-progress group |
| ReviewPanel.EvaluatedAreDecidedOrHeld | frontend_figma/src/components/ApplicationReview.tsx:1048 | with backend statuses only, the evaluated count is the size of the accepted, rejected and on-hold groups together |
| ReviewPanel.TotalAgreesWithIngestion | frontend_figma/src/components/ApplicationReview.tsx:652-655 | over answers that carry a report's scores one for one, the displayed total equals the total score the backend computes for that report (null counted 0 on both sides) |
| ReviewPanel.TotalWithinMax | frontend_figma/src/components/ApplicationReview.tsx:652-661 | when every score is within its item's maximum the displayed total is within the displayed maximum |
| FinalEvaluation.ConvertAppStatusToFinalStatus | frontend_figma/src/components/FinalEvaluation.tsx:65-75 | passed exactly for `passed`, failed exactly for `unqualified`, pending for every other label |
| FinalEvaluation.StatusMapRoundTrip | frontend_figma/src/components/FinalEvaluation.tsx:153-158 | reporting a status upwards and converting it back gives the status |
| FinalEvaluation.StatusMapReachesBackend | frontend_figma/src/components/FinalEvaluation.tsx:153-158 | the reported labels are app labels that the backend reads as ACCEPTED, REJECTED and BEFORE_EVALUATION |
| FinalEvaluation.Converted | frontend_figma/src/components/FinalEvaluation.tsx:78-84 | the statuses handed down are converted for exactly the same applicants: an applicant is passed exactly when the app says `passed`, failed exactly when it says `unqualified`, and pending otherwise |
| FinalEvaluation.Merge | frontend_figma/src/components/FinalEvaluation.tsx:100-102 | the merged statuses cover local and received applicants; a received status overrides the local one |
| FinalEvaluation.StatusChangeIsKept | frontend_figma/src/components/FinalEvaluation.tsx:145-160 | once the app hands a changed status back down, the merged status is the one chosen |
| FinalEvaluation.ReceivedOverridesLocal | frontend_figma/src/components/FinalEvaluation.tsx:100-102 | a local change of an applicant with a received status does not show until the app reports it back |
| FinalEvaluation.FromBackend | frontend_figma/src/components/FinalEvaluation.tsx:49-58 | a listed applicant keeps the application's id; its label is never the screen's `failed`; it is `passed` exactly when the backend status is ACCEPTED and `unqualified` exactly when it is REJECTED |
| FinalEvaluation.BucketOf | frontend_figma/src/components/FinalEvaluation.tsx:112-123 | passed exactly for `passed`, failed exactly for `failed`, pending for anything else |
| FinalEvaluation.Categorize | frontend_figma/src/components/FinalEvaluation.tsx:105-127 | the three lists together hold as many applicants as there are |
| FinalEvaluation.CategorizeIsFilter | frontend_figma/src/components/FinalEvaluation.tsx:105-127 | each list holds exactly the applicants placed there, in their order |
| FinalEvaluation.StatsCountApplicants | frontend_figma/src/components/FinalEvaluation.tsx:130-142 | the total count is the number of applicants and each count the number placed in its list |
| FinalEvaluation.MergedStatusDecides | frontend_figma/src/components/FinalEvaluation.tsx:111 | an applicant with a merged status is placed by it |
| FinalEvaluation.PlacementsDifferOnlyOnRejected | frontend_figma/src/components/FinalEvaluation.tsx:111-123 | the placement as written and the corrected one differ exactly for a REJECTED application without a merged status, which as written is pending |
| FinalEvaluation.RejectedLandsInPending | frontend_figma/src/components/FinalEvaluation.tsx:111-123 | a REJECTED application nobody re-rated is listed as pending, not failed |
| FinalEvaluation.CorrectedPlacementFollowsBackend | frontend_figma/src/components/FinalEvaluation.tsx:49-75 | with the label converted first, an application without a merged status passes when accepted, fails when rejected and is pending otherwise |
| ApplicationReview.Substring | frontend_figma/src/components/ApplicationReview.tsx:823 | when both ends lie inside the answer in order, `substring` is the slice between them |
| ApplicationReview.Occurrences | frontend_figma/src/components/ApplicationReview.tsx:757-772 | the search loop yields positions where the passage occurs, at or after the start, strictly increasing |
| ApplicationReview.OccurrencesComplete | frontend_figma/src/components/ApplicationReview.tsx:757-772 | since the next search starts one past each hit, every occurrence at or after the start is found, overlapping ones included |
| ApplicationReview.HighlightsOf | frontend_figma/src/components/ApplicationReview.tsx:757-770 | each highlight of one evaluation marks an occurrence of its passage, spans exactly the passage and carries its text, grade and evaluation index |
| ApplicationReview.Collect | frontend_figma/src/components/ApplicationReview.tsx:744-773 | every collected highlight marks its text in the answer and carries the passage and grade of the evaluation it names |
| ApplicationReview.CollectFindsEveryOccurrence | frontend_figma/src/components/ApplicationReview.tsx:744-773 | every occurrence of every non-empty passage is collected, under that evaluation's index; empty passages are skipped |
| ApplicationReview.SortedHighlights | frontend_figma/src/components/ApplicationReview.tsx:776 | the collected highlights sorted by start: ordered, the same multiset, each still marking its text |
| ApplicationReview.MinStart | frontend_figma/src/components/ApplicationReview.tsx:821 | `Math.min` over the overlapping group: a lower bound attained by one member |
| ApplicationReview.MaxEnd | frontend_figma/src/components/ApplicationReview.tsx:822 | `Math.max` over the overlapping group: an upper bound attained by one member |
| ApplicationReview.EveryHighlightIsProcessed | frontend_figma/src/components/ApplicationReview.tsx:793-856 | the grouping loop marks every highlight processed, so the fallback pass never fires |
| ApplicationReview.GroupOfRun | frontend_figma/src/components/ApplicationReview.tsx:820-840 | a group of a run of sorted highlights starts at its first member, ends at the members' furthest end inside the answer, and its text is that slice of the answer |
| ApplicationReview.SegmentReproduces | frontend_figma/src/components/ApplicationReview.tsx:873-901 | cutting the answer at groups that tile it in order yields parts whose texts concatenate to the answer |
| ApplicationReview.NoEvaluationsRenderPlain | frontend_figma/src/components/ApplicationReview.tsx:730-733 | with no evaluations the answer is rendered as one plain part |
| ApplicationReview.RunsWithoutOverlaps | frontend_figma/src/components/ApplicationReview.tsx:793-818 | without overlapping highlights the screen's grouping and the chained grouping make the same groups |
| ApplicationReview.RenderedPartsReproduceAnswer | frontend_figma/src/components/ApplicationReview.tsx:730-901 | when no two highlights overlap, the screen's parts show the answer exactly once |
| ApplicationReview.MergedPartsReproduceAnswer | frontend_figma/src/components/ApplicationReview.tsx:730-901 | with a group extended over each whole chain of overlaps, the parts show the answer exactly once for any evaluations |
| ApplicationReview.ChainedOverlapsDuplicateText | frontend_figma/src/components/ApplicationReview.tsx:793-901 | for three passages overlapping in a chain, the screen's parts repeat text of the answer while the chained grouping reproduces it |
| ApplicationReview.ChainExample | frontend_figma/src/components/ApplicationReview.tsx:793-901 | on `abcdef` with passages `ab`, `bcde`, `def` the screen shows `abcdedef` |
| ApplicationReview.MixedColor | frontend_figma/src/components/ApplicationReview.tsx:908-934 | one grade: green exactly for POSITIVE, red exactly for NEGATIVE; several: green exactly when positives outnumber negatives, red exactly for the reverse |
| ApplicationReview.MixedColorIsMajority | frontend_figma/src/components/ApplicationReview.tsx:908-934 | the single-grade branch agrees with the majority rule, so the colour is always the majority's |
| P2Evaluator.FindAnswerItem | llm/pipelines/p2_evaluator.py:115-120 | none exactly when no answer has the rule's id; otherwise the first answer with that id |
| P2Evaluator.ScoreOfFirst | llm/pipelines/p2_evaluator.py:141-146 | the score of the first criterion that matches, 0 when none does |
| P2Evaluator.ThresholdScore | llm/pipelines/p2_evaluator.py:292-296 | the score of a criterion with the largest threshold not above the value, and of the first such criterion in the rule's order when several share that threshold; 0 when the value is below every threshold |
| P2Evaluator.FirstOfThreshold | llm/pipelines/p2_evaluator.py:292 | the first criterion of the sorted list with a given threshold is the first criterion of the rule with that threshold |
| P2Evaluator.HighestReachedComesFirst | llm/pipelines/p2_evaluator.py:172-175 | in the criteria sorted by descending threshold, the first one reached is a criterion with the largest threshold not above the value, and none is reached only when the value is below all |
| P2Evaluator.FirstReachedIsHighest | llm/pipelines/p2_evaluator.py:172-175 | in a descending order no later reached criterion has a larger threshold than the first reached |
| P2Evaluator.FirstNumber | llm/pipelines/p2_evaluator.py:168-170 | none exactly when the content has no digit; otherwise the value of the digit run at the first digit |
| P2Evaluator.HoursScore | llm/pipelines/p2_evaluator.py:166-176 | a content without a digit scores 0 |
| P2Evaluator.MonthsAt | llm/pipelines/p2_evaluator.py:181 | a match of the months pattern starts at a digit |
| P2Evaluator.FirstMonths | llm/pipelines/p2_evaluator.py:181 | the leftmost position from which the months pattern matches, none when it matches nowhere |
| P2Evaluator.DurationScore | llm/pipelines/p2_evaluator.py:178-188 | a non-zero duration score needs a number of months in the stripped content |
| P2Evaluator.NoMonthsWordScoresZero | llm/pipelines/p2_evaluator.py:178-188 | a content without the word for months scores 0 |
| P2Evaluator.Points | llm/pipelines/p2_evaluator.py:198-206 | with non-negative points a sub-rule scores between 0 and its item limit times the points |
| P2Evaluator.Capped | llm/pipelines/p2_evaluator.py:209 | without a weight the total is kept; with one the result is the smaller of total and weight |
| P2Evaluator.CountMatching | llm/pipelines/p2_evaluator.py:200-204 | the loop counts exactly the certificates whose known type the sub-rule accepts |
| P2Evaluator.EvaluateRuleBasedCount | llm/pipelines/p2_evaluator.py:190-209 | the loops compute the capped sum of the sub-rules' scores, never above the weight when there is one |
| P2Evaluator.SubRuleTotalNonNegative | llm/pipelines/p2_evaluator.py:193-207 | with non-negative points the total of the sub-rules is non-negative |
| P2Evaluator.BlankContentCountsNothing | llm/pipelines/p2_evaluator.py:191-207 | a blank content yields no certificates, so every sub-rule scores 0 |
| P2Evaluator.ScoreRangeScore | llm/pipelines/p2_evaluator.py:212-228 | a blank content scores 0; otherwise the first criterion whose lower-cased description tokens include every applicant token decides the score, and when no criterion does the score is 0 |
| P2Evaluator.ScoreRangePicksFirstCovering | llm/pipelines/p2_evaluator.py:219-226 | for a non-blank content, the criterion whose description tokens contain every applicant token gives the score, provided each earlier criterion misses some token |
| P2Evaluator.ScoreRangeWithoutCoverIsZero | llm/pipelines/p2_evaluator.py:219-228 | when every criterion misses some applicant token, the score is 0 |
| P2Evaluator.FirstCoveringDecides | llm/pipelines/p2_evaluator.py:219-228 | over any token list, the first criterion whose description holds every token gives the score, and none gives 0 |
| P2Evaluator.SelectedCategoryDecides | llm/pipelines/p2_evaluator.py:122-146 | with a selected category the content, the university pattern and the knowledge bases do not affect the score |
| P2Evaluator.CategoryPartMatches | llm/pipelines/p2_evaluator.py:141-144 | a category listed as one `·` part of a criterion's description gets that criterion's score when no earlier criterion matches |
| P2Evaluator.ScoresByIdKeys | llm/pipelines/p2_evaluator.py:300-321 | the result's keys are exactly the rules' ids and each key holds the score of a rule with that id |
| P2Evaluator.ScoresByIdKeepsRule | llm/pipelines/p2_evaluator.py:300-321 | a rule whose id no later rule reuses has its own score under its id |
| P2Evaluator.Evaluate | llm/pipelines/p2_evaluator.py:298-321 | a score under exactly the rules' ids; a rule whose item was not answered scores 0 |
| P2Evaluator.EvaluateScoresEveryRule | llm/pipelines/p2_evaluator.py:301-320 | a rule whose id no later rule reuses has its own result under its id |
| P2Evaluator.ReportTotal | llm/pipelines/p2_evaluator.py:483-492 | the backend's total of the report is the sum of the answers' quantitative scores, since no score is sent as null |
| SentenceRefiner.ColonSpaceRun | llm/pipelines/p1_builder.py:59 | the run of colons and whitespace after the marker: all of it matches `[:\s]` and it stops at the first character that does not |
| SentenceRefiner.DropThrough | llm/pipelines/p1_builder.py:59 | removing every shortest prefix that ends with the marker leaves a suffix without the marker; a text without the marker is kept |
| SentenceRefiner.DropPreamble | llm/pipelines/p1_builder.py:59 | the cleaned text is a suffix of the clue without the marker phrase, and the clue itself when the marker is absent |
| SentenceRefiner.CleanClue | llm/pipelines/p1_builder.py:59-60 | the cleaned clue has no quotation marks and no leading or trailing whitespace |
| SentenceRefiner.FirstBreak | llm/pipelines/p1_builder.py:61 | the first position at which a sentence ends (after `.`, `!` or `?`, before whitespace) |
| SentenceRefiner.Sentences | llm/pipelines/p1_builder.py:61 | at least one piece; every piece is a piece of the text; every piece but the last ends a sentence |
| SentenceRefiner.BestMatch | llm/pipelines/p1_builder.py:68-74 | no pick exactly when no sentence has more than half of the words; otherwise a qualifying sentence with the highest count, and every earlier qualifying one has a lower count, so a tie keeps the earlier sentence |
| SentenceRefiner.Choose | llm/pipelines/p1_builder.py:62-75 | nothing for fewer than three words; anything returned is one of the sentences, stripped |
| SentenceRefiner.Refine | llm/pipelines/p1_builder.py:57-75 | a clue of fewer than three words gives the empty string; a non-empty result is one of the original's sentences, stripped |
| SentenceRefiner.PhraseMatchWins | llm/pipelines/p1_builder.py:64-67 | the first sentence containing the clue's first five words is the result, whatever the fuzzy counts |
| SentenceRefiner.QualifyingSentenceNotBlank | llm/pipelines/p1_builder.py:72-74 | a sentence holding more than half of the clue's words is not blank once stripped, so a fuzzy pick is never mistaken for no pick |
| SentenceRefiner.FuzzyFallback | llm/pipelines/p1_builder.py:68-75 | without a phrase match the result is empty exactly when no sentence qualifies, and otherwise a qualifying sentence with the highest count, the earliest on a tie |
| SentenceRefiner.RefinedIsOriginal | llm/pipelines/p1_builder.py:61-75 | a non-empty refined sentence is one of the original's sentences, stripped |
| P1Builder.GenerateScoringRules | llm/pipelines/p1_builder.py:106-117 | the rules keep their number and order and each differs from its item at most in the rule type; with a job role every item named for career becomes a career-similarity rule; an item not named for career, and every item when there is no job role, passes through unchanged |
| P1Builder.GenerateScoringRulesIdempotent | llm/pipelines/p1_builder.py:111-117 | applying the rewrite twice gives the rewrite |
| P1Builder.RewriteKeepsScoredItems | llm/pipelines/p1_builder.py:111-117 | the evaluator scores the same rule ids before and after the rewrite |
| P1Builder.RewrittenRuleScores | llm/pipelines/p1_builder.py:111-117 | a rewritten career item is scored by the similarity rule; every other item scores as before |
| P1Builder.CriterionPacket | llm/pipelines/p1_builder.py:154 | a criterion packet has type `criterion`, the question's id and the criterion as content |
| P1Builder.CriteriaPackets | llm/pipelines/p1_builder.py:153-156 | as many packets as (question, criterion) pairs |
| P1Builder.CriteriaPacketAt | llm/pipelines/p1_builder.py:153-156 | the packet of criterion k of question i sits at the number of earlier pairs plus k |
| P1Builder.CriteriaPacketsFromPairs | llm/pipelines/p1_builder.py:153-156 | every packet is the packet of some question and one of its criteria |
| P1Builder.TasksComeFromGroups | llm/pipelines/p1_builder.py:161-167 | every task's example is listed under its label in a group of its question, for a criterion of some packet |
| P1Builder.EveryExampleIsPrompted | llm/pipelines/p1_builder.py:161-167 | every good or bad example of a group with the packet's question becomes a task with that criterion and label |
| P1Builder.ExampleRecord | llm/pipelines/p1_builder.py:189-192 | an example record has type `example_sentence`, the task's question, and the label, criterion name and sentence as content |
| P1Builder.TallyCountsTasks | llm/pipelines/p1_builder.py:187-195 | per criterion, successes and failures add up to its tasks, successes equal its records, and it has a tally exactly when it has tasks |
| P1Builder.RecordsAreKeptSentences | llm/pipelines/p1_builder.py:188-193 | the records are exactly the kept answers' entries: one per task whose sentence is non-empty and not a refusal |
| P1Builder.KeptSentenceIsOriginal | llm/pipelines/p1_builder.py:181-188 | a kept sentence is one of the example's own sentences, stripped |
| P1Builder.UploadRagData | llm/pipelines/p1_builder.py:208-239 | a missing or empty file skips the upload; otherwise the store gets one document, metadata and id per example-sentence entry, in order, the id being its packet id |
| P1Builder.UploadOfBuiltData | llm/pipelines/p1_builder.py:230-239 | uploading freshly built data stores exactly the example records, under their packet ids |
| P1Builder.SelectedAreRecords | llm/pipelines/p1_builder.py:231 | of the criterion packets followed by the records, the upload selects exactly the records |
| Sorting.SortBy | frontend_figma/src/components/ApplicationReview.tsx:776 | the result is ordered by the key and is a permutation of the input |
| Sorting.SortIsStable | llm/pipelines/p2_evaluator.py:172 | elements with equal keys keep their relative order, as Python's `sorted` and the array sort do |
| Sorting.FirstOfKeyIsFirstInInput | llm/pipelines/p2_evaluator.py:172 | the first sorted element with a given key is the first input element with that key |
| Text.IndexOf | frontend_figma/src/components/ApplicationReview.tsx:759 | `indexOf` from a position: the first occurrence at or after it, none when there is none |
| Text.JoinSplit | llm/pipelines/p2_evaluator.py:192 | joining the pieces of a split with the separator gives back the text |
| Text.StripEmptyIffAllSpace | llm/pipelines/p2_evaluator.py:179-180 | a stripped content is empty exactly when the content is all whitespace |

## Left out

- HTTP controllers, request validation, the exception handler, JPA repositories, and the transaction machinery beyond "an error leaves the store unchanged" are not modelled.
- File storage, JSON file reading and writing, and the vector store's I/O are not modelled. `UploadRagData` models only which documents, metadata and ids are handed to the store.
- The serialised snapshot fields (cover-letter evaluations, overall analysis, resume-score snapshot) are opaque strings or plain sequences, not JSON.
- The asynchronous forwarding of a submission to the evaluator, and the HTTP calls between the services, are not modelled.
- The cron timing of the daily re-scan is not modelled. The re-scan is a function of the postings and "now".
- Concurrency between ingestions is not modelled.
- The server clock and the conversion to Korean time are parameters: `koreaNowMs` is given, not computed.
- JavaScript `Date` is modelled only through its day arithmetic (`MakeDay` with month overflow). Time of day below a day, time zones and the millisecond range limit are left out.
- Completion rates in the backend are floating-point and are not modelled. The export's `final_score_formula` weights are the integer percentages; the source divides them by 100 as doubles.
- GPA ranges, career cosine similarity and embeddings in the evaluator are floating-point and are one oracle `floatRule`. The career-similarity rule is part of the same oracle, and as written it behaves as follows:
  - A blank content scores 0.
  - When the extracted job title or the rule's `target_job_role` is empty, the similarity is 0.0 and no embedding is computed. Below the rule's similarity threshold (0.7 by default), the rule then scores `min(8, d * 0.5)`, where `d` is the threshold score of the extracted months under the rule's criteria: half the duration score, not half the months.
  - When both are non-empty, the rule reads an `embedding_model` attribute that the evaluator never sets and raises.
- The university-name regular expression and the knowledge-base loading are parameters (`university`, `universityGroups`, `certTypes`).
- The language model, Chroma, batching into groups of eight, and the prompt text are not modelled. The model's answer to each task is a parameter.
- `delete_collection` failing on a missing collection is not modelled.
- Character classes are ASCII only. Digits, whitespace and lower-casing are ASCII, where Python and JavaScript use Unicode classes.
- The fuzzy score `match_count / len(key_phrases) > 0.5` is compared on integers as `2 * count > words`. This is exact for those ratios.
- `int(description)` raising on a non-numeric threshold is not modelled. A criterion carries its threshold as an integer.
- React rendering, hooks, tooltips, form components and the Figma-export components are not modelled.
- The final-evaluation screen's statistics cards and the review screen's search box are not modelled.
- ReviewPanel.CategorizeByStatus: each group is stated as the status filter in list order. The screen then sorts each group by applicant name with `localeCompare`, which is locale-dependent and is not modelled.
- ApplicationReview.Occurrences: positions are found by searching from one past each hit, as the screen does. The string ids `${evalIndex}-${matchCount}` are unique, so the model tracks processed highlights by position.
- EvaluationIngestion.ProcessEvaluationResult: an evaluation whose `resumeItemId` is null is not representable. The source's `findById(null)` rejects it with IllegalArgumentException and the ingestion rolls back, on both paths; the model's report items always carry an id, as the evaluator's always do.
- P2Evaluator.Evaluate: an answer whose `resumeContent` is present but null is not representable, and the backend does forward a null content. The source then raises on `.strip()`, `.lower()` or the pattern search, and the whole evaluation fails; the model reads every content as a string.
- P1Builder.GenerateScoringRules: the rules file keeps the backend's camelCase `scorePerGrade` and `scoreWeight` keys, but the evaluator reads `score_per_grade` and `score_weight`. As written, every criterion the evaluator matches scores 0 through the lookup's default, a certificate sub-rule raises `KeyError`, and no rule is capped. The model reads each pair of keys as one field, `Criterion.scorePerGrade` and `Rule.scoreWeight`.
- ReviewPanel.TotalAgreesWithIngestion: the lemma is stated over answers that carry the report's scores one for one, not over the answer rows after `EvaluationIngestion.WriteScores`; relating the two needs each item to have one answer and one evaluation, which the store does not enforce.
- P2Evaluator.HoursScore: the contract states only the no-number case. The number case is `ThresholdScore` on `FirstNumber`, whose contracts state it.
- P2Evaluator.DurationScore: the contract states only that a non-zero score needs a number of months. The months case is `ThresholdScore` on `FirstMonths`.
- EvaluationIngestion.ProcessEvaluationResult: the result's link to its application is a `@OneToOne` join column (EvaluationResult.java:27-28), and a schema that Hibernate 6.2 or later generates puts a unique constraint on such a column. Under that schema a second result for the same application fails on insert and the ingestion rolls back. The model assumes a schema without that constraint, so the insert succeeds and results accumulate. `EvaluationIngestion.RegularPathAccumulatesResults` and `EvaluationIngestion.AdminFailsOnDuplicatedResults` rest on the same assumption. The schema and the Hibernate version are not part of this model.
- MainDashboard.GetApplicationStats: the percentage is the exact share rounded, as `MainDashboard.RoundedPercentage` computes it, not the screen's double arithmetic (see that line).
- Text.IsSpace: Python's `str.split()`, `str.strip()` and `\s` also count the separators U+001C to U+001F and non-ASCII spaces as whitespace, and JavaScript counts non-ASCII spaces such as U+00A0. The model uses only the six C whitespace characters for both languages, so text holding those other characters is read differently.
- ApplicationStore.LatestApplicationOf: `findByApplicant` (ApplicationRepository.java:18) has no ORDER BY, so the database may return the applicant's applications in any order, and `applications.get(size - 1)` need not be the latest. The model reads the list in creation (id) order, so the last element is the newest application. `ApplicationStore.ApplicantByEmail` rests on the same assumption for `findAllByEmail` (ApplicantRepository.java:15) and its `findFirst()`. `EvaluationIngestion.ResolveLatestApplication` and `EvaluationIngestion.ResolveForAdmin` inherit it.
- EvaluationIngestion.CalculateTotalScore: Java `int` overflow of the total is not modelled. Totals are unbounded integers.
- MainDashboard.RoundedPercentage: the screen computes `Math.round(n / d * 100)` in doubles, and the model rounds the exact rational. The two differ when the double product falls just below a half: 23 of 40 gives 57 on the screen and 58 in the model, and 29 of 200 gives 14 and 15. IEEE-754 arithmetic is not modelled.

## Findings

| source | as written | input that shows it | evidently intended | confidence | as-written member | corrected member |
|---|---|---|---|---|---|---|
| frontend_figma/src/components/ApplicationReview.tsx:811 | a highlight joins a group when it starts before the end of the group's first highlight, but the group then spans to the furthest end of its members | answer `abcdef` with passages `ab`, `bcde`, `def`: the rendered parts read `abcdedef` | the parts show the answer exactly once: a group extends over the whole chain of overlaps | high, not executed | ApplicationReview.ChainedOverlapsDuplicateText | ApplicationReview.MergedPartsReproduceAnswer |
| frontend_figma/src/components/FinalEvaluation.tsx:111-123 | an applicant without a merged status is placed by its app label as it is, and the label of a rejected application is `unqualified`, which no case of the switch names | an application with backend status `REJECTED` that nobody re-rated is listed as pending | the label is converted first, as the screen's other paths do, so a rejected application is listed as failed | medium, not executed | FinalEvaluation.RejectedLandsInPending | FinalEvaluation.CorrectedPlacementFollowsBackend |

=== FILE: api_utils.dfy ===
/** The frontend's converters between the backend's enum names and the labels
    its screens use. Inputs arrive as plain strings over JSON, so every
    converter also has a default branch for a value it does not know. */
module ApiUtils {
  import opened Postings
  import opened ApplicationStatuses

  /** The four posting labels of the workspace screens. */
  const PostingLabels: seq<string> := ["recruiting", "scheduled", "recruitment-completed", "evaluation-completed"]

  /** `apiUtils.convertPostingStatus`: a backend posting-status name to its
      label; anything else reads as scheduled. */
  function ConvertPostingStatus(status: string): (tag: string)
    ensures tag in PostingLabels
    ensures (forall st: PostingStatus :: st.Name() != status) ==> tag == "scheduled"
  {
    if status == PostingStatus.InProgress.Name() then "recruiting"
    else if status == Scheduled.Name() then "scheduled"
    else if status == Closed.Name() then "recruitment-completed"
    else if status == EvaluationComplete.Name() then "evaluation-completed"
    else "scheduled"
  }

  /** `apiUtils.convertToPostingStatus`: a label back to the enum; anything
      else reads as `SCHEDULED`. */
  function ConvertToPostingStatus(tag: string): (st: PostingStatus)
    ensures tag !in PostingLabels ==> st == Scheduled
  {
    if tag == "recruiting" then PostingStatus.InProgress
    else if tag == "scheduled" then Scheduled
    else if tag == "recruitment-completed" then Closed
    else if tag == "evaluation-completed" then EvaluationComplete
    else Scheduled
  }

  /** Every posting status survives the trip to its label and back. */
  lemma PostingStatusRoundTrip(st: PostingStatus)
    ensures ConvertToPostingStatus(ConvertPostingStatus(st.Name())) == st
  {
  }

  /** Every posting label survives the trip to the enum and back. */
  lemma PostingLabelRoundTrip(tag: string)
    requires tag in PostingLabels
    ensures ConvertPostingStatus(ConvertToPostingStatus(tag).Name()) == tag
  {
  }

  /** The five application labels the review screens know. */
  const ApplicationLabels: seq<string> := ["passed", "failed", "pending", "not-evaluated", "unqualified"]

  /** `apiUtils.convertApplicationStatus`: a backend application-status name
      to its label. `IN_PROGRESS` and `ON_HOLD` share `pending`, and anything
      else reads as not evaluated. */
  function ConvertApplicationStatus(status: string): (tag: string)
    ensures tag in ApplicationLabels && tag != "failed"
    ensures (forall st: ApplicationStatus :: st.Name() != status) ==> tag == "not-evaluated"
  {
    if status == Accepted.Name() then "passed"
    else if status == Rejected.Name() then "unqualified"
    else if status == BeforeEvaluation.Name() then "not-evaluated"
    else if status == ApplicationStatus.InProgress.Name() then "pending"
    else if status == OnHold.Name() then "pending"
    else "not-evaluated"
  }

  /** `apiUtils.convertToApplicationStatus`: a label back to the enum. The
      label `failed` has no case and, like any unknown label, reads as
      `BEFORE_EVALUATION`. */
  function ConvertToApplicationStatus(tag: string): (st: ApplicationStatus)
    ensures tag !in ["passed", "unqualified", "not-evaluated", "pending"] ==> st == BeforeEvaluation
    ensures st != OnHold
  {
    if tag == "passed" then Accepted
    else if tag == "unqualified" then Rejected
    else if tag == "not-evaluated" then BeforeEvaluation
    else if tag == "pending" then ApplicationStatus.InProgress
    else BeforeEvaluation
  }

  /** The application round trip is the identity on every status except
      `ON_HOLD`, which comes back as `IN_PROGRESS`. */
  lemma ApplicationStatusRoundTrip(st: ApplicationStatus)
    ensures st != OnHold ==> ConvertToApplicationStatus(ConvertApplicationStatus(st.Name())) == st
    ensures st == OnHold ==> ConvertToApplicationStatus(ConvertApplicationStatus(st.Name())) == ApplicationStatus.InProgress
  {
  }

  /** The label map is not injective: two different statuses share `pending`. */
  lemma OnHoldCollapsesIntoPending()
    ensures OnHold != ApplicationStatus.InProgress
    ensures ConvertApplicationStatus(OnHold.Name()) == ConvertApplicationStatus(ApplicationStatus.InProgress.Name()) == "pending"
  {
  }

  /** Every label the converter produces comes back unchanged from the enum. */
  lemma ApplicationLabelRoundTrip(tag: string)
    requires tag in ApplicationLabels && tag != "failed"
    ensures ConvertApplicationStatus(ConvertToApplicationStatus(tag).Name()) == tag
  {
  }

  /** `failed` is a label of the screens that no backend status maps to, and
      it does not map back to any decided status. */
  lemma FailedIsNeverProduced(status: string)
    ensures ConvertApplicationStatus(status) != "failed"
    ensures ConvertToApplicationStatus("failed") == BeforeEvaluation
  {
  }
}

=== FILE: application_review.dfy ===
/** The review screen's answer highlighting: every occurrence of every
    evaluated passage is found in the answer, the occurrences are sorted by
    position, overlapping ones are grouped, and the answer is cut into plain
    and highlighted parts; and the colour of a highlighted part. */
module ApplicationReview {
  import opened Wrappers
  import opened Seqs
  import opened Text
  import opened Sorting
  import opened Numbers

  /** One entry of `answerEvaluations`: the evaluated passage and its grade. */
  datatype AnswerEvaluation = AnswerEvaluation(content: string, grade: string)

  /** The highlight id `${evalIndex}-${matchCount}`. */
  datatype HighlightId = HighlightId(evalIndex: nat, matchIndex: nat)

  datatype Highlight = Highlight(start: nat, end: nat, text: string, grade: string, id: HighlightId)

  /** A merged highlight: the span, its text and the grades of its members. */
  datatype Group = Group(start: int, end: int, text: string, grades: seq<string>, ids: seq<HighlightId>)

  /** A piece of the rendered answer. */
  datatype Part = Part(text: string, highlighted: bool, grades: seq<string>)

  function Clamp(x: int, n: nat): nat {
    if x < 0 then 0 else if x > n then n else x
  }

  /** `s.substring(a, b)`: both ends clamped to the string, swapped when
      given in the wrong order. */
  function Substring(s: string, a: int, b: int): (r: string)
    ensures 0 <= a <= b <= |s| ==> r == s[a..b]
  {
    var i, j := Clamp(a, |s|), Clamp(b, |s|);
    if i <= j then s[i..j] else s[j..i]
  }

  // ---------------------------------------------------------------------------
  // Collecting the highlights

  /** The search loop: `indexOf` from `from`, then again one position after
      each hit, so overlapping repeats are found too. */
  function Occurrences(answer: string, c: string, from: nat): (r: seq<nat>)
    requires c != []
    ensures forall a | 0 <= a < |r| :: from <= r[a] && OccursAt(answer, c, r[a])
    ensures forall a, b | 0 <= a < b < |r| :: r[a] < r[b]
    decreases |answer| - from
  {
    match IndexOf(answer, c, from)
    case None => []
    case Some(k) => [k] + Occurrences(answer, c, k + 1)
  }

  /** The loop misses no occurrence at or after its starting point. */
  lemma {:induction false} OccurrencesComplete(answer: string, c: string, from: nat, k: nat)
    requires c != [] && from <= k && OccursAt(answer, c, k)
    ensures k in Occurrences(answer, c, from)
    decreases |answer| - from
  {
    match IndexOf(answer, c, from)
    case None =>
    case Some(f) =>
      if f < k {
        OccurrencesComplete(answer, c, f + 1, k);
      }
  }

  /** The highlights of one evaluation with non-empty content. */
  function HighlightsOf(answer: string, e: AnswerEvaluation, evalIndex: nat): (r: seq<Highlight>)
    requires e.content != []
    ensures forall k | 0 <= k < |r| ::
      && OccursAt(answer, e.content, r[k].start)
      && r[k].end == r[k].start + |e.content|
      && r[k].text == e.content && r[k].grade == e.grade && r[k].id.evalIndex == evalIndex
  {
    var occ := Occurrences(answer, e.content, 0);
    seq(|occ|, m requires 0 <= m < |occ| =>
      Highlight(occ[m], occ[m] + |e.content|, e.content, e.grade, HighlightId(evalIndex, m)))
  }

  /** A highlight that marks exactly its own text in the answer. */
  predicate Marks(answer: string, h: Highlight) {
    h.start < h.end <= |answer| && answer[h.start..h.end] == h.text
  }

  /** The collection pass over all evaluations; one with empty content adds
      nothing. */
  function Collect(answer: string, evals: seq<AnswerEvaluation>): (r: seq<Highlight>)
    ensures forall k | 0 <= k < |r| ::
      && Marks(answer, r[k])
      && r[k].id.evalIndex < |evals|
      && r[k].text == evals[r[k].id.evalIndex].content
      && r[k].grade == evals[r[k].id.evalIndex].grade
  {
    if evals == [] then []
    else
      var init := evals[..|evals| - 1];
      var e := evals[|evals| - 1];
      Collect(answer, init) + (if e.content == [] then [] else HighlightsOf(answer, e, |evals| - 1))
  }

  /** Every occurrence of every non-empty evaluated passage is highlighted. */
  lemma {:induction false} CollectFindsEveryOccurrence(answer: string, evals: seq<AnswerEvaluation>, i: nat, k: nat)
    requires i < |evals| && evals[i].content != [] && OccursAt(answer, evals[i].content, k)
    ensures exists h | h in Collect(answer, evals) :: h.start == k && h.id.evalIndex == i
  {
    var init := evals[..|evals| - 1];
    var e := evals[|evals| - 1];
    var tail := if e.content == [] then [] else HighlightsOf(answer, e, |evals| - 1);
    assert Collect(answer, evals) == Collect(answer, init) + tail;
    if i < |evals| - 1 {
      assert init[i] == evals[i];
      CollectFindsEveryOccurrence(answer, init, i, k);
      var h :| h in Collect(answer, init) && h.start == k && h.id.evalIndex == i;
      assert h in Collect(answer, evals);
    } else {
      var occ := Occurrences(answer, e.content, 0);
      OccurrencesComplete(answer, e.content, 0, k);
      var m :| 0 <= m < |occ| && occ[m] == k;
      assert tail[m] in Collect(answer, evals);
    }
  }

  function StartKey(h: Highlight): int {
    h.start
  }

  /** `allHighlights` after the sort by start position. */
  function SortedHighlights(answer: string, evals: seq<AnswerEvaluation>): (r: seq<Highlight>)
    ensures SortedBy(r, StartKey)
    ensures multiset(r) == multiset(Collect(answer, evals))
    ensures forall k | 0 <= k < |r| :: Marks(answer, r[k])
  {
    var hs := Collect(answer, evals);
    var r := SortBy(hs, StartKey);
    assert forall k | 0 <= k < |r| :: r[k] in multiset(hs);
    r
  }

  // ---------------------------------------------------------------------------
  // Grouping

  /** The inner loop of the grouping: from position `j`, take every highlight
      not yet processed that starts before `end`, and stop at the first one
      that does not. With `chained` the bound grows to the end of each
      highlight taken, so a group extends over a chain of overlaps; without
      it the bound stays the end of the group's first highlight, as the
      screen has it. Returns the members taken and the processed positions. */
  function Gather(hs: seq<Highlight>, j: nat, end: int, processed: set<nat>, chained: bool): (r: (seq<Highlight>, set<nat>))
    decreases |hs| - j
  {
    if j >= |hs| then ([], processed)
    else if j in processed then Gather(hs, j + 1, end, processed, chained)
    else if hs[j].start < end then
      var rest := Gather(hs, j + 1, if chained then Max(end, hs[j].end) else end, processed + {j}, chained);
      ([hs[j]] + rest.0, rest.1)
    else ([], processed)
  }

  /** The smallest start of a non-empty list of highlights. */
  function MinStart(xs: seq<Highlight>): (r: int)
    requires xs != []
    ensures forall k | 0 <= k < |xs| :: r <= xs[k].start
    ensures exists k | 0 <= k < |xs| :: r == xs[k].start
  {
    if |xs| == 1 then xs[0].start
    else
      var m := MinStart(xs[..|xs| - 1]);
      assert forall k | 0 <= k < |xs| - 1 :: xs[..|xs| - 1][k] == xs[k];
      Min(m, xs[|xs| - 1].start)
  }

  /** The largest end of a non-empty list of highlights. */
  function MaxEnd(xs: seq<Highlight>): (r: int)
    requires xs != []
    ensures forall k | 0 <= k < |xs| :: xs[k].end <= r
    ensures exists k | 0 <= k < |xs| :: r == xs[k].end
  {
    if |xs| == 1 then xs[0].end
    else
      var m := MaxEnd(xs[..|xs| - 1]);
      assert forall k | 0 <= k < |xs| - 1 :: xs[..|xs| - 1][k] == xs[k];
      Max(m, xs[|xs| - 1].end)
  }

  function Grades(xs: seq<Highlight>): (r: seq<string>)
    ensures |r| == |xs| && forall k | 0 <= k < |xs| :: r[k] == xs[k].grade
  {
    seq(|xs|, k requires 0 <= k < |xs| => xs[k].grade)
  }

  function Ids(xs: seq<Highlight>): (r: seq<HighlightId>)
    ensures |r| == |xs| && forall k | 0 <= k < |xs| :: r[k] == xs[k].id
  {
    seq(|xs|, k requires 0 <= k < |xs| => xs[k].id)
  }

  /** One group from its members: several are merged over the span from the
      smallest start to the largest end, one is kept as it is. */
  function MakeGroup(answer: string, overlapping: seq<Highlight>): Group
    requires overlapping != []
  {
    if |overlapping| > 1 then
      var start, end := MinStart(overlapping), MaxEnd(overlapping);
      Group(start, end, Substring(answer, start, end), Grades(overlapping), Ids(overlapping))
    else
      var h := overlapping[0];
      Group(h.start, h.end, h.text, [h.grade], [h.id])
  }

  /** The outer grouping loop from position `i`, appending to `acc`. Returns
      the groups and the processed positions. */
  function GroupFrom(answer: string, hs: seq<Highlight>, i: nat, processed: set<nat>, acc: seq<Group>,
                     chained: bool): (r: (seq<Group>, set<nat>))
    decreases |hs| - i
  {
    if i >= |hs| then (acc, processed)
    else if i in processed then GroupFrom(answer, hs, i + 1, processed, acc, chained)
    else
      var current := hs[i];
      var gathered := Gather(hs, i + 1, current.end, processed + {i}, chained);
      GroupFrom(answer, hs, i + 1, gathered.1, acc + [MakeGroup(answer, [current] + gathered.0)], chained)
  }

  /** The fallback loop: a group for every highlight the grouping left
      unprocessed, in order. */
  function Fallback(hs: seq<Highlight>, processed: set<nat>): (r: seq<Group>)
    ensures (forall k | 0 <= k < |hs| :: k in processed) ==> r == []
  {
    if hs == [] then []
    else
      var n := |hs| - 1;
      Fallback(hs[..n], processed) +
        (if n in processed then [] else [Group(hs[n].start, hs[n].end, hs[n].text, [hs[n].grade], [hs[n].id])])
  }

  /** After the grouping loop every highlight has been processed, so the
      fallback loop adds nothing. */
  lemma EveryHighlightIsProcessed(answer: string, hs: seq<Highlight>, chained: bool)
    ensures forall k | 0 <= k < |hs| :: k in GroupFrom(answer, hs, 0, Below(0), [], chained).1
    ensures Fallback(hs, GroupFrom(answer, hs, 0, Below(0), [], chained).1) == []
  {
    GroupFromRuns(answer, hs, 0, [], chained);
    FallbackAfterAll(hs);
  }

  /** The positions `0 .. n - 1`. */
  function Below(n: nat): (r: set<nat>)
    ensures forall k: nat :: k in r <==> k < n
  {
    if n == 0 then {} else Below(n - 1) + {n - 1}
  }

  /** Where the inner loop stops when no highlight from `j` on has been
      processed yet. */
  function RunEnd(hs: seq<Highlight>, j: nat, end: int, chained: bool): (b: nat)
    requires j <= |hs|
    ensures j <= b <= |hs|
    decreases |hs| - j
  {
    if j == |hs| then j
    else if hs[j].start < end then RunEnd(hs, j + 1, if chained then Max(end, hs[j].end) else end, chained)
    else j
  }

  /** With the positions before `j` processed, the inner loop takes the
      contiguous run up to `RunEnd`. */
  lemma {:induction false} GatherRun(hs: seq<Highlight>, j: nat, end: int, chained: bool)
    requires j <= |hs|
    ensures Gather(hs, j, end, Below(j), chained) ==
      (hs[j..RunEnd(hs, j, end, chained)], Below(RunEnd(hs, j, end, chained)))
    decreases |hs| - j
  {
    BelowNext(j);
    if j < |hs| && hs[j].start < end {
      var end' := if chained then Max(end, hs[j].end) else end;
      GatherUnfold(hs, j, end, Below(j), chained);
      GatherRun(hs, j + 1, end', chained);
      SliceCons(hs, j, RunEnd(hs, j + 1, end', chained));
    } else {
      assert hs[j..j] == [];
    }
  }

  lemma BelowNext(j: nat)
    ensures j !in Below(j) && Below(j) + {j} == Below(j + 1)
  {
  }

  lemma SliceCons<T>(xs: seq<T>, j: nat, b: nat)
    requires j < b <= |xs|
    ensures xs[j..b] == [xs[j]] + xs[j + 1..b]
  {
  }

  lemma GatherUnfold(hs: seq<Highlight>, j: nat, end: int, processed: set<nat>, chained: bool)
    requires j < |hs| && j !in processed && hs[j].start < end
    ensures var rest := Gather(hs, j + 1, if chained then Max(end, hs[j].end) else end, processed + {j}, chained);
      Gather(hs, j, end, processed, chained) == ([hs[j]] + rest.0, rest.1)
  {
  }

  /** The groups the loop makes, as contiguous runs of the sorted highlights. */
  function Runs(answer: string, hs: seq<Highlight>, i: nat, chained: bool): seq<Group>
    requires i <= |hs|
    decreases |hs| - i
  {
    if i == |hs| then []
    else
      var b := RunEnd(hs, i + 1, hs[i].end, chained);
      [MakeGroup(answer, hs[i..b])] + Runs(answer, hs, b, chained)
  }

  lemma {:induction false} SkipProcessed(answer: string, hs: seq<Highlight>, i: nat, b: nat, acc: seq<Group>, chained: bool)
    requires i <= b <= |hs|
    ensures GroupFrom(answer, hs, i, Below(b), acc, chained) == GroupFrom(answer, hs, b, Below(b), acc, chained)
    decreases b - i
  {
    if i < b {
      assert i in Below(b);
      SkipProcessed(answer, hs, i + 1, b, acc, chained);
    }
  }

  /** One step of the outer loop when the positions before `i` are processed. */
  lemma GroupFromStep(answer: string, hs: seq<Highlight>, i: nat, acc: seq<Group>, chained: bool)
    requires i < |hs|
    ensures var b := RunEnd(hs, i + 1, hs[i].end, chained);
      GroupFrom(answer, hs, i, Below(i), acc, chained) ==
      GroupFrom(answer, hs, i + 1, Below(b), acc + [MakeGroup(answer, hs[i..b])], chained)
  {
    GroupFromUnfold(answer, hs, i, Below(i), acc, chained);
    GatherAfter(hs, i, chained);
  }

  lemma GroupFromUnfold(answer: string, hs: seq<Highlight>, i: nat, processed: set<nat>, acc: seq<Group>, chained: bool)
    requires i < |hs| && i !in processed
    ensures var gathered := Gather(hs, i + 1, hs[i].end, processed + {i}, chained);
      GroupFrom(answer, hs, i, processed, acc, chained) ==
      GroupFrom(answer, hs, i + 1, gathered.1, acc + [MakeGroup(answer, [hs[i]] + gathered.0)], chained)
  {
  }

  lemma GatherAfter(hs: seq<Highlight>, i: nat, chained: bool)
    requires i < |hs|
    ensures i !in Below(i)
    ensures var b := RunEnd(hs, i + 1, hs[i].end, chained);
      var gathered := Gather(hs, i + 1, hs[i].end, Below(i) + {i}, chained);
      [hs[i]] + gathered.0 == hs[i..b] && gathered.1 == Below(b)
  {
    BelowNext(i);
    GatherRun(hs, i + 1, hs[i].end, chained);
    SliceCons(hs, i, RunEnd(hs, i + 1, hs[i].end, chained));
  }

  /** The grouping loop yields the runs and processes every position. */
  lemma {:induction false} GroupFromRuns(answer: string, hs: seq<Highlight>, i: nat, acc: seq<Group>, chained: bool)
    requires i <= |hs|
    ensures GroupFrom(answer, hs, i, Below(i), acc, chained) == (acc + Runs(answer, hs, i, chained), Below(|hs|))
    decreases |hs| - i
  {
    if i < |hs| {
      var b := RunEnd(hs, i + 1, hs[i].end, chained);
      var acc' := acc + [MakeGroup(answer, hs[i..b])];
      calc {
        GroupFrom(answer, hs, i, Below(i), acc, chained);
        { GroupFromStep(answer, hs, i, acc, chained); }
        GroupFrom(answer, hs, i + 1, Below(b), acc', chained);
        { SkipProcessed(answer, hs, i + 1, b, acc', chained); }
        GroupFrom(answer, hs, b, Below(b), acc', chained);
        { GroupFromRuns(answer, hs, b, acc', chained); }
        (acc' + Runs(answer, hs, b, chained), Below(|hs|));
        { RunsStep(answer, hs, i, acc, chained); }
        (acc + Runs(answer, hs, i, chained), Below(|hs|));
      }
    } else {
      assert acc + [] == acc;
    }
  }

  lemma RunsStep(answer: string, hs: seq<Highlight>, i: nat, acc: seq<Group>, chained: bool)
    requires i < |hs|
    ensures var b := RunEnd(hs, i + 1, hs[i].end, chained);
      acc + [MakeGroup(answer, hs[i..b])] + Runs(answer, hs, b, chained) == acc + Runs(answer, hs, i, chained)
  {
  }

  // ---------------------------------------------------------------------------
  // Cutting the answer into parts

  /** The cutting loop, from position `cur` with the parts `acc` so far: the
      plain text before each group, the group, and the plain rest. */
  function Segment(answer: string, gs: seq<Group>, cur: int, acc: seq<Part>): seq<Part>
    decreases |gs|
  {
    if gs == [] then
      if cur < |answer| then acc + [Part(Substring(answer, cur, |answer|), false, [])] else acc
    else
      var g := gs[0];
      var plain := if g.start > cur then [Part(Substring(answer, cur, g.start), false, [])] else [];
      Segment(answer, gs[1..], Max(cur, g.end), acc + plain + [Part(g.text, true, g.grades)])
  }

  /** The text the parts show, in order. */
  function PartsText(ps: seq<Part>): string {
    if ps == [] then [] else PartsText(ps[..|ps| - 1]) + ps[|ps| - 1].text
  }

  lemma PartsTextSnoc(ps: seq<Part>, p: Part)
    ensures PartsText(ps + [p]) == PartsText(ps) + p.text
  {
    assert (ps + [p])[..|ps|] == ps;
  }

  /** Groups that lie in order, without overlapping, from position `cur`,
      each showing exactly its span of the answer. */
  predicate TiledFrom(answer: string, gs: seq<Group>, cur: int)
    decreases |gs|
  {
    gs == [] ||
    (&& 0 <= cur <= gs[0].start <= gs[0].end <= |answer|
     && gs[0].text == answer[gs[0].start..gs[0].end]
     && TiledFrom(answer, gs[1..], gs[0].end))
  }

  /** Cutting along tiled groups shows the rest of the answer exactly once. */
  lemma {:induction false} SegmentReproduces(answer: string, gs: seq<Group>, cur: int, acc: seq<Part>)
    requires 0 <= cur <= |answer| && PartsText(acc) == answer[..cur]
    requires TiledFrom(answer, gs, cur)
    ensures PartsText(Segment(answer, gs, cur, acc)) == answer
    decreases |gs|
  {
    if gs == [] {
      if cur < |answer| {
        assert Substring(answer, cur, |answer|) == answer[cur..];
        PartsTextSnoc(acc, Part(answer[cur..], false, []));
        assert answer[..cur] + answer[cur..] == answer;
      } else {
        assert answer[..cur] == answer;
      }
    } else {
      var g := gs[0];
      var plain := if g.start > cur then [Part(Substring(answer, cur, g.start), false, [])] else [];
      var acc1 := acc + plain;
      assert PartsText(acc1) == answer[..g.start] by {
        if g.start > cur {
          assert plain[0].text == answer[cur..g.start];
          PartsTextSnoc(acc, plain[0]);
          assert answer[..cur] + answer[cur..g.start] == answer[..g.start];
        } else {
          assert acc1 == acc;
        }
      }
      PartsTextSnoc(acc1, Part(g.text, true, g.grades));
      assert answer[..g.start] + answer[g.start..g.end] == answer[..g.end];
      SegmentReproduces(answer, gs[1..], g.end, acc1 + [Part(g.text, true, g.grades)]);
    }
  }

  function GroupStart(g: Group): int {
    g.start
  }

  /** Tiled groups are sorted by start and start at or after `cur`. */
  lemma {:induction false} TiledIsSorted(answer: string, gs: seq<Group>, cur: int)
    requires TiledFrom(answer, gs, cur)
    ensures SortedBy(gs, GroupStart)
    ensures forall k | 0 <= k < |gs| :: cur <= gs[k].start
    decreases |gs|
  {
    if gs != [] {
      TiledIsSorted(answer, gs[1..], gs[0].end);
      assert forall k | 1 <= k < |gs| :: gs[k] == gs[1..][k - 1];
    }
  }

  // ---------------------------------------------------------------------------
  // The runs of chained grouping tile the answer

  /** With a growing bound the run stops at a highlight that starts at or
      after the end of every member. */
  lemma {:induction false} ChainedRunEndBound(hs: seq<Highlight>, j: nat, end: int)
    requires j <= |hs|
    ensures var b := RunEnd(hs, j, end, true);
      b < |hs| ==> end <= hs[b].start && forall k | j <= k < b :: hs[k].end <= hs[b].start
    decreases |hs| - j
  {
    if j < |hs| && hs[j].start < end {
      ChainedRunEndBound(hs, j + 1, Max(end, hs[j].end));
    }
  }

  /** A run of sorted highlights that each mark their own text gives a group
      spanning from the run's first start to its largest end, showing that
      span of the answer. */
  lemma GroupOfRun(answer: string, hs: seq<Highlight>, i: nat, b: nat)
    requires SortedBy(hs, StartKey)
    requires forall k | 0 <= k < |hs| :: Marks(answer, hs[k])
    requires i < b <= |hs|
    ensures var g := MakeGroup(answer, hs[i..b]);
      && g.start == hs[i].start
      && g.end == MaxEnd(hs[i..b])
      && g.start <= g.end <= |answer|
      && g.text == answer[g.start..g.end]
  {
    var run := hs[i..b];
    assert run[0] == hs[i];
    assert Marks(answer, run[0]);
    if |run| > 1 {
      var k :| 0 <= k < |run| && MinStart(run) == run[k].start;
      assert run[k] == hs[i + k];
      var m :| 0 <= m < |run| && MaxEnd(run) == run[m].end;
      assert Marks(answer, run[m]);
    }
  }

  /** The runs of chained grouping, from a position at or before the next
      highlight, tile the answer. */
  lemma {:induction false} ChainedRunsTile(answer: string, hs: seq<Highlight>, i: nat, cur: int)
    requires SortedBy(hs, StartKey)
    requires forall k | 0 <= k < |hs| :: Marks(answer, hs[k])
    requires i <= |hs| && 0 <= cur && (i < |hs| ==> cur <= hs[i].start)
    ensures TiledFrom(answer, Runs(answer, hs, i, true), cur)
    decreases |hs| - i
  {
    if i < |hs| {
      var b := RunEnd(hs, i + 1, hs[i].end, true);
      var run := hs[i..b];
      var g := MakeGroup(answer, run);
      GroupOfRun(answer, hs, i, b);
      ChainedRunEndBound(hs, i + 1, hs[i].end);
      if b < |hs| {
        var m :| 0 <= m < |run| && MaxEnd(run) == run[m].end;
        assert run[m] == hs[i + m];
      }
      ChainedRunsTile(answer, hs, b, g.end);
    }
  }

  // ---------------------------------------------------------------------------
  // The whole rendering

  /** Grouping, the fallback loop, the re-sort by start and the cut, applied
      to the sorted highlights. `processedIds` starts empty: `Below(0)`. */
  function PartsOfSorted(answer: string, hs: seq<Highlight>, chained: bool): seq<Part> {
    var grouped := GroupFrom(answer, hs, 0, Below(0), [], chained);
    var groups := SortBy(grouped.0 + Fallback(hs, grouped.1), GroupStart);
    Segment(answer, groups, 0, [])
  }

  /** The rendering, with either grouping rule. */
  function Render(answer: string, evals: seq<AnswerEvaluation>, chained: bool): seq<Part> {
    if evals == [] then [Part(answer, false, [])]
    else PartsOfSorted(answer, SortedHighlights(answer, evals), chained)
  }

  /** The parts as the screen renders them: a group is bounded by the end of
      its first highlight. */
  function RenderedParts(answer: string, evals: seq<AnswerEvaluation>): seq<Part> {
    Render(answer, evals, false)
  }

  /** The parts with a group extended over every chain of overlaps. */
  function MergedParts(answer: string, evals: seq<AnswerEvaluation>): seq<Part> {
    Render(answer, evals, true)
  }

  /** The grouping loop's groups are its runs, the fallback adds nothing. */
  lemma PartsOfSortedRuns(answer: string, hs: seq<Highlight>, chained: bool)
    ensures PartsOfSorted(answer, hs, chained) == Segment(answer, SortBy(Runs(answer, hs, 0, chained), GroupStart), 0, [])
  {
    GroupFromRuns(answer, hs, 0, [], chained);
    FallbackAfterAll(hs);
    EmptyAround(Runs(answer, hs, 0, chained));
  }

  lemma EmptyAround<T>(xs: seq<T>)
    ensures [] + xs + [] == xs
  {
  }

  lemma FallbackAfterAll(hs: seq<Highlight>)
    ensures Fallback(hs, Below(|hs|)) == []
  {
  }

  /** With no evaluations the answer is one plain part. */
  lemma NoEvaluationsRenderPlain(answer: string)
    ensures RenderedParts(answer, []) == [Part(answer, false, [])]
    ensures PartsText(RenderedParts(answer, [])) == answer
  {
    assert PartsText([Part(answer, false, [])]) == PartsText([]) + answer;
  }

  /** With chained grouping the parts show the answer exactly once, whatever
      the evaluations. */
  lemma MergedPartsReproduceAnswer(answer: string, evals: seq<AnswerEvaluation>)
    ensures PartsText(MergedParts(answer, evals)) == answer
  {
    if evals == [] {
      NoEvaluationsRenderPlain(answer);
    } else {
      var hs := SortedHighlights(answer, evals);
      var runs := Runs(answer, hs, 0, true);
      PartsOfSortedRuns(answer, hs, true);
      ChainedRunsTile(answer, hs, 0, 0);
      TiledIsSorted(answer, runs, 0);
      SortOfSortedIsIdentity(runs, GroupStart);
      SegmentReproduces(answer, runs, 0, []);
    }
  }

  /** No two consecutive sorted highlights overlap. */
  predicate NoOverlaps(hs: seq<Highlight>) {
    forall k | 0 < k < |hs| :: hs[k - 1].end <= hs[k].start
  }

  /** Without overlaps both grouping rules make one group per highlight. */
  lemma {:induction false} RunsWithoutOverlaps(answer: string, hs: seq<Highlight>, i: nat)
    requires NoOverlaps(hs) && i <= |hs|
    ensures Runs(answer, hs, i, false) == Runs(answer, hs, i, true)
    decreases |hs| - i
  {
    if i < |hs| {
      assert RunEnd(hs, i + 1, hs[i].end, false) == i + 1 == RunEnd(hs, i + 1, hs[i].end, true);
      RunsWithoutOverlaps(answer, hs, i + 1);
    }
  }

  /** When no two highlights overlap, the screen's parts show the answer
      exactly once. */
  lemma RenderedPartsReproduceAnswer(answer: string, evals: seq<AnswerEvaluation>)
    requires NoOverlaps(SortedHighlights(answer, evals))
    ensures PartsText(RenderedParts(answer, evals)) == answer
  {
    MergedPartsReproduceAnswer(answer, evals);
    if evals != [] {
      var hs := SortedHighlights(answer, evals);
      PartsOfSortedRuns(answer, hs, false);
      PartsOfSortedRuns(answer, hs, true);
      RunsWithoutOverlaps(answer, hs, 0);
    }
  }

  // ---------------------------------------------------------------------------
  // The colour of a highlighted part

  datatype Shade = Green | Red | Gray

  function IsPositive(grade: string): bool {
    grade == "POSITIVE"
  }

  function IsNegative(grade: string): bool {
    grade == "NEGATIVE"
  }

  /** `getMixedColorClass` on a part's grades: a single grade shows its own
      colour (gray for anything but the two known grades); several show the
      colour of the more frequent of the two, gray on a tie. */
  function MixedColor(grades: seq<string>): (c: Shade)
    ensures |grades| == 1 ==> (c == Green <==> grades[0] == "POSITIVE") && (c == Red <==> grades[0] == "NEGATIVE")
    ensures |grades| != 1 ==>
      && (c == Green <==> Count(grades, IsPositive) > Count(grades, IsNegative))
      && (c == Red <==> Count(grades, IsNegative) > Count(grades, IsPositive))
  {
    if |grades| == 1 then
      if grades[0] == "POSITIVE" then Green else if grades[0] == "NEGATIVE" then Red else Gray
    else
      var positive, negative := Count(grades, IsPositive), Count(grades, IsNegative);
      if positive > negative then Green else if negative > positive then Red else Gray
  }

  /** The colour by majority alone, for any number of grades. */
  function MajorityColor(grades: seq<string>): Shade {
    var positive, negative := Count(grades, IsPositive), Count(grades, IsNegative);
    if positive > negative then Green else if negative > positive then Red else Gray
  }

  /** The single-grade case is the majority rule on one grade: the colour is
      the majority's for every list of grades. */
  lemma MixedColorIsMajority(grades: seq<string>)
    ensures MixedColor(grades) == MajorityColor(grades)
  {
    if |grades| == 1 {
      assert grades == [] + [grades[0]];
      FilterSnoc([], grades[0], IsPositive);
      FilterSnoc([], grades[0], IsNegative);
    }
  }

  // ---------------------------------------------------------------------------
  // A chain of overlaps, as the screen groups it

  /** An answer of six different letters `a` and three passages of it, with
      grade `g`, whose occurrences overlap in a chain: `a[0..2]` at 0,
      `a[1..5]` at 1 and `a[3..6]` at 3 ("ab", "bcde" and "def" of "abcdef"). */
  function ChainEvaluations(a: string, g: string): seq<AnswerEvaluation>
    requires |a| == 6
  {
    [AnswerEvaluation(a[0..2], g), AnswerEvaluation(a[1..5], g), AnswerEvaluation(a[3..6], g)]
  }

  function ChainHighlights(a: string, g: string): seq<Highlight>
    requires |a| == 6
  {
    [Highlight(0, 2, a[0..2], g, HighlightId(0, 0)),
     Highlight(1, 5, a[1..5], g, HighlightId(1, 0)),
     Highlight(3, 6, a[3..6], g, HighlightId(2, 0))]
  }

  predicate DistinctLetters(s: string) {
    forall i, j | 0 <= i < j < |s| :: s[i] != s[j]
  }

  /** In an answer without repeated letters a passage occurs at most once. */
  lemma UniqueOccurrence(s: string, c: string, at: nat)
    requires c != [] && OccursAt(s, c, at) && DistinctLetters(s)
    ensures Occurrences(s, c, 0) == [at]
  {
    forall k | OccursAt(s, c, k)
      ensures k == at
    {
      FirstLetter(s, c, k);
      FirstLetter(s, c, at);
    }
    var r := Occurrences(s, c, 0);
    OccurrencesComplete(s, c, 0, at);
    assert forall m | 0 <= m < |r| :: r[m] == at;
  }

  lemma FirstLetter(s: string, c: string, k: nat)
    requires c != [] && OccursAt(s, c, k)
    ensures s[k] == c[0]
  {
    assert s[k..k + |c|][0] == s[k];
  }

  /** The highlights of a passage that occurs once. */
  lemma SingleHighlight(answer: string, e: AnswerEvaluation, i: nat, at: nat)
    requires e.content != [] && Occurrences(answer, e.content, 0) == [at]
    ensures HighlightsOf(answer, e, i) == [Highlight(at, at + |e.content|, e.content, e.grade, HighlightId(i, 0))]
  {
  }

  lemma CollectThree(answer: string, e0: AnswerEvaluation, e1: AnswerEvaluation, e2: AnswerEvaluation)
    requires e0.content != [] && e1.content != [] && e2.content != []
    ensures Collect(answer, [e0, e1, e2]) == HighlightsOf(answer, e0, 0) + HighlightsOf(answer, e1, 1) + HighlightsOf(answer, e2, 2)
  {
    assert [e0, e1, e2][..2] == [e0, e1];
    assert [e0, e1][..1] == [e0];
    assert [e0][..0] == [];
    assert Collect(answer, [e0]) == HighlightsOf(answer, e0, 0);
    assert Collect(answer, [e0, e1]) == HighlightsOf(answer, e0, 0) + HighlightsOf(answer, e1, 1);
  }

  /** Each passage of the chain is found once, where it was taken from. */
  lemma ChainHighlightsAreCollected(a: string, g: string)
    requires |a| == 6 && DistinctLetters(a)
    ensures SortedHighlights(a, ChainEvaluations(a, g)) == ChainHighlights(a, g)
  {
    var evals, hs := ChainEvaluations(a, g), ChainHighlights(a, g);
    UniqueOccurrence(a, a[0..2], 0);
    UniqueOccurrence(a, a[1..5], 1);
    UniqueOccurrence(a, a[3..6], 3);
    SingleHighlight(a, evals[0], 0, 0);
    SingleHighlight(a, evals[1], 1, 1);
    SingleHighlight(a, evals[2], 2, 3);
    CollectThree(a, evals[0], evals[1], evals[2]);
    assert Collect(a, evals) == hs;
    SortOfSortedIsIdentity(hs, StartKey);
  }

  function ChainGroups(a: string, g: string): seq<Group>
    requires |a| == 6
  {
    [Group(0, 5, a[0..5], [g, g], [HighlightId(0, 0), HighlightId(1, 0)]),
     Group(3, 6, a[3..6], [g], [HighlightId(2, 0)])]
  }

  lemma ChainRunEnds(a: string, g: string)
    requires |a| == 6
    ensures RunEnd(ChainHighlights(a, g), 1, 2, false) == 2
    ensures RunEnd(ChainHighlights(a, g), 3, 6, false) == 3
  {
    var hs := ChainHighlights(a, g);
    assert RunEnd(hs, 2, 2, false) == 2;
  }

  lemma ChainMakeGroups(a: string, g: string)
    requires |a| == 6
    ensures MakeGroup(a, ChainHighlights(a, g)[0..2]) == ChainGroups(a, g)[0]
    ensures MakeGroup(a, ChainHighlights(a, g)[2..3]) == ChainGroups(a, g)[1]
  {
    var hs := ChainHighlights(a, g);
    var first := hs[0..2];
    assert first == [hs[0], hs[1]];
    assert MinStart(first) == 0 && MaxEnd(first) == 5;
  }

  /** The screen's rule groups the first two passages and leaves the third
      alone: it starts before the second ends, but not before the first does. */
  lemma ChainRuns(a: string, g: string)
    requires |a| == 6
    ensures Runs(a, ChainHighlights(a, g), 0, false) == ChainGroups(a, g)
  {
    var hs := ChainHighlights(a, g);
    ChainRunEnds(a, g);
    ChainMakeGroups(a, g);
    assert Runs(a, hs, 3, false) == [];
    assert Runs(a, hs, 2, false) == [ChainGroups(a, g)[1]];
  }

  lemma ChainSegments(a: string, g: string)
    requires |a| == 6
    ensures PartsText(Segment(a, ChainGroups(a, g), 0, [])) == a[..5] + a[3..]
  {
    var gs := ChainGroups(a, g);
    var p0, p1 := Part(a[0..5], true, gs[0].grades), Part(a[3..6], true, gs[1].grades);
    assert gs[1..][1..] == [];
    assert [p0] + [] + [p1] == [p0, p1];
    assert Segment(a, gs[1..][1..], 6, [p0, p1]) == [p0, p1];
    assert Segment(a, gs[1..], 5, [p0]) == [p0, p1];
    assert [] + [] + [p0] == [p0];
    assert Segment(a, gs, 0, []) == [p0, p1];
    PartsTextSnoc([], p0);
    PartsTextSnoc([p0], p1);
    assert [] + [p0] == [p0] && [p0] + [p1] == [p0, p1];
    assert a[..5] == a[0..5] && a[3..] == a[3..6];
  }

  lemma ChainPartsOfSorted(a: string, g: string)
    requires |a| == 6
    ensures PartsOfSorted(a, ChainHighlights(a, g), false) == Segment(a, ChainGroups(a, g), 0, [])
  {
    PartsOfSortedRuns(a, ChainHighlights(a, g), false);
    ChainRuns(a, g);
    ChainGroupsSorted(a, g);
  }

  lemma ChainGroupsSorted(a: string, g: string)
    requires |a| == 6
    ensures SortBy(ChainGroups(a, g), GroupStart) == ChainGroups(a, g)
  {
    SortOfSortedIsIdentity(ChainGroups(a, g), GroupStart);
  }

  lemma RenderNonEmpty(answer: string, evals: seq<AnswerEvaluation>, chained: bool)
    requires evals != []
    ensures Render(answer, evals, chained) == PartsOfSorted(answer, SortedHighlights(answer, evals), chained)
  {
  }

  lemma ChainRendering(a: string, g: string)
    requires |a| == 6 && DistinctLetters(a)
    ensures RenderedParts(a, ChainEvaluations(a, g)) == Segment(a, ChainGroups(a, g), 0, [])
  {
    ChainHighlightsAreCollected(a, g);
    RenderNonEmpty(a, ChainEvaluations(a, g), false);
    ChainPartsOfSorted(a, g);
  }

  /** The screen groups the first passage with the second (which starts
      before the first ends) but not the third, which starts before the
      second ends but after the first does: the letters `a[3..5]` are shown
      twice, "abcdef" reads "abcdedef". Chained grouping shows the answer
      once. */
  lemma ChainedOverlapsDuplicateText(a: string, g: string)
    requires |a| == 6 && DistinctLetters(a)
    ensures PartsText(RenderedParts(a, ChainEvaluations(a, g))) == a[..5] + a[3..] != a
    ensures PartsText(MergedParts(a, ChainEvaluations(a, g))) == a
  {
    ChainRendering(a, g);
    ChainSegments(a, g);
    MergedPartsReproduceAnswer(a, ChainEvaluations(a, g));
    assert |a[..5] + a[3..]| == 8;
  }

  /** The instance "abcdef" with passages "ab", "bcde" and "def". */
  lemma ChainExample()
    ensures PartsText(RenderedParts("abcdef", ChainEvaluations("abcdef", "POSITIVE"))) == "abcdedef"
  {
    var a := "abcdef";
    assert DistinctLetters(a);
    ChainedOverlapsDuplicateText(a, "POSITIVE");
    DoubledLetters();
  }

  lemma DoubledLetters()
    ensures "abcdef"[..5] + "abcdef"[3..] == "abcdedef"
  {
    var x := "abcdef"[..5] + "abcdef"[3..];
    assert |x| == 8;
    assert x[0] == 'a' && x[1] == 'b' && x[2] == 'c' && x[3] == 'd' && x[4] == 'e' && x[5] == 'd' && x[6] == 'e' && x[7] == 'f';
  }
}

=== FILE: application_service.dfy ===
/** Submission, the reviewer's status decision, and per-posting statistics of
    the application service. Every operation maps a store to a new store or to
    an error; on error the caller keeps the store it had (the transaction
    rolls back). */
module ApplicationService {
  import opened Wrappers
  import opened Postings
  import opened ApplicationStatuses
  import opened Seqs
  import opened ApplicationStore

  // ---------------------------------------------------------------------------
  // Submission

  datatype ResumeAnswerInput = ResumeAnswerInput(resumeItemId: Option<nat>, resumeContent: Option<string>)

  datatype CoverAnswerInput = CoverAnswerInput(questionId: Option<nat>, answerContent: Option<string>)

  /** The submission form. A null answer list is treated as an empty one; a
      null name, email or id is carried as `None`. */
  datatype SubmitRequest = SubmitRequest(
    applicantName: Option<string>,
    applicantEmail: Option<string>,
    resumeItemAnswers: Option<seq<ResumeAnswerInput>>,
    coverLetterQuestionAnswers: Option<seq<CoverAnswerInput>>)

  /** `findByEmail`: a null email finds nobody, since no stored applicant has one. */
  function KnownApplicant(s: Store, email: Option<string>): (r: Option<nat>)
    ensures r.Some? ==> email.Some? && r.value < |s.applicants| && s.applicants[r.value].email == email.value
    ensures r.None? <==> email.None? || forall j | 0 <= j < |s.applicants| :: s.applicants[j].email != email.value
  {
    if email.None? then None else ApplicantByEmail(s.applicants, email.value)
  }

  /** Reuses the applicant registered under the email, or registers a new
      one. Name and email are NOT NULL columns, so registering fails when
      either is null. */
  function FindOrCreateApplicant(s: Store, name: Option<string>, email: Option<string>): (r: Result<(Store, nat), ServiceError>)
    ensures KnownApplicant(s, email).Some? ==>
      r == Success((s, s.applicants[KnownApplicant(s, email).value].id))
    ensures KnownApplicant(s, email).None? && (name.None? || email.None?) ==>
      r.Failure? && r.error.NotNullViolation?
    ensures KnownApplicant(s, email).None? && name.Some? && email.Some? ==>
      && r.Success?
      && r.value.0.applicants == s.applicants + [Applicant(r.value.1, name.value, email.value)]
      && r.value.1 == s.nextId && r.value.0.nextId == s.nextId + 1
      && r.value.0.(applicants := s.applicants, nextId := s.nextId) == s
  {
    match KnownApplicant(s, email)
    case Some(i) => Success((s, s.applicants[i].id))
    case None =>
      if name.None? then Failure(NotNullViolation("name"))
      else if email.None? then Failure(NotNullViolation("email"))
      else
        var a := Applicant(s.nextId, name.value, email.value);
        Success((s.(applicants := s.applicants + [a], nextId := s.nextId + 1), s.nextId))
  }

  /** After a successful find-or-create, an applicant with the email exists
      under the returned id. */
  lemma ApplicantRegistered(s: Store, name: Option<string>, email: Option<string>)
    ensures var r := FindOrCreateApplicant(s, name, email);
      r.Success? ==>
        email.Some? &&
        exists i | 0 <= i < |r.value.0.applicants| :: r.value.0.applicants[i].id == r.value.1 && r.value.0.applicants[i].email == email.value
  {
    var r := FindOrCreateApplicant(s, name, email);
    if r.Success? && KnownApplicant(s, email).None? {
      assert r.value.0.applicants[|s.applicants|] == Applicant(r.value.1, name.value, email.value);
    }
  }

  /** An input naming a stored resume item; `findById(null)` rejects a null id. */
  predicate NamesResumeItem(s: Store, input: ResumeAnswerInput) {
    input.resumeItemId.Some? && HasResumeItem(s, input.resumeItemId.value)
  }

  /** An input naming a stored question. */
  predicate NamesQuestion(s: Store, input: CoverAnswerInput) {
    input.questionId.Some? && HasQuestion(s, input.questionId.value)
  }

  /** Stores one resume answer per input, in input order, each under a fresh
      id; an input with a null or unknown resume item fails the whole call. */
  function SaveResumeAnswers(s: Store, applicationId: nat, inputs: seq<ResumeAnswerInput>): (r: Result<Store, ServiceError>)
    ensures r.Success? <==> forall k | 0 <= k < |inputs| :: NamesResumeItem(s, inputs[k])
    ensures r.Failure? ==> r.error.IllegalArgument?
    ensures r.Success? ==>
      && |r.value.resumeAnswers| == |s.resumeAnswers| + |inputs|
      && r.value.resumeAnswers[..|s.resumeAnswers|] == s.resumeAnswers
      && r.value.nextId == s.nextId + |inputs|
      && r.value.(resumeAnswers := s.resumeAnswers, nextId := s.nextId) == s
    ensures r.Success? ==> forall j | |s.resumeAnswers| <= j < |r.value.resumeAnswers| ::
      var input := inputs[j - |s.resumeAnswers|];
      input.resumeItemId.Some? &&
      r.value.resumeAnswers[j] == ResumeAnswer(s.nextId + (j - |s.resumeAnswers|), applicationId, input.resumeItemId.value, input.resumeContent, None)
    decreases |inputs|
  {
    if inputs == [] then Success(s)
    else if inputs[0].resumeItemId.None? then Failure(IllegalArgument("id must not be null"))
    else if !HasResumeItem(s, inputs[0].resumeItemId.value) then Failure(IllegalArgument("unknown resume item"))
    else
      var row := ResumeAnswer(s.nextId, applicationId, inputs[0].resumeItemId.value, inputs[0].resumeContent, None);
      var s' := s.(resumeAnswers := s.resumeAnswers + [row], nextId := s.nextId + 1);
      var r := SaveResumeAnswers(s', applicationId, inputs[1..]);
      assert r.Success? ==> r.value.resumeAnswers[..|s.resumeAnswers|] == s'.resumeAnswers[..|s.resumeAnswers|] by {
        if r.Success? {
          assert r.value.resumeAnswers[..|s'.resumeAnswers|] == s'.resumeAnswers;
        }
      }
      r
  }

  /** Stores one cover-letter answer per input, in input order, each under a
      fresh id; an input with a null or unknown question fails the whole call. */
  function SaveCoverAnswers(s: Store, applicationId: nat, inputs: seq<CoverAnswerInput>): (r: Result<Store, ServiceError>)
    ensures r.Success? <==> forall k | 0 <= k < |inputs| :: NamesQuestion(s, inputs[k])
    ensures r.Failure? ==> r.error.IllegalArgument?
    ensures r.Success? ==>
      && |r.value.coverAnswers| == |s.coverAnswers| + |inputs|
      && r.value.coverAnswers[..|s.coverAnswers|] == s.coverAnswers
      && r.value.nextId == s.nextId + |inputs|
      && r.value.(coverAnswers := s.coverAnswers, nextId := s.nextId) == s
    ensures r.Success? ==> forall j | |s.coverAnswers| <= j < |r.value.coverAnswers| ::
      var input := inputs[j - |s.coverAnswers|];
      input.questionId.Some? &&
      r.value.coverAnswers[j] == CoverAnswer(s.nextId + (j - |s.coverAnswers|), applicationId, input.questionId.value, input.answerContent)
    decreases |inputs|
  {
    if inputs == [] then Success(s)
    else if inputs[0].questionId.None? then Failure(IllegalArgument("id must not be null"))
    else if !HasQuestion(s, inputs[0].questionId.value) then Failure(IllegalArgument("unknown cover letter question"))
    else
      var row := CoverAnswer(s.nextId, applicationId, inputs[0].questionId.value, inputs[0].answerContent);
      var s' := s.(coverAnswers := s.coverAnswers + [row], nextId := s.nextId + 1);
      var r := SaveCoverAnswers(s', applicationId, inputs[1..]);
      assert r.Success? ==> r.value.coverAnswers[..|s.coverAnswers|] == s'.coverAnswers[..|s.coverAnswers|] by {
        if r.Success? {
          assert r.value.coverAnswers[..|s'.coverAnswers|] == s'.coverAnswers;
        }
      }
      r
  }

  /** A new application in `BEFORE_EVALUATION` under the next id. */
  function AddApplication(s: Store, applicantId: nat, postingId: nat): Store {
    s.(applications := s.applications + [Application(s.nextId, BeforeEvaluation, applicantId, postingId, None)],
       nextId := s.nextId + 1)
  }

  function ResumeInputs(req: SubmitRequest): seq<ResumeAnswerInput> {
    req.resumeItemAnswers.GetOr([])
  }

  function CoverInputs(req: SubmitRequest): seq<CoverAnswerInput> {
    req.coverLetterQuestionAnswers.GetOr([])
  }

  /** `after` is `before` followed by one resume answer per input, in input
      order, each of the application, with the input's item and content and
      no score. */
  predicate ResumeRowsFor(before: seq<ResumeAnswer>, after: seq<ResumeAnswer>, applicationId: nat, inputs: seq<ResumeAnswerInput>) {
    && |after| == |before| + |inputs|
    && after[..|before|] == before
    && forall j | 0 <= j < |inputs| ::
         var a := after[|before| + j];
         inputs[j].resumeItemId.Some? &&
         a.applicationId == applicationId && a.resumeItemId == inputs[j].resumeItemId.value &&
         a.content == inputs[j].resumeContent && a.score.None?
  }

  /** `after` is `before` followed by one cover-letter answer per input, in
      input order, each of the application, with the input's question and
      content. */
  predicate CoverRowsFor(before: seq<CoverAnswer>, after: seq<CoverAnswer>, applicationId: nat, inputs: seq<CoverAnswerInput>) {
    && |after| == |before| + |inputs|
    && after[..|before|] == before
    && forall j | 0 <= j < |inputs| ::
         var a := after[|before| + j];
         inputs[j].questionId.Some? &&
         a.applicationId == applicationId && a.questionId == inputs[j].questionId.value &&
         a.content == inputs[j].answerContent
  }

  /** Saves a submission's resume answers, then its cover-letter answers,
      for one application; the first null or unknown reference fails. */
  function SaveAnswers(s: Store, applicationId: nat, req: SubmitRequest): (r: Result<Store, ServiceError>)
    ensures r.Success? <==>
      && (forall k | 0 <= k < |ResumeInputs(req)| :: NamesResumeItem(s, ResumeInputs(req)[k]))
      && (forall k | 0 <= k < |CoverInputs(req)| :: NamesQuestion(s, CoverInputs(req)[k]))
    ensures r.Failure? ==> r.error.IllegalArgument?
    ensures r.Success? ==>
      && r.value.applications == s.applications && r.value.applicants == s.applicants
      && r.value.results == s.results
      && ResumeRowsFor(s.resumeAnswers, r.value.resumeAnswers, applicationId, ResumeInputs(req))
      && CoverRowsFor(s.coverAnswers, r.value.coverAnswers, applicationId, CoverInputs(req))
  {
    var r1 := SaveResumeAnswers(s, applicationId, ResumeInputs(req));
    if r1.Failure? then Failure(r1.error)
    else
      var s3 := r1.value;
      ResumeRowsInOrder(s, applicationId, ResumeInputs(req));
      assert s3.questions == s.questions && s3.coverAnswers == s.coverAnswers;
      assert forall x :: NamesQuestion(s3, x) == NamesQuestion(s, x);
      var r2 := SaveCoverAnswers(s3, applicationId, CoverInputs(req));
      if r2.Failure? then r2
      else
        CoverRowsInOrder(s3, applicationId, CoverInputs(req));
        assert r2.value.resumeAnswers == s3.resumeAnswers;
        r2
  }

  /** The saved resume rows, counted from the first new one. */
  lemma ResumeRowsInOrder(s: Store, applicationId: nat, inputs: seq<ResumeAnswerInput>)
    requires SaveResumeAnswers(s, applicationId, inputs).Success?
    ensures ResumeRowsFor(s.resumeAnswers, SaveResumeAnswers(s, applicationId, inputs).value.resumeAnswers, applicationId, inputs)
  {
    var after := SaveResumeAnswers(s, applicationId, inputs).value.resumeAnswers;
    assert |after| == |s.resumeAnswers| + |inputs| && after[..|s.resumeAnswers|] == s.resumeAnswers;
    ResumeRowsShifted(s.resumeAnswers, after, s.nextId, applicationId, inputs);
  }

  lemma ResumeRowsShifted(before: seq<ResumeAnswer>, after: seq<ResumeAnswer>, nextId: nat, applicationId: nat, inputs: seq<ResumeAnswerInput>)
    requires |after| == |before| + |inputs| && after[..|before|] == before
    requires forall j | |before| <= j < |after| ::
      var input := inputs[j - |before|];
      input.resumeItemId.Some? &&
      after[j] == ResumeAnswer(nextId + (j - |before|), applicationId, input.resumeItemId.value, input.resumeContent, None)
    ensures ResumeRowsFor(before, after, applicationId, inputs)
  {
    var n := |before|;
    forall j | 0 <= j < |inputs|
      ensures inputs[j].resumeItemId.Some? &&
        after[n + j] == ResumeAnswer(nextId + j, applicationId, inputs[j].resumeItemId.value, inputs[j].resumeContent, None)
    {
      var k := n + j;
      var row := after[k];
      assert k - n == j;
    }
  }

  /** The saved cover-letter rows, counted from the first new one. */
  lemma CoverRowsInOrder(s: Store, applicationId: nat, inputs: seq<CoverAnswerInput>)
    requires SaveCoverAnswers(s, applicationId, inputs).Success?
    ensures CoverRowsFor(s.coverAnswers, SaveCoverAnswers(s, applicationId, inputs).value.coverAnswers, applicationId, inputs)
  {
    var after := SaveCoverAnswers(s, applicationId, inputs).value.coverAnswers;
    assert |after| == |s.coverAnswers| + |inputs| && after[..|s.coverAnswers|] == s.coverAnswers;
    CoverRowsShifted(s.coverAnswers, after, s.nextId, applicationId, inputs);
  }

  lemma CoverRowsShifted(before: seq<CoverAnswer>, after: seq<CoverAnswer>, nextId: nat, applicationId: nat, inputs: seq<CoverAnswerInput>)
    requires |after| == |before| + |inputs| && after[..|before|] == before
    requires forall j | |before| <= j < |after| ::
      var input := inputs[j - |before|];
      input.questionId.Some? &&
      after[j] == CoverAnswer(nextId + (j - |before|), applicationId, input.questionId.value, input.answerContent)
    ensures CoverRowsFor(before, after, applicationId, inputs)
  {
    var n := |before|;
    forall j | 0 <= j < |inputs|
      ensures inputs[j].questionId.Some? &&
        after[n + j] == CoverAnswer(nextId + j, applicationId, inputs[j].questionId.value, inputs[j].answerContent)
    {
      var k := n + j;
      var row := after[k];
      assert k - n == j;
    }
  }

  /** The applicant of a submission can be resolved: the email is already
      registered, or a new applicant can be stored with the name and email. */
  predicate ApplicantResolvable(s: Store, req: SubmitRequest) {
    KnownApplicant(s, req.applicantEmail).Some? || (req.applicantName.Some? && req.applicantEmail.Some?)
  }

  /** Submitting an application: an unknown posting fails, then an applicant
      that can be neither found nor stored, then a null or unknown resume item
      or question; otherwise the applicant is found or created by email and a
      new application in `BEFORE_EVALUATION` is linked to it and to the
      posting, with one answer per input. Returns the new store and the new
      application's id. */
  function SubmitApplication(s: Store, postingId: nat, req: SubmitRequest): (r: Result<(Store, nat), ServiceError>)
    ensures r.Success? <==>
      && HasPosting(s, postingId)
      && ApplicantResolvable(s, req)
      && (forall k | 0 <= k < |ResumeInputs(req)| :: NamesResumeItem(s, ResumeInputs(req)[k]))
      && (forall k | 0 <= k < |CoverInputs(req)| :: NamesQuestion(s, CoverInputs(req)[k]))
    ensures r.Failure? ==>
      if HasPosting(s, postingId) && !ApplicantResolvable(s, req) then r.error.NotNullViolation?
      else r.error.IllegalArgument?
    ensures r.Success? ==>
      var (s', id) := r.value;
      && |s'.applications| == |s.applications| + 1
      && s'.applications[..|s.applications|] == s.applications
      && var app := s'.applications[|s.applications|];
         && app.id == id && app.status == BeforeEvaluation && app.postingId == postingId && app.comment.None?
         && req.applicantEmail.Some?
         && (exists i | 0 <= i < |s'.applicants| :: s'.applicants[i].id == app.applicantId && s'.applicants[i].email == req.applicantEmail.value)
    ensures r.Success? && KnownApplicant(s, req.applicantEmail).Some? ==>
      r.value.0.applicants == s.applicants
    ensures r.Success? && KnownApplicant(s, req.applicantEmail).None? ==>
      |r.value.0.applicants| == |s.applicants| + 1 && r.value.0.applicants[..|s.applicants|] == s.applicants
    ensures r.Success? ==>
      && ResumeRowsFor(s.resumeAnswers, r.value.0.resumeAnswers, r.value.1, ResumeInputs(req))
      && CoverRowsFor(s.coverAnswers, r.value.0.coverAnswers, r.value.1, CoverInputs(req))
    ensures r.Success? ==> r.value.0.results == s.results
  {
    if !HasPosting(s, postingId) then Failure(IllegalArgument("unknown job posting"))
    else
      var (s1, applicantId) :- FindOrCreateApplicant(s, req.applicantName, req.applicantEmail);
      ApplicantRegistered(s, req.applicantName, req.applicantEmail);
      var id := s1.nextId;
      var s2 := AddApplication(s1, applicantId, postingId);
      var s4 :- SaveAnswers(s2, id, req);
      Success((s4, id))
  }

  /** Submission keeps the store invariant. */
  lemma SubmitPreservesValid(s: Store, postingId: nat, req: SubmitRequest)
    requires Valid(s)
    ensures SubmitApplication(s, postingId, req).Success? ==> Valid(SubmitApplication(s, postingId, req).value.0)
  {
    if SubmitApplication(s, postingId, req).Success? {
      var (s1, applicantId) := FindOrCreateApplicant(s, req.applicantName, req.applicantEmail).value;
      FindOrCreatePreservesValid(s, req.applicantName, req.applicantEmail);
      var s2 := AddApplication(s1, applicantId, postingId);
      AddApplicationPreservesValid(s1, applicantId, postingId);
      var s3 := SaveResumeAnswers(s2, s1.nextId, ResumeInputs(req)).value;
      SaveResumeAnswersPreservesValid(s2, s1.nextId, ResumeInputs(req));
      SaveCoverAnswersPreservesValid(s3, s1.nextId, CoverInputs(req));
    }
  }

  lemma FindOrCreatePreservesValid(s: Store, name: Option<string>, email: Option<string>)
    requires Valid(s)
    ensures FindOrCreateApplicant(s, name, email).Success? ==> Valid(FindOrCreateApplicant(s, name, email).value.0)
  {
    var r := FindOrCreateApplicant(s, name, email);
    if r.Success? && KnownApplicant(s, email).None? {
      var s1 := r.value.0;
      assert ApplicantIds(s1.applicants) == ApplicantIds(s.applicants) + [s.nextId];
      IdsBelowSnoc(ApplicantIds(s.applicants), s.nextId);
      IdsBelowRaise(ApplicationIds(s.applications), s.nextId, s1.nextId);
      IdsBelowRaise(ResumeAnswerIds(s.resumeAnswers), s.nextId, s1.nextId);
      IdsBelowRaise(CoverAnswerIds(s.coverAnswers), s.nextId, s1.nextId);
      IdsBelowRaise(ResultIds(s.results), s.nextId, s1.nextId);
    }
  }

  lemma AddApplicationPreservesValid(s: Store, applicantId: nat, postingId: nat)
    requires Valid(s)
    ensures Valid(AddApplication(s, applicantId, postingId))
  {
    var s1 := AddApplication(s, applicantId, postingId);
    assert ApplicationIds(s1.applications) == ApplicationIds(s.applications) + [s.nextId];
    IdsBelowSnoc(ApplicationIds(s.applications), s.nextId);
    IdsBelowRaise(ApplicantIds(s.applicants), s.nextId, s1.nextId);
    IdsBelowRaise(ResumeAnswerIds(s.resumeAnswers), s.nextId, s1.nextId);
    IdsBelowRaise(CoverAnswerIds(s.coverAnswers), s.nextId, s1.nextId);
    IdsBelowRaise(ResultIds(s.results), s.nextId, s1.nextId);
  }

  lemma {:induction false} SaveResumeAnswersPreservesValid(s: Store, applicationId: nat, inputs: seq<ResumeAnswerInput>)
    requires Valid(s)
    ensures SaveResumeAnswers(s, applicationId, inputs).Success? ==> Valid(SaveResumeAnswers(s, applicationId, inputs).value)
    decreases |inputs|
  {
    if inputs != [] && NamesResumeItem(s, inputs[0]) {
      var row := ResumeAnswer(s.nextId, applicationId, inputs[0].resumeItemId.value, inputs[0].resumeContent, None);
      var s' := s.(resumeAnswers := s.resumeAnswers + [row], nextId := s.nextId + 1);
      assert ResumeAnswerIds(s'.resumeAnswers) == ResumeAnswerIds(s.resumeAnswers) + [s.nextId];
      IdsBelowSnoc(ResumeAnswerIds(s.resumeAnswers), s.nextId);
      IdsBelowRaise(ApplicantIds(s.applicants), s.nextId, s'.nextId);
      IdsBelowRaise(ApplicationIds(s.applications), s.nextId, s'.nextId);
      IdsBelowRaise(CoverAnswerIds(s.coverAnswers), s.nextId, s'.nextId);
      IdsBelowRaise(ResultIds(s.results), s.nextId, s'.nextId);
      SaveResumeAnswersPreservesValid(s', applicationId, inputs[1..]);
    }
  }

  lemma {:induction false} SaveCoverAnswersPreservesValid(s: Store, applicationId: nat, inputs: seq<CoverAnswerInput>)
    requires Valid(s)
    ensures SaveCoverAnswers(s, applicationId, inputs).Success? ==> Valid(SaveCoverAnswers(s, applicationId, inputs).value)
    decreases |inputs|
  {
    if inputs != [] && NamesQuestion(s, inputs[0]) {
      var row := CoverAnswer(s.nextId, applicationId, inputs[0].questionId.value, inputs[0].answerContent);
      var s' := s.(coverAnswers := s.coverAnswers + [row], nextId := s.nextId + 1);
      assert CoverAnswerIds(s'.coverAnswers) == CoverAnswerIds(s.coverAnswers) + [s.nextId];
      IdsBelowSnoc(CoverAnswerIds(s.coverAnswers), s.nextId);
      IdsBelowRaise(ApplicantIds(s.applicants), s.nextId, s'.nextId);
      IdsBelowRaise(ApplicationIds(s.applications), s.nextId, s'.nextId);
      IdsBelowRaise(ResumeAnswerIds(s.resumeAnswers), s.nextId, s'.nextId);
      IdsBelowRaise(ResultIds(s.results), s.nextId, s'.nextId);
      SaveCoverAnswersPreservesValid(s', applicationId, inputs[1..]);
    }
  }

  /** Two submissions under one email register one applicant: the second
      finds the first's registration. */
  lemma ResubmissionReusesApplicant(s: Store, postingId: nat, postingId': nat, req: SubmitRequest, req': SubmitRequest)
    requires req'.applicantEmail == req.applicantEmail
    requires SubmitApplication(s, postingId, req).Success?
    ensures KnownApplicant(SubmitApplication(s, postingId, req).value.0, req.applicantEmail).Some?
    ensures var s1 := SubmitApplication(s, postingId, req).value.0;
      SubmitApplication(s1, postingId', req').Success? ==> SubmitApplication(s1, postingId', req').value.0.applicants == s1.applicants
  {
  }

  // ---------------------------------------------------------------------------
  // The reviewer's decision

  /** Records the reviewer's comment and the status named by `status`. A
      missing application or a string that names no status fails with
      `IllegalArgumentException`; a null string fails inside `valueOf` with a
      `NullPointerException`. */
  function SaveEvaluation(s: Store, applicationId: nat, comment: Option<string>, status: Option<string>): (r: Result<Store, ServiceError>)
    ensures r.Success? <==> ApplicationById(s.applications, applicationId).Some? && status.Some? && ValueOf(status.value).Some?
    ensures ApplicationById(s.applications, applicationId).None? ==> r.Failure? && r.error.IllegalArgument?
    ensures ApplicationById(s.applications, applicationId).Some? && status.None? ==> r == Failure(NullPointer)
    ensures r.Success? ==>
      var k := ApplicationById(s.applications, applicationId).value;
      && |r.value.applications| == |s.applications|
      && r.value.applications[k].status.Name() == status.value
      && r.value.applications[k].comment == comment
      && r.value.applications[k].(status := s.applications[k].status, comment := s.applications[k].comment) == s.applications[k]
      && (forall j | 0 <= j < |s.applications| && j != k :: r.value.applications[j] == s.applications[j])
      && r.value.(applications := s.applications) == s
  {
    match ApplicationById(s.applications, applicationId)
    case None => Failure(IllegalArgument("application not found"))
    case Some(k) =>
      if status.None? then Failure(NullPointer)
      else
        match ValueOf(status.value)
        case None => Failure(IllegalArgument("invalid evaluation status"))
        case Some(st) =>
          Success(s.(applications := s.applications[k := s.applications[k].(comment := comment, status := st)]))
  }

  // ---------------------------------------------------------------------------
  // Statistics

  /** One posting's line of the statistics. */
  datatype PostingStatistics = PostingStatistics(
    jobPostingId: nat,
    jobPostingTitle: string,
    totalApplications: nat,
    completedEvaluations: nat,
    pendingEvaluations: int,
    postingStatus: Option<PostingStatus>)

  datatype Statistics = Statistics(
    totalApplications: nat,
    totalCompletedEvaluations: nat,
    totalPendingEvaluations: int,
    jobPostingStatistics: seq<PostingStatistics>)

  predicate ForPosting(a: Application, postingId: nat) {
    a.postingId == postingId
  }

  predicate DecidedForPosting(a: Application, postingId: nat) {
    a.postingId == postingId && a.status.IsDecided()
  }

  /** A posting's counts: all its applications, the decided ones (accepted or
      rejected), and the rest, which are pending. */
  function StatisticsFor(applications: seq<Application>, p: JobPosting): (r: PostingStatistics)
    ensures r.jobPostingId == p.id && r.postingStatus == p.status
    ensures r.totalApplications == Count(applications, (a: Application) => ForPosting(a, p.id))
    ensures r.completedEvaluations == Count(applications, (a: Application) => DecidedForPosting(a, p.id))
    ensures 0 <= r.pendingEvaluations == r.totalApplications - r.completedEvaluations
  {
    var total := Count(applications, (a: Application) => ForPosting(a, p.id));
    var completed := Count(applications, (a: Application) => DecidedForPosting(a, p.id));
    CountMonotone(applications, (a: Application) => DecidedForPosting(a, p.id), (a: Application) => ForPosting(a, p.id));
    PostingStatistics(p.id, p.title, total, completed, total - completed, p.status)
  }

  /** Only postings that are open or closed for applications enter the totals. */
  predicate EntersTotals(status: Option<PostingStatus>) {
    status == Some(Closed) || status == Some(PostingStatus.InProgress)
  }

  /** Sums of the total and completed counts over the lines that enter the totals. */
  function Totals(lines: seq<PostingStatistics>): (r: (nat, nat))
    requires forall i | 0 <= i < |lines| :: lines[i].completedEvaluations <= lines[i].totalApplications
    ensures r.1 <= r.0
  {
    if lines == [] then (0, 0)
    else
      var init := Totals(lines[..|lines| - 1]);
      var last := lines[|lines| - 1];
      if EntersTotals(last.postingStatus) then (init.0 + last.totalApplications, init.1 + last.completedEvaluations)
      else init
  }

  /** The statistics over every posting, in `findAll` order. */
  function ApplicationStatistics(s: Store): (r: Statistics)
    ensures |r.jobPostingStatistics| == |s.postings|
    ensures forall i | 0 <= i < |s.postings| :: r.jobPostingStatistics[i] == StatisticsFor(s.applications, s.postings[i])
    ensures 0 <= r.totalPendingEvaluations == r.totalApplications - r.totalCompletedEvaluations
    ensures r.totalCompletedEvaluations <= r.totalApplications
  {
    var lines := seq(|s.postings|, i requires 0 <= i < |s.postings| => StatisticsFor(s.applications, s.postings[i]));
    var (total, completed) := Totals(lines);
    Statistics(total, completed, total - completed, lines)
  }

  /** A posting that is scheduled, finished evaluating, or has no status adds
      nothing to the totals, whatever its counts. */
  lemma UncountedPostingAddsNothing(lines: seq<PostingStatistics>, line: PostingStatistics)
    requires forall i | 0 <= i < |lines| :: lines[i].completedEvaluations <= lines[i].totalApplications
    requires line.completedEvaluations <= line.totalApplications
    requires !EntersTotals(line.postingStatus)
    ensures Totals(lines + [line]) == Totals(lines)
  {
    assert (lines + [line])[..|lines|] == lines;
  }

  /** A counted posting adds exactly its own counts to the totals. */
  lemma CountedPostingAddsItsCounts(lines: seq<PostingStatistics>, line: PostingStatistics)
    requires forall i | 0 <= i < |lines| :: lines[i].completedEvaluations <= lines[i].totalApplications
    requires line.completedEvaluations <= line.totalApplications
    requires EntersTotals(line.postingStatus)
    ensures Totals(lines + [line]).0 == Totals(lines).0 + line.totalApplications
    ensures Totals(lines + [line]).1 == Totals(lines).1 + line.completedEvaluations
  {
    assert (lines + [line])[..|lines|] == lines;
  }
}

=== FILE: application_status.dfy ===
/** The five states of an application, and `Enum.valueOf` over their names. */
module ApplicationStatuses {
  import opened Wrappers

  /** In the order the enum declares them. */
  datatype ApplicationStatus = BeforeEvaluation | InProgress | Rejected | Accepted | OnHold {
    /** The enum constant's name, as stored and sent over JSON. */
    function Name(): string {
      match this
      case BeforeEvaluation => "BEFORE_EVALUATION"
      case InProgress => "IN_PROGRESS"
      case Rejected => "REJECTED"
      case Accepted => "ACCEPTED"
      case OnHold => "ON_HOLD"
    }

    /** A decision has been recorded: the states the statistics count as evaluated. */
    predicate IsDecided() {
      this == Accepted || this == Rejected
    }
  }

  /** `ApplicationStatus.valueOf(name)`: the constant spelled exactly `name`,
      or nothing (the source throws `IllegalArgumentException`). */
  function ValueOf(name: string): (r: Option<ApplicationStatus>)
    ensures r.Some? ==> r.value.Name() == name
    ensures r.None? <==> forall st: ApplicationStatus :: st.Name() != name
  {
    if name == "BEFORE_EVALUATION" then Some(BeforeEvaluation)
    else if name == "IN_PROGRESS" then Some(InProgress)
    else if name == "REJECTED" then Some(Rejected)
    else if name == "ACCEPTED" then Some(Accepted)
    else if name == "ON_HOLD" then Some(OnHold)
    else None
  }

  /** Names are pairwise distinct, so `ValueOf` inverts `Name`. */
  lemma ValueOfName(st: ApplicationStatus)
    ensures ValueOf(st.Name()) == Some(st)
  {
  }
}

=== FILE: application_store.dfy ===
/** The persistent state the application service reads and writes. Each
    repository is a table of rows in creation order; ids come from one
    counter, so creation order is also id order, and `findById` is a search
    for the row carrying that id. Queries that return lists
    (`findByApplicant`, `findByApplicationIdAndResumeItemId`) return matching
    rows in that order. */
module ApplicationStore {
  import opened Wrappers
  import opened Postings
  import opened ApplicationStatuses
  import opened Seqs

  datatype Applicant = Applicant(id: nat, name: string, email: string)

  datatype Application = Application(
    id: nat,
    status: ApplicationStatus,
    applicantId: nat,
    postingId: nat,
    comment: Option<string>)

  datatype ResumeAnswer = ResumeAnswer(
    id: nat,
    applicationId: nat,
    resumeItemId: nat,
    content: Option<string>,
    score: Option<int>)

  datatype CoverAnswer = CoverAnswer(
    id: nat,
    applicationId: nat,
    questionId: nat,
    content: Option<string>)

  /** One element of the `resumeScores` snapshot: the evaluation as received
      plus the item's maximum score at ingestion time. */
  datatype ScoreSnapshot = ScoreSnapshot(
    resumeItemId: nat,
    resumeItemName: Option<string>,
    resumeContent: Option<string>,
    score: Option<int>,
    maxScore: int)

  /** A stored evaluation result. The cover-letter and overall parts are kept
      as the serialised text they arrive as. */
  datatype EvaluationRecord = EvaluationRecord(
    id: nat,
    applicationId: nat,
    applicantName: string,
    applicantEmail: string,
    jobPostingId: nat,
    totalScore: int,
    resumeScores: seq<ScoreSnapshot>,
    coverLetterScores: string,
    overallEvaluation: string)

  datatype Store = Store(
    postings: seq<JobPosting>,
    resumeItems: seq<ResumeItem>,
    questions: seq<CoverLetterQuestion>,
    applicants: seq<Applicant>,
    applications: seq<Application>,
    resumeAnswers: seq<ResumeAnswer>,
    coverAnswers: seq<CoverAnswer>,
    results: seq<EvaluationRecord>,
    nextId: nat)

  /** The ways a service call fails; any of them rolls the transaction back,
      so the caller keeps the store it had. */
  datatype ServiceError =
    | IllegalArgument(message: string)
    | IndexOutOfBounds
    | NonUniqueResult
    | NullPointer
    | NotNullViolation(column: string)

  /** Ids strictly increase along a table and stay below the counter. */
  predicate IdsBelow(ids: seq<nat>, bound: nat) {
    (forall i | 0 <= i < |ids| :: ids[i] < bound) &&
    (forall i, j | 0 <= i < j < |ids| :: ids[i] < ids[j])
  }

  function ApplicantIds(rows: seq<Applicant>): (r: seq<nat>)
    ensures |r| == |rows| && forall i | 0 <= i < |rows| :: r[i] == rows[i].id
  {
    seq(|rows|, i requires 0 <= i < |rows| => rows[i].id)
  }

  function ApplicationIds(rows: seq<Application>): (r: seq<nat>)
    ensures |r| == |rows| && forall i | 0 <= i < |rows| :: r[i] == rows[i].id
  {
    seq(|rows|, i requires 0 <= i < |rows| => rows[i].id)
  }

  function ResumeAnswerIds(rows: seq<ResumeAnswer>): (r: seq<nat>)
    ensures |r| == |rows| && forall i | 0 <= i < |rows| :: r[i] == rows[i].id
  {
    seq(|rows|, i requires 0 <= i < |rows| => rows[i].id)
  }

  function CoverAnswerIds(rows: seq<CoverAnswer>): (r: seq<nat>)
    ensures |r| == |rows| && forall i | 0 <= i < |rows| :: r[i] == rows[i].id
  {
    seq(|rows|, i requires 0 <= i < |rows| => rows[i].id)
  }

  function ResultIds(rows: seq<EvaluationRecord>): (r: seq<nat>)
    ensures |r| == |rows| && forall i | 0 <= i < |rows| :: r[i] == rows[i].id
  {
    seq(|rows|, i requires 0 <= i < |rows| => rows[i].id)
  }

  /** The store invariant: fresh ids in every table the service inserts into,
      and at most one applicant per email (the column is unique). */
  predicate Valid(s: Store) {
    && IdsBelow(ApplicantIds(s.applicants), s.nextId)
    && IdsBelow(ApplicationIds(s.applications), s.nextId)
    && IdsBelow(ResumeAnswerIds(s.resumeAnswers), s.nextId)
    && IdsBelow(CoverAnswerIds(s.coverAnswers), s.nextId)
    && IdsBelow(ResultIds(s.results), s.nextId)
    && forall i, j | 0 <= i < j < |s.applicants| :: s.applicants[i].email != s.applicants[j].email
  }

  /** Appending the counter's value and bumping the counter keeps a table valid. */
  lemma IdsBelowSnoc(ids: seq<nat>, bound: nat)
    requires IdsBelow(ids, bound)
    ensures IdsBelow(ids + [bound], bound + 1)
  {
  }

  /** Raising the counter keeps every table valid. */
  lemma IdsBelowRaise(ids: seq<nat>, bound: nat, bound': nat)
    requires IdsBelow(ids, bound) && bound <= bound'
    ensures IdsBelow(ids, bound')
  {
  }

  predicate HasPosting(s: Store, id: nat) {
    exists i | 0 <= i < |s.postings| :: s.postings[i].id == id
  }

  predicate HasResumeItem(s: Store, id: nat) {
    exists i | 0 <= i < |s.resumeItems| :: s.resumeItems[i].id == id
  }

  predicate HasQuestion(s: Store, id: nat) {
    exists i | 0 <= i < |s.questions| :: s.questions[i].id == id
  }

  /** `applicantRepository.findAllByEmail(email).stream().findFirst()`. */
  function ApplicantByEmail(applicants: seq<Applicant>, email: string): (r: Option<nat>)
    ensures r.Some? ==> r.value < |applicants| && applicants[r.value].email == email
    ensures r.Some? ==> forall j | 0 <= j < r.value :: applicants[j].email != email
    ensures r.None? <==> forall j | 0 <= j < |applicants| :: applicants[j].email != email
  {
    FirstIndex(applicants, (a: Applicant) => a.email == email)
  }

  /** The last of `applicationRepository.findByApplicant(applicant)`: the
      applicant's most recently created application. */
  function LatestApplicationOf(applications: seq<Application>, applicantId: nat): (r: Option<nat>)
    ensures r.Some? ==> r.value < |applications| && applications[r.value].applicantId == applicantId
    ensures r.Some? ==> forall j | r.value < j < |applications| :: applications[j].applicantId != applicantId
    ensures r.None? <==> forall j | 0 <= j < |applications| :: applications[j].applicantId != applicantId
  {
    LastIndex(applications, (a: Application) => a.applicantId == applicantId)
  }

  /** `applicationRepository.findById(id)`. */
  function ApplicationById(applications: seq<Application>, id: nat): (r: Option<nat>)
    ensures r.Some? ==> r.value < |applications| && applications[r.value].id == id
    ensures r.None? <==> forall j | 0 <= j < |applications| :: applications[j].id != id
  {
    FirstIndex(applications, (a: Application) => a.id == id)
  }

  /** `resumeItemRepository.findById(id)`. */
  function ResumeItemById(items: seq<ResumeItem>, id: nat): (r: Option<ResumeItem>)
    ensures r.Some? ==> r.value in items && r.value.id == id
    ensures r.None? <==> forall j | 0 <= j < |items| :: items[j].id != id
    ensures forall j | 0 <= j < |items| && items[j].id == id && (forall i | 0 <= i < j :: items[i].id != id) ::
      r == Some(items[j])
  {
    match FirstIndex(items, (it: ResumeItem) => it.id == id)
    case None => None
    case Some(k) => Some(items[k])
  }

  /** Result rows of application `applicationId`. */
  function ForApplication(applicationId: nat): EvaluationRecord -> bool {
    (e: EvaluationRecord) => e.applicationId == applicationId
  }

  /** The rows of `results` that belong to application `applicationId`. */
  function ResultsFor(results: seq<EvaluationRecord>, applicationId: nat): seq<EvaluationRecord> {
    Filter(results, ForApplication(applicationId))
  }
}

=== FILE: date_utils.dfy ===
/** The workspace screens' own status rule: a recruiting period written as
    "YY.MM.DD - YY.MM.DD" is parsed into calendar days and compared with
    today's date in Korea, giving one of three phases. Days are numbered from
    1970-01-01 as JavaScript's `Date` numbers them; an invalid date (`NaN`)
    is `None`, and every comparison with it is false. */
module DateUtils {
  import opened Wrappers
  import opened Text

  const MsPerDay: int := 86400000

  // ---------------------------------------------------------------------------
  // `parseInt` and the `Date` constructor

  /** `parseInt(s)` without a radix: leading whitespace, an optional sign,
      then the longest run of hexadecimal digits after a `0x` or `0X` prefix
      and of decimal digits otherwise; no digit at all is `NaN`. */
  function ParseInt(s: string): (r: Option<int>)
    ensures (forall i | 0 <= i < |s| :: !IsDigit(s[i])) ==> r.None?
  {
    Signed(StripStart(s))
  }

  /** An optional sign, then the run of digits in the base the prefix selects. */
  function Signed(t: string): (r: Option<int>)
    ensures (forall i | 0 <= i < |t| :: !IsDigit(t[i])) ==> r.None?
  {
    var negative := t != [] && t[0] == '-';
    var body := if t != [] && (t[0] == '-' || t[0] == '+') then t[1..] else t;
    var number := if HexPrefixed(body) then LeadingHex(body[2..]) else LeadingNumber(body);
    match number
    case None => None
    case Some(v) => var n: int := v; Some(if negative then -n else n)
  }

  /** The `0x` or `0X` prefix that switches `parseInt` to base 16. */
  predicate HexPrefixed(s: string) {
    |s| >= 2 && s[0] == '0' && (s[1] == 'x' || s[1] == 'X')
  }

  predicate IsHexDigit(c: char) {
    IsDigit(c) || 'a' <= c <= 'f' || 'A' <= c <= 'F'
  }

  function HexDigitValue(c: char): (v: nat)
    requires IsHexDigit(c)
    ensures v < 16
  {
    if IsDigit(c) then c as int - '0' as int
    else if 'a' <= c <= 'f' then c as int - 'a' as int + 10
    else c as int - 'A' as int + 10
  }

  function HexValue(ds: string): nat
    requires forall i | 0 <= i < |ds| :: IsHexDigit(ds[i])
  {
    if ds == [] then 0 else 16 * HexValue(ds[..|ds| - 1]) + HexDigitValue(ds[|ds| - 1])
  }

  function HexRun(s: string): (n: nat)
    ensures n <= |s|
    ensures forall i | 0 <= i < n :: IsHexDigit(s[i])
    ensures n == |s| || !IsHexDigit(s[n])
  {
    if s == [] || !IsHexDigit(s[0]) then 0 else 1 + HexRun(s[1..])
  }

  /** The value of the run of hexadecimal digits that starts `s`, if there is one. */
  function LeadingHex(s: string): (r: Option<nat>)
    ensures r.None? <==> s == [] || !IsHexDigit(s[0])
  {
    var n := HexRun(s);
    if n == 0 then None else Some(HexValue(s[..n]))
  }

  /** The value of the run of digits that starts `s`, if there is one. */
  function LeadingNumber(s: string): (r: Option<nat>)
    ensures r.None? <==> s == [] || !IsDigit(s[0])
  {
    var n := DigitRun(s);
    if n == 0 then None else Some(DigitsValue(s[..n]))
  }

  /** A run of digits parses to its value. */
  lemma ParseIntOfDigits(ds: string)
    requires ds != [] && forall i | 0 <= i < |ds| :: IsDigit(ds[i])
    ensures ParseInt(ds) == Some(DigitsValue(ds))
  {
    ParseIntOfUnsigned(ds);
    LeadingNumberOfDigits(ds);
  }

  /** Text that starts with a digit has no whitespace or sign to skip; without
      a `0x` prefix it is read in base 10. */
  lemma ParseIntOfUnsigned(s: string)
    requires s != [] && IsDigit(s[0]) && !HexPrefixed(s)
    ensures ParseInt(s) == LeadingNumber(s)
  {
    NothingToStrip(s);
    SignedOfUnsigned(s);
  }

  /** With a `0x` prefix the digits are read in base 16, and a prefix with no
      hexadecimal digit after it is `NaN`. */
  lemma ParseIntOfHex(s: string)
    requires HexPrefixed(s)
    ensures ParseInt(s) == LeadingHex(s[2..])
    ensures ParseInt(s).None? <==> |s| == 2 || !IsHexDigit(s[2])
  {
    NothingToStrip(s);
    assert Signed(s) == LeadingHex(s[2..]);
  }

  /** `parseInt("0x1A")` is 26, not the 0 of its leading decimal digit. */
  lemma ParseIntHexExample()
    ensures ParseInt("0x1A") == Some(26)
    ensures LeadingNumber("0x1A") == Some(0)
  {
    ParseIntOfHex("0x1A");
    assert "0x1A"[2..] == "1A";
    HexOfOneA();
    DecimalOfHexPrefix();
  }

  lemma HexOfOneA()
    ensures LeadingHex("1A") == Some(26)
  {
    assert HexRun("1A") == 2;
    assert "1A"[..2] == "1A";
    assert HexValue("1A") == 16 * HexValue("1") + 10 by {
      assert "1A"[..1] == "1";
    }
    assert HexValue("1") == 1 by {
      assert "1"[..0] == "";
    }
  }

  lemma DecimalOfHexPrefix()
    ensures LeadingNumber("0x1A") == Some(0)
  {
    assert DigitRun("0x1A") == 1;
    assert "0x1A"[..1] == "0";
    assert DigitsValue("0") == 0 by {
      assert "0"[..0] == "";
    }
  }

  lemma NothingToStrip(s: string)
    requires s != [] && !IsSpace(s[0])
    ensures StripStart(s) == s
  {
  }

  lemma SignedOfUnsigned(s: string)
    requires s != [] && IsDigit(s[0]) && !HexPrefixed(s)
    ensures Signed(s) == LeadingNumber(s)
  {
  }

  lemma LeadingNumberOfDigits(ds: string)
    requires ds != [] && forall i | 0 <= i < |ds| :: IsDigit(ds[i])
    ensures LeadingNumber(ds) == Some(DigitsValue(ds))
  {
    DigitRunOfDigits(ds);
    assert ds[..|ds|] == ds;
  }

  lemma DigitRunOfDigits(ds: string)
    requires forall i | 0 <= i < |ds| :: IsDigit(ds[i])
    ensures DigitRun(ds) == |ds|
  {
    if ds != [] {
      DigitRunOfDigits(ds[1..]);
    }
  }

  /** `new Date(y, ...)` reads a year from 0 to 99 as 1900 to 1999. */
  function JsYear(y: int): (r: int)
    ensures 0 <= y <= 99 ==> r == 1900 + y
    ensures !(0 <= y <= 99) ==> r == y
  {
    if 0 <= y <= 99 then 1900 + y else y
  }

  /** Day number of March 1st of year `y`, in the proleptic Gregorian
      calendar. Counting years from March puts the leap day at the end of
      the year; 146097 is the number of days in 400 years. */
  function MarchFirst(y: int): int {
    var era := y / 400;
    var yoe := y % 400;
    era * 146097 + yoe * 365 + yoe / 4 - yoe / 100 - 719468
  }

  /** Days from March 1st to the first of month `m` (1..12) in a year
      counted from March. */
  function MonthOffset(m: int): int
    requires 1 <= m <= 12
  {
    match m
    case 3 => 0 case 4 => 31 case 5 => 61 case 6 => 92 case 7 => 122 case 8 => 153
    case 9 => 184 case 10 => 214 case 11 => 245 case 12 => 275 case 1 => 306 case _ => 337
  }

  /** Days from 1970-01-01 to the given proleptic Gregorian date, for a
      month 1..12 and any day of month (days past the month's end run on). */
  function DaysFromCivil(y: int, m: int, d: int): int
    requires 1 <= m <= 12
  {
    MarchFirst(if m <= 2 then y - 1 else y) + MonthOffset(m) + d - 1
  }

  /** The day `MakeDay` of the ECMAScript standard gives for a year, a month
      counted from 0 that may lie outside 0..11, and a day of month. */
  function MakeDay(year: int, month: int, date: int): int {
    DaysFromCivil(year + month / 12, month % 12 + 1, 1) + date - 1
  }

  predicate IsLeapYear(y: int) {
    y % 4 == 0 && (y % 100 != 0 || y % 400 == 0)
  }

  function DaysInMonth(y: int, m: int): int
    requires 1 <= m <= 12
  {
    if m == 2 then (if IsLeapYear(y) then 29 else 28)
    else if m == 4 || m == 6 || m == 9 || m == 11 then 30
    else 31
  }

  /** The numbering is anchored at the epoch. */
  lemma EpochIsDayZero()
    ensures MakeDay(1970, 0, 1) == 0
  {
  }

  /** A month's first day follows the previous month's first day by that
      month's length; with `EpochIsDayZero` this pins down every day number. */
  lemma NextMonthStart(y: int, m: int)
    requires 1 <= m <= 12
    ensures MakeDay(y, m, 1) == MakeDay(y, m - 1, 1) + DaysInMonth(y, m)
  {
    MonthIndexInYear(y, m - 1);
    if m == 12 {
      assert MakeDay(y, 12, 1) == DaysFromCivil(y + 1, 1, 1);
    } else {
      MonthIndexInYear(y, m);
      if m == 2 {
        YearLength(y);
      }
    }
  }

  /** A month index 0..11 stays in its year. */
  lemma MonthIndexInYear(y: int, m: int)
    requires 0 <= m <= 11
    ensures MakeDay(y, m, 1) == DaysFromCivil(y, m + 1, 1)
  {
  }

  /** From one March 1st to the next: 365 days plus one in leap years. */
  lemma YearLength(y: int)
    ensures MarchFirst(y) - MarchFirst(y - 1) == 365 + (if IsLeapYear(y) then 1 else 0)
  {
    var q, a := y / 400, y % 400;
    PreviousYearInEra(y);
    ResiduesInEra(y);
    if a != 0 {
      LeapStepInEra(a);
    }
  }

  /** Where the year before `y` falls in the 400-year cycle. */
  lemma PreviousYearInEra(y: int)
    ensures y % 400 == 0 ==> (y - 1) / 400 == y / 400 - 1 && (y - 1) % 400 == 399
    ensures y % 400 != 0 ==> (y - 1) / 400 == y / 400 && (y - 1) % 400 == y % 400 - 1
  {
  }

  /** Divisibility by 4 and 100 can be read off the year of the cycle. */
  lemma ResiduesInEra(y: int)
    ensures y % 4 == (y % 400) % 4 && y % 100 == (y % 400) % 100
  {
    var q, r := y / 400, y % 400;
    ModFour(100 * q, r);
    ModHundred(4 * q, r);
  }

  lemma ModFour(k: int, r: int)
    ensures (4 * k + r) % 4 == r % 4
  {
  }

  lemma ModHundred(k: int, r: int)
    ensures (100 * k + r) % 100 == r % 100
  {
  }

  /** Inside a cycle the leap-day counts step exactly at multiples. */
  lemma LeapStepInEra(a: int)
    requires 1 <= a < 400
    ensures a / 4 - (a - 1) / 4 == (if a % 4 == 0 then 1 else 0)
    ensures a / 100 - (a - 1) / 100 == (if a % 100 == 0 then 1 else 0)
  {
  }

  /** Month numbers past December carry into the year, as in `new Date`. */
  lemma MonthOverflowCarries(y: int, m: int, d: int)
    ensures MakeDay(y, m + 12, d) == MakeDay(y + 1, m, d)
  {
    assert (m + 12) / 12 == m / 12 + 1;
    assert (m + 12) % 12 == m % 12;
  }

  /** A calendar date's day number: its month's first day plus the day of
      month less one. */
  lemma MakeDayOfCalendarDate(y: int, m: int, d: int)
    requires 1 <= m <= 12
    ensures MakeDay(y, m - 1, d) == DaysFromCivil(y, m, 1) + d - 1
  {
  }

  // ---------------------------------------------------------------------------
  // `parseDate` and `calculateWorkspaceStatus`

  /** `new Date(2000 + year, month - 1, day)` on numbers that may be `NaN`:
      any `NaN` makes the date invalid. */
  function NewDate(year: Option<int>, month: Option<int>, day: Option<int>): (r: Option<int>)
    ensures r.Some? <==> year.Some? && month.Some? && day.Some?
  {
    if year.None? || month.None? || day.None? then None
    else Some(MakeDay(JsYear(2000 + year.value), month.value - 1, day.value))
  }

  /** `parseDate`: split at dots, read the pieces as year within the 2000s,
      month and day; a missing or unreadable piece makes the date invalid. */
  function ParseDate(s: string): (r: Option<int>)
    ensures r.Some? ==> |Split(s, ".")| >= 3
  {
    DateOfPieces(Split(s, "."))
  }

  /** The first three dot-separated pieces as year, month and day; a piece
      that is not there reads as `NaN`. */
  function DateOfPieces(pieces: seq<string>): (r: Option<int>)
    requires |pieces| >= 1
    ensures r.Some? ==> |pieces| >= 3
  {
    NewDate(ParseInt(pieces[0]),
            if |pieces| > 1 then ParseInt(pieces[1]) else None,
            if |pieces| > 2 then ParseInt(pieces[2]) else None)
  }

  predicate IsDigits(s: string) {
    s != [] && forall i | 0 <= i < |s| :: IsDigit(s[i])
  }

  /** "YY.MM.DD" denotes year 2000 + YY, month MM - 1 counted from 0, and
      day DD, where YY, MM and DD are what `parseInt` reads from the pieces;
      for pieces of plain digits that is their decimal value
      (`ParseIntOfDigits`). */
  lemma ParseDateDenotes(a: string, b: string, c: string, y: nat, m: int, d: int)
    requires '.' !in a && '.' !in b && '.' !in c
    requires ParseInt(a) == Some(y) && ParseInt(b) == Some(m) && ParseInt(c) == Some(d)
    ensures ParseDate(a + "." + b + "." + c) == Some(MakeDay(2000 + y, m - 1, d))
  {
    ParseDateOfThree(a, b, c);
    NewDateInThe2000s(y, m, d);
  }

  /** `ParseDate` on three dot-free pieces joined by dots. */
  lemma ParseDateOfThree(a: string, b: string, c: string)
    requires '.' !in a && '.' !in b && '.' !in c
    ensures ParseDate(a + "." + b + "." + c) == NewDate(ParseInt(a), ParseInt(b), ParseInt(c))
  {
    SplitThree(a, b, c, ".");
    assert DateOfPieces([a, b, c]) == NewDate(ParseInt(a), ParseInt(b), ParseInt(c));
  }

  /** A non-negative year piece lands in the 2000s, past the 0..99 rule. */
  lemma NewDateInThe2000s(y: nat, m: int, d: int)
    ensures NewDate(Some(y), Some(m), Some(d)) == Some(MakeDay(2000 + y, m - 1, d))
  {
  }

  datatype Phase = Scheduled | Recruiting | Completed

  /** The calendar day of a wall-clock time in milliseconds. */
  function DayOfMs(ms: int): int {
    ms / MsPerDay
  }

  /** `calculateWorkspaceStatus`: `koreaNowMs` is the current wall-clock time
      in Korea. A period without " - " has no end piece, and parsing that
      missing piece throws. */
  function CalculateWorkspaceStatus(period: string, koreaNowMs: int): (r: Result<Phase, string>)
    ensures r.Failure? <==> |Split(period, " - ")| < 2
  {
    var pieces := Split(period, " - ");
    if |pieces| < 2 then Failure("TypeError")
    else
      Success(PhaseOn(ParseDate(pieces[0]), ParseDate(pieces[1]), DayOfMs(koreaNowMs)))
  }

  /** The comparisons of `calculateWorkspaceStatus` on the parsed start and
      end days; a date that did not parse compares false. */
  function PhaseOn(start: Option<int>, end: Option<int>, today: int): Phase {
    if start.Some? && today < start.value then Scheduled
    else if start.Some? && end.Some? && start.value <= today && today <= end.value then Recruiting
    else Completed
  }

  /** With both days known the phases partition the timeline. */
  lemma PhaseOnPartition(s: int, e: int, today: int)
    ensures var p := PhaseOn(Some(s), Some(e), today);
      && (p == Scheduled <==> today < s)
      && (p == Recruiting <==> s <= today <= e)
      && (p == Completed <==> s <= today && e < today)
  {
  }

  /** The period string of two dates. */
  function Period(start: string, end: string): string {
    start + " - " + end
  }

  /** For two readable dates the phases partition the timeline: before the
      start day, from the start day to the end day inclusive, and after. */
  lemma WorkspaceStatusPartition(start: string, end: string, koreaNowMs: int)
    requires ' ' !in start && ' ' !in end
    requires ParseDate(start).Some? && ParseDate(end).Some?
    ensures var r := CalculateWorkspaceStatus(Period(start, end), koreaNowMs);
      var s, e, today := ParseDate(start).value, ParseDate(end).value, DayOfMs(koreaNowMs);
      && r.Success?
      && (r.value == Scheduled <==> today < s)
      && (r.value == Recruiting <==> s <= today <= e)
      && (r.value == Completed <==> s <= today && e < today)
  {
    PeriodPieces(start, end);
    PhaseOnPartition(ParseDate(start).value, ParseDate(end).value, DayOfMs(koreaNowMs));
  }

  lemma PeriodPieces(start: string, end: string)
    requires ' ' !in start && ' ' !in end
    ensures Split(Period(start, end), " - ") == [start, end]
  {
    SplitJoin(start, " - ", end);
    SplitWithoutSeparator(end, " - ");
  }

  /** An unreadable start date never compares, so the period reads as
      completed whatever the day. */
  lemma UnreadableStartIsCompleted(start: string, end: string, koreaNowMs: int)
    requires ' ' !in start && ParseDate(start).None?
    ensures CalculateWorkspaceStatus(Period(start, end), koreaNowMs) == Success(Completed)
  {
    SplitJoin(start, " - ", end);
  }

  /** Only the calendar day of "now" matters. */
  lemma TimeOfDayIsIrrelevant(period: string, t1: int, t2: int)
    requires DayOfMs(t1) == DayOfMs(t2)
    ensures CalculateWorkspaceStatus(period, t1) == CalculateWorkspaceStatus(period, t2)
  {
  }
}

=== FILE: employment_type_utils.dfy ===
/** Display helpers for a posting's employment type: its Korean label, its
    badge colour and the option list of the posting form. The type arrives as
    the enum's name or as any other string. */
module EmploymentTypeUtils {
  import opened Postings

  /** An entry of the form's option list. */
  datatype EmploymentOption = EmploymentOption(value: string, text: string)

  const DefaultColor: string := "bg-gray-100 text-gray-800"

  /** The label of a known type. */
  function LabelOf(t: EmploymentType): string {
    match t
    case FullTime => "정규직"
    case PartTime => "파트타임"
    case Contract => "계약직"
    case Internship => "인턴십"
    case Freelance => "프리랜서"
  }

  /** `getEmploymentTypeLabel`: the label of the named type; an unknown name
      reads as full-time. */
  function EmploymentTypeLabel(name: string): (r: string)
    ensures forall t: EmploymentType :: t.Name() == name ==> r == LabelOf(t)
    ensures (forall t: EmploymentType :: t.Name() != name) ==> r == LabelOf(FullTime)
  {
    if name == FullTime.Name() then "정규직"
    else if name == PartTime.Name() then "파트타임"
    else if name == Contract.Name() then "계약직"
    else if name == Internship.Name() then "인턴십"
    else if name == Freelance.Name() then "프리랜서"
    else "정규직"
  }

  /** The badge classes of a known type. */
  function ColorOf(t: EmploymentType): string {
    match t
    case FullTime => "bg-blue-100 text-blue-800"
    case PartTime => "bg-green-100 text-green-800"
    case Contract => "bg-yellow-100 text-yellow-800"
    case Internship => "bg-purple-100 text-purple-800"
    case Freelance => "bg-orange-100 text-orange-800"
  }

  /** `getEmploymentTypeColor`: the badge classes of the named type; an
      unknown name gets the gray default, which no known type uses. */
  function EmploymentTypeColor(name: string): (r: string)
    ensures forall t: EmploymentType :: t.Name() == name ==> r == ColorOf(t)
    ensures (forall t: EmploymentType :: t.Name() != name) <==> r == DefaultColor
  {
    if name == FullTime.Name() then "bg-blue-100 text-blue-800"
    else if name == PartTime.Name() then "bg-green-100 text-green-800"
    else if name == Contract.Name() then "bg-yellow-100 text-yellow-800"
    else if name == Internship.Name() then "bg-purple-100 text-purple-800"
    else if name == Freelance.Name() then "bg-orange-100 text-orange-800"
    else DefaultColor
  }

  /** `employmentTypeOptions`, in the enum's order. */
  const EmploymentTypeOptions: seq<EmploymentOption> := [
    EmploymentOption("FULL_TIME", "정규직"),
    EmploymentOption("PART_TIME", "파트타임"),
    EmploymentOption("CONTRACT", "계약직"),
    EmploymentOption("INTERNSHIP", "인턴십"),
    EmploymentOption("FREELANCE", "프리랜서")
  ]

  /** Different known types have different labels and different colours. */
  lemma KnownTypesAreDistinguished(s: EmploymentType, t: EmploymentType)
    requires s != t
    ensures EmploymentTypeLabel(s.Name()) != EmploymentTypeLabel(t.Name())
    ensures EmploymentTypeColor(s.Name()) != EmploymentTypeColor(t.Name())
  {
    LabelsDiffer(s, t);
    ColorsDiffer(s, t);
  }

  lemma LabelsDiffer(s: EmploymentType, t: EmploymentType)
    requires s != t
    ensures LabelOf(s) != LabelOf(t)
  {
    assert LabelOf(s)[0] != LabelOf(t)[0];
  }

  lemma ColorsDiffer(s: EmploymentType, t: EmploymentType)
    requires s != t
    ensures ColorOf(s) != ColorOf(t)
  {
    assert ColorOf(s)[3] != ColorOf(t)[3];
  }

  /** An unknown name shows the full-time label. */
  lemma UnknownTypeReadsAsFullTime(name: string)
    requires forall t: EmploymentType :: t.Name() != name
    ensures EmploymentTypeLabel(name) == EmploymentTypeLabel(FullTime.Name())
  {
  }

  /** The option list offers every type with its label, and each option's
      text is the label of its value. */
  lemma OptionsAgreeWithLabels()
    ensures |EmploymentTypeOptions| == 5
    ensures forall t: EmploymentType :: EmploymentOption(t.Name(), LabelOf(t)) in EmploymentTypeOptions
    ensures forall i | 0 <= i < |EmploymentTypeOptions| ::
      EmploymentTypeLabel(EmploymentTypeOptions[i].value) == EmploymentTypeOptions[i].text
  {
    var types := [FullTime, PartTime, Contract, Internship, Freelance];
    assert forall i | 0 <= i < 5 :: EmploymentTypeOptions[i] == EmploymentOption(types[i].Name(), LabelOf(types[i]));
    forall t: EmploymentType
      ensures EmploymentOption(t.Name(), LabelOf(t)) in EmploymentTypeOptions
    {
      var i := match t
        case FullTime => 0 case PartTime => 1 case Contract => 2 case Internship => 3 case Freelance => 4;
      assert types[i] == t;
    }
  }
}

=== FILE: evaluation_ingestion.dfy ===
/** The two ways an evaluation report enters the store: the regular path fed
    by the evaluator, and the administrator's path that replaces a previous
    result. Both locate an application, force it to `IN_PROGRESS`, total the
    resume scores and store a snapshot; an error leaves the caller with the
    store it had. */
module EvaluationIngestion {
  import opened Wrappers
  import opened Postings
  import opened ApplicationStatuses
  import opened Seqs
  import opened ApplicationStore

  /** One scored resume item of the report. */
  datatype ResumeEvaluation = ResumeEvaluation(
    resumeItemId: nat,
    resumeItemName: Option<string>,
    resumeContent: Option<string>,
    score: Option<int>)

  /** The report as the service reads it. The cover-letter evaluations and the
      overall analysis are stored as received, as serialised text. */
  datatype EvaluationPayload = EvaluationPayload(
    applicantName: Option<string>,
    applicantEmail: Option<string>,
    jobPostingId: Option<nat>,
    applicationId: Option<nat>,
    resumeEvaluations: Option<seq<ResumeEvaluation>>,
    coverLetterQuestionEvaluations: string,
    overallAnalysis: string)

  /** A null evaluation list reads as an empty one. */
  function Evaluations(p: EvaluationPayload): seq<ResumeEvaluation> {
    p.resumeEvaluations.GetOr([])
  }

  // ---------------------------------------------------------------------------
  // Total score

  /** The reference sum: every evaluation's score, a null score counting 0. */
  function ScoreSum(evals: seq<ResumeEvaluation>): int {
    if evals == [] then 0
    else ScoreSum(evals[..|evals| - 1]) + evals[|evals| - 1].score.GetOr(0)
  }

  /** The service's accumulation loop over the report. Neither the item's
      maximum score nor the cover-letter part enters the total. */
  method CalculateTotalScore(evals: Option<seq<ResumeEvaluation>>) returns (total: int)
    ensures total == ScoreSum(evals.GetOr([]))
  {
    total := 0;
    var es := evals.GetOr([]);
    var i := 0;
    while i < |es|
      invariant 0 <= i <= |es|
      invariant total == ScoreSum(es[..i])
    {
      assert es[..i + 1][..i] == es[..i];
      total := total + (if es[i].score.Some? then es[i].score.value else 0);
      i := i + 1;
    }
    assert es[..i] == es;
  }

  /** The sum splits over a concatenation of reports. */
  lemma {:induction false} ScoreSumAppend(xs: seq<ResumeEvaluation>, ys: seq<ResumeEvaluation>)
    ensures ScoreSum(xs + ys) == ScoreSum(xs) + ScoreSum(ys)
    decreases |ys|
  {
    if ys == [] {
      assert xs + ys == xs;
    } else {
      var init := ys[..|ys| - 1];
      assert (xs + ys)[..|xs + ys| - 1] == xs + init;
      assert (xs + ys)[|xs + ys| - 1] == ys[|ys| - 1];
      ScoreSumAppend(xs, init);
    }
  }

  /** With every score present and non-negative, the total is at least each
      single score: nothing caps or drops an item. */
  lemma {:induction false} ScoreSumCoversEachItem(evals: seq<ResumeEvaluation>, k: nat)
    requires k < |evals|
    requires forall j | 0 <= j < |evals| :: evals[j].score.GetOr(0) >= 0
    ensures ScoreSum(evals) >= evals[k].score.GetOr(0)
  {
    var init := evals[..|evals| - 1];
    assert forall j | 0 <= j < |init| :: init[j] == evals[j];
    if k < |evals| - 1 {
      ScoreSumCoversEachItem(init, k);
    } else {
      ScoreSumNonNegative(init);
    }
  }

  lemma {:induction false} ScoreSumNonNegative(evals: seq<ResumeEvaluation>)
    requires forall j | 0 <= j < |evals| :: evals[j].score.GetOr(0) >= 0
    ensures ScoreSum(evals) >= 0
  {
    if evals != [] {
      var init := evals[..|evals| - 1];
      assert forall j | 0 <= j < |init| :: init[j] == evals[j];
      ScoreSumNonNegative(init);
    }
  }

  // ---------------------------------------------------------------------------
  // Snapshot

  /** The maximum score recorded next to an evaluation: the item's own, or 10
      when the item is unknown or has none. */
  function MaxScoreOf(items: seq<ResumeItem>, itemId: nat): (r: int)
    ensures forall j | 0 <= j < |items| && items[j].id == itemId && (forall i | 0 <= i < j :: items[i].id != itemId) ::
      r == items[j].maxScore.GetOr(10)
    ensures (forall j | 0 <= j < |items| :: items[j].id != itemId) ==> r == 10
  {
    match ResumeItemById(items, itemId)
    case None => 10
    case Some(it) => it.maxScore.GetOr(10)
  }

  /** The `resumeScores` snapshot: each evaluation with the maximum score
      of its item attached. */
  function Snapshot(items: seq<ResumeItem>, evals: seq<ResumeEvaluation>): seq<ScoreSnapshot> {
    seq(|evals|, k requires 0 <= k < |evals| =>
      var e := evals[k];
      ScoreSnapshot(e.resumeItemId, e.resumeItemName, e.resumeContent, e.score, MaxScoreOf(items, e.resumeItemId)))
  }

  /** The snapshot keeps every evaluation as received, in order, and
      attaches the maximum score of the item it is about. */
  lemma SnapshotKeepsEvaluations(items: seq<ResumeItem>, evals: seq<ResumeEvaluation>)
    ensures var r := Snapshot(items, evals);
      && |r| == |evals|
      && forall k | 0 <= k < |evals| ::
        && r[k].resumeItemId == evals[k].resumeItemId
        && r[k].resumeItemName == evals[k].resumeItemName
        && r[k].resumeContent == evals[k].resumeContent
        && r[k].score == evals[k].score
        && r[k].maxScore == MaxScoreOf(items, evals[k].resumeItemId)
  {
  }

  /** Sum of the snapshot's scores, a null score counting 0. */
  function SnapshotScoreSum(snap: seq<ScoreSnapshot>): int {
    if snap == [] then 0
    else SnapshotScoreSum(snap[..|snap| - 1]) + snap[|snap| - 1].score.GetOr(0)
  }

  /** The stored total always equals the sum of the stored per-item scores,
      whatever maximum scores were attached. */
  lemma {:induction false} TotalMatchesSnapshot(items: seq<ResumeItem>, evals: seq<ResumeEvaluation>)
    ensures SnapshotScoreSum(Snapshot(items, evals)) == ScoreSum(evals)
  {
    if evals != [] {
      var init := evals[..|evals| - 1];
      SnapshotKeepsEvaluations(items, evals);
      SnapshotKeepsEvaluations(items, init);
      assert Snapshot(items, evals)[..|evals| - 1] == Snapshot(items, init);
      TotalMatchesSnapshot(items, init);
    }
  }

  // ---------------------------------------------------------------------------
  // Answer score write-back (regular path only)

  /** The answer rows of application `applicationId` for item `itemId`. */
  function AnswerOf(applicationId: nat, itemId: nat): ResumeAnswer -> bool {
    (a: ResumeAnswer) => a.applicationId == applicationId && a.resumeItemId == itemId
  }

  /** The evaluations of item `itemId`. */
  function EvaluationOf(itemId: nat): ResumeEvaluation -> bool {
    (e: ResumeEvaluation) => e.resumeItemId == itemId
  }

  /** Writes one evaluation's score into the first answer of that item, if
      any; no other row and no other column changes. */
  function WriteScore(rows: seq<ResumeAnswer>, applicationId: nat, e: ResumeEvaluation): (r: seq<ResumeAnswer>)
    ensures |r| == |rows|
    ensures forall i | 0 <= i < |rows| :: r[i] == rows[i].(score := r[i].score)
    ensures forall i | 0 <= i < |rows| ::
      r[i].score == if FirstIndex(rows, AnswerOf(applicationId, e.resumeItemId)) == Some(i) then e.score else rows[i].score
  {
    match FirstIndex(rows, AnswerOf(applicationId, e.resumeItemId))
    case None => rows
    case Some(k) => rows[k := rows[k].(score := e.score)]
  }

  /** Writes every evaluation in report order. */
  function WriteScores(rows: seq<ResumeAnswer>, applicationId: nat, evals: seq<ResumeEvaluation>): seq<ResumeAnswer> {
    if evals == [] then rows
    else WriteScore(WriteScores(rows, applicationId, evals[..|evals| - 1]), applicationId, evals[|evals| - 1])
  }

  /** Only scores change: the first answer of each evaluated item ends with
      the score of that item's last evaluation, and every other row keeps
      its score. */
  lemma {:induction false} WriteScoresEffect(rows: seq<ResumeAnswer>, applicationId: nat, evals: seq<ResumeEvaluation>)
    ensures var r := WriteScores(rows, applicationId, evals);
      && |r| == |rows|
      && (forall i | 0 <= i < |rows| :: r[i] == rows[i].(score := r[i].score))
      && forall i | 0 <= i < |rows| ::
        r[i].score ==
          (if FirstIndex(rows, AnswerOf(applicationId, rows[i].resumeItemId)) == Some(i) &&
              LastIndex(evals, EvaluationOf(rows[i].resumeItemId)).Some?
           then evals[LastIndex(evals, EvaluationOf(rows[i].resumeItemId)).value].score
           else rows[i].score)
  {
    if evals != [] {
      var init, e := evals[..|evals| - 1], evals[|evals| - 1];
      var before := WriteScores(rows, applicationId, init);
      WriteScoresEffect(rows, applicationId, init);
      SameKeysSameFirst(rows, before, applicationId, e.resumeItemId);
      forall i | 0 <= i < |rows|
        ensures LastIndex(evals, EvaluationOf(rows[i].resumeItemId)) ==
          if rows[i].resumeItemId == e.resumeItemId then Some(|evals| - 1) else LastIndex(init, EvaluationOf(rows[i].resumeItemId))
      {
      }
      assert forall j | 0 <= j < |init| :: init[j] == evals[j];
    }
  }

  /** Rows that differ only in their scores have the same first match. */
  lemma SameKeysSameFirst(rows: seq<ResumeAnswer>, rows': seq<ResumeAnswer>, applicationId: nat, itemId: nat)
    requires |rows'| == |rows|
    requires forall i | 0 <= i < |rows| :: rows'[i] == rows[i].(score := rows'[i].score)
    ensures FirstIndex(rows', AnswerOf(applicationId, itemId)) == FirstIndex(rows, AnswerOf(applicationId, itemId))
  {
    var p := AnswerOf(applicationId, itemId);
    assert forall i | 0 <= i < |rows| :: p(rows'[i]) == p(rows[i]);
  }

  // ---------------------------------------------------------------------------
  // The regular path

  /** The applicant's latest application, found through the first applicant
      with the report's email. A missing applicant is an
      `IllegalArgumentException`; an applicant without applications makes
      `get(size() - 1)` throw. */
  function ResolveLatestApplication(s: Store, email: Option<string>): (r: Result<nat, ServiceError>)
    ensures r.Success? ==>
      && email.Some? && ApplicantByEmail(s.applicants, email.value).Some?
      && LatestApplicationOf(s.applications, s.applicants[ApplicantByEmail(s.applicants, email.value).value].id).Some?
      && r.value == LatestApplicationOf(s.applications, s.applicants[ApplicantByEmail(s.applicants, email.value).value].id).value
    ensures r.Failure? <==>
      || email.None?
      || ApplicantByEmail(s.applicants, email.value).None?
      || LatestApplicationOf(s.applications, s.applicants[ApplicantByEmail(s.applicants, email.value).value].id).None?
    ensures r.Failure? && email.Some? && ApplicantByEmail(s.applicants, email.value).Some? ==> r.error == IndexOutOfBounds
  {
    if email.None? then Failure(IllegalArgument("applicant not found"))
    else
      match ApplicantByEmail(s.applicants, email.value)
      case None => Failure(IllegalArgument("applicant not found"))
      case Some(i) =>
        match LatestApplicationOf(s.applications, s.applicants[i].id)
        case None => Failure(IndexOutOfBounds)
        case Some(k) => Success(k)
  }

  /** The stored result for application `app` built from the report; the
      caller has checked the not-null columns. */
  function Record(s: Store, app: Application, p: EvaluationPayload): EvaluationRecord
    requires HasRecordFields(p)
  {
    EvaluationRecord(s.nextId, app.id, p.applicantName.value, p.applicantEmail.value, p.jobPostingId.value,
                     ScoreSum(Evaluations(p)), Snapshot(s.resumeItems, Evaluations(p)),
                     p.coverLetterQuestionEvaluations, p.overallAnalysis)
  }

  /** The regular ingestion. It locates the latest application of the
      report's applicant, sets it `IN_PROGRESS`, writes the scores back into
      the answers, and adds a result row without removing any earlier one.
      A null name or posting id violates a not-null column at insert time. */
  function ProcessEvaluationResult(s: Store, p: EvaluationPayload): (r: Result<Store, ServiceError>)
    ensures r.Success? <==>
      ResolveLatestApplication(s, p.applicantEmail).Success? && p.applicantName.Some? && p.jobPostingId.Some?
    ensures r.Success? ==>
      var k := ResolveLatestApplication(s, p.applicantEmail).value;
      var appId := s.applications[k].id;
      && |r.value.applications| == |s.applications|
      && r.value.applications[k] == s.applications[k].(status := ApplicationStatus.InProgress)
      && (forall j | 0 <= j < |s.applications| && j != k :: r.value.applications[j] == s.applications[j])
      && r.value.resumeAnswers == WriteScores(s.resumeAnswers, appId, Evaluations(p))
      && |r.value.results| == |s.results| + 1
      && r.value.results[..|s.results|] == s.results
      && r.value.results[|s.results|].applicationId == appId
      && r.value.results[|s.results|].totalScore == ScoreSum(Evaluations(p))
      && r.value.results[|s.results|].applicantEmail == p.applicantEmail.value
      && r.value.nextId == s.nextId + 1
      && r.value.(applications := s.applications, resumeAnswers := s.resumeAnswers, results := s.results, nextId := s.nextId) == s
  {
    var k :- ResolveLatestApplication(s, p.applicantEmail);
    var app := s.applications[k];
    if p.applicantName.None? then Failure(NotNullViolation("applicant_name"))
    else if p.jobPostingId.None? then Failure(NotNullViolation("job_posting_id"))
    else
      Success(s.(applications := s.applications[k := app.(status := ApplicationStatus.InProgress)],
                 resumeAnswers := WriteScores(s.resumeAnswers, app.id, Evaluations(p)),
                 results := s.results + [Record(s, app, p)],
                 nextId := s.nextId + 1))
  }

  /** The regular path never deletes: each ingestion adds one more result for
      the application, so a second report leaves two. The store has no
      uniqueness constraint on a result's application. */
  lemma RegularPathAccumulatesResults(s: Store, p: EvaluationPayload)
    requires ProcessEvaluationResult(s, p).Success?
    ensures var appId := s.applications[ResolveLatestApplication(s, p.applicantEmail).value].id;
      |ResultsFor(ProcessEvaluationResult(s, p).value.results, appId)| == |ResultsFor(s.results, appId)| + 1
  {
    var r := ProcessEvaluationResult(s, p).value;
    var appId := s.applications[ResolveLatestApplication(s, p.applicantEmail).value].id;
    assert r.results == s.results + [r.results[|s.results|]];
    FilterSnoc(s.results, r.results[|s.results|], ForApplication(appId));
  }

  // ---------------------------------------------------------------------------
  // The administrator's path

  /** `String.trim()` drops leading and trailing characters up to U+0020. */
  function TrimStart(s: string): (r: string)
    ensures |r| <= |s| && r == s[|s| - |r|..]
    ensures r == [] || r[0] > ' '
    ensures forall i | 0 <= i < |s| - |r| :: s[i] <= ' '
  {
    if s == [] || s[0] > ' ' then s else TrimStart(s[1..])
  }

  function TrimEnd(s: string): (r: string)
    ensures |r| <= |s| && r == s[..|r|]
    ensures r == [] || r[|r| - 1] > ' '
    ensures forall i | |r| <= i < |s| :: s[i] <= ' '
  {
    if s == [] || s[|s| - 1] > ' ' then s else TrimEnd(s[..|s| - 1])
  }

  function Trim(s: string): string {
    TrimEnd(TrimStart(s))
  }

  /** `name == null || name.trim().isEmpty()`. */
  predicate IsBlank(s: Option<string>) {
    s.None? || Trim(s.value) == []
  }

  /** A string trims to nothing exactly when every character is at most U+0020. */
  lemma TrimEmptyIffAllSpace(s: string)
    ensures Trim(s) == [] <==> forall i | 0 <= i < |s| :: s[i] <= ' '
  {
    var t := TrimStart(s);
    if t != [] {
      assert TrimEnd(t) != [];
      assert s[|s| - |t|] == t[0];
    }
  }

  /** The administrator path's checks, in the order they are made. */
  function ValidateForAdmin(p: EvaluationPayload): (r: Option<ServiceError>)
    ensures r.None? <==> !IsBlank(p.applicantName) && !IsBlank(p.applicantEmail) && p.jobPostingId.Some?
    ensures r.Some? ==> r.value.IllegalArgument?
  {
    if IsBlank(p.applicantName) then Some(IllegalArgument("applicant name required"))
    else if IsBlank(p.applicantEmail) then Some(IllegalArgument("applicant email required"))
    else if p.jobPostingId.None? then Some(IllegalArgument("job posting id required"))
    else None
  }

  /** The application the administrator's report is about: the one with the
      report's application id when that exists, otherwise the latest
      application of the applicant with the report's email; both misses are
      an `IllegalArgumentException`. */
  function ResolveForAdmin(s: Store, p: EvaluationPayload): (r: Result<nat, ServiceError>)
    requires p.applicantEmail.Some?
    ensures r.Failure? ==> r.error.IllegalArgument?
    ensures p.applicationId.Some? && ApplicationById(s.applications, p.applicationId.value).Some? ==>
      r == Success(ApplicationById(s.applications, p.applicationId.value).value)
    ensures (p.applicationId.None? || ApplicationById(s.applications, p.applicationId.value).None?) ==>
      (r.Success? <==>
        ApplicantByEmail(s.applicants, p.applicantEmail.value).Some? &&
        LatestApplicationOf(s.applications, s.applicants[ApplicantByEmail(s.applicants, p.applicantEmail.value).value].id).Some?)
    ensures (p.applicationId.None? || ApplicationById(s.applications, p.applicationId.value).None?) && r.Success? ==>
      r.value == LatestApplicationOf(s.applications, s.applicants[ApplicantByEmail(s.applicants, p.applicantEmail.value).value].id).value
    ensures r.Success? ==> r.value < |s.applications|
  {
    var byId := if p.applicationId.Some? then ApplicationById(s.applications, p.applicationId.value) else None;
    if byId.Some? then Success(byId.value)
    else
      match ApplicantByEmail(s.applicants, p.applicantEmail.value)
      case None => Failure(IllegalArgument("applicant not found"))
      case Some(i) =>
        match LatestApplicationOf(s.applications, s.applicants[i].id)
        case None => Failure(IllegalArgument("application not found"))
        case Some(k) => Success(k)
  }

  /** Result rows not belonging to application `applicationId`. */
  function NotFor(applicationId: nat): EvaluationRecord -> bool {
    (e: EvaluationRecord) => e.applicationId != applicationId
  }

  /** The columns the stored result needs; the administrator's checks
      guarantee them. */
  predicate HasRecordFields(p: EvaluationPayload) {
    p.applicantName.Some? && p.applicantEmail.Some? && p.jobPostingId.Some?
  }

  /** The results left after deleting the application's single previous
      result, when it has one. */
  function Kept(results: seq<EvaluationRecord>, applicationId: nat): seq<EvaluationRecord> {
    if Count(results, ForApplication(applicationId)) == 1 then Filter(results, NotFor(applicationId)) else results
  }

  /** The store after the administrator's report replaced the result of the
      application at position `k` by `record`: the application is set
      `IN_PROGRESS`, its previous result (when it has one) is deleted and the
      new one stored. Answer scores are not written back. */
  function ReplaceResult(s: Store, k: nat, record: EvaluationRecord): Store
    requires k < |s.applications|
  {
    var app := s.applications[k];
    s.(applications := s.applications[k := app.(status := ApplicationStatus.InProgress)],
       results := Kept(s.results, app.id) + [record],
       nextId := s.nextId + 1)
  }

  /** The administrator's ingestion: validation, resolution, then the
      single-row lookup of the previous result, which fails when there are
      two or more. */
  function ProcessEvaluationResultForAdmin(s: Store, p: EvaluationPayload): Result<Store, ServiceError> {
    match ValidateForAdmin(p)
    case Some(err) => Failure(err)
    case None =>
      var k :- ResolveForAdmin(s, p);
      if Count(s.results, ForApplication(s.applications[k].id)) >= 2 then Failure(NonUniqueResult)
      else Success(ReplaceResult(s, k, Record(s, s.applications[k], p)))
  }

  /** The administrator's path fails with the first failed check, then with
      a failed resolution, and then only when the application already has
      two or more results; otherwise it replaces the application's result
      by one built from the report. */
  lemma AdminOutcome(s: Store, p: EvaluationPayload)
    ensures ValidateForAdmin(p).Some? ==> ProcessEvaluationResultForAdmin(s, p) == Failure(ValidateForAdmin(p).value)
    ensures ValidateForAdmin(p).None? ==> HasRecordFields(p)
    ensures ValidateForAdmin(p).None? && ResolveForAdmin(s, p).Failure? ==>
      ProcessEvaluationResultForAdmin(s, p) == Failure(ResolveForAdmin(s, p).error)
    ensures ValidateForAdmin(p).None? && ResolveForAdmin(s, p).Success? ==>
      var k := ResolveForAdmin(s, p).value;
      var existing := Count(s.results, ForApplication(s.applications[k].id));
      && (existing >= 2 ==> ProcessEvaluationResultForAdmin(s, p) == Failure(NonUniqueResult))
      && (existing <= 1 ==>
        ProcessEvaluationResultForAdmin(s, p) == Success(ReplaceResult(s, k, Record(s, s.applications[k], p))))
  {
  }

  /** The stored result carries the report's total and belongs to the
      application it was built for. */
  lemma RecordOfReport(s: Store, app: Application, p: EvaluationPayload)
    requires HasRecordFields(p)
    ensures Record(s, app, p).applicationId == app.id
    ensures Record(s, app, p).id == s.nextId
    ensures Record(s, app, p).totalScore == ScoreSum(Evaluations(p))
    ensures Record(s, app, p).applicantEmail == p.applicantEmail.value
  {
  }

  /** Replacing a result sets the application `IN_PROGRESS`, leaves every
      other application and every answer as it was, bumps the counter, and
      touches nothing else. */
  lemma AdminStoreChanges(s: Store, k: nat, record: EvaluationRecord)
    requires k < |s.applications|
    ensures var r := ReplaceResult(s, k, record);
      && |r.applications| == |s.applications|
      && r.applications[k] == s.applications[k].(status := ApplicationStatus.InProgress)
      && (forall j | 0 <= j < |s.applications| && j != k :: r.applications[j] == s.applications[j])
      && r.resumeAnswers == s.resumeAnswers
      && r.nextId == s.nextId + 1
      && r.(applications := s.applications, results := s.results, nextId := s.nextId) == s
  {
  }

  /** After replacing, an application with at most one earlier result has
      exactly one, the new one, and every other application's results are as
      they were. */
  lemma AdminLeavesExactlyOneResult(s: Store, k: nat, record: EvaluationRecord)
    requires k < |s.applications| && record.applicationId == s.applications[k].id
    requires Count(s.results, ForApplication(s.applications[k].id)) <= 1
    ensures var r := ReplaceResult(s, k, record);
      && ResultsFor(r.results, record.applicationId) == [record]
      && forall other: nat | other != record.applicationId :: ResultsFor(r.results, other) == ResultsFor(s.results, other)
  {
    KeptThenNew(s.results, record.applicationId, record);
  }

  /** Deleting the single previous result and appending the new one leaves
      the new one as the application's only result and changes no other
      application's results. */
  lemma KeptThenNew(results: seq<EvaluationRecord>, applicationId: nat, record: EvaluationRecord)
    requires record.applicationId == applicationId
    requires Count(results, ForApplication(applicationId)) <= 1
    ensures ResultsFor(Kept(results, applicationId) + [record], applicationId) == [record]
    ensures forall other: nat | other != applicationId ::
      ResultsFor(Kept(results, applicationId) + [record], other) == ResultsFor(results, other)
  {
    var kept := Kept(results, applicationId);
    FilterSnoc(kept, record, ForApplication(applicationId));
    if Count(results, ForApplication(applicationId)) == 1 {
      FilterFilterDisjoint(results, ForApplication(applicationId), NotFor(applicationId));
    } else {
      assert Filter(results, ForApplication(applicationId)) == [];
    }
    forall other: nat | other != applicationId
      ensures ResultsFor(kept + [record], other) == ResultsFor(results, other)
    {
      FilterSnoc(kept, record, ForApplication(other));
      if Count(results, ForApplication(applicationId)) == 1 {
        FilterFilterImplied(results, ForApplication(other), NotFor(applicationId));
      }
    }
  }

  /** Once the regular path has stored a second result for an application,
      the administrator's path can no longer replace it. */
  lemma AdminFailsOnDuplicatedResults(s: Store, p: EvaluationPayload)
    requires ValidateForAdmin(p).None? && ResolveForAdmin(s, p).Success?
    requires |ResultsFor(s.results, s.applications[ResolveForAdmin(s, p).value].id)| >= 2
    ensures ProcessEvaluationResultForAdmin(s, p) == Failure(NonUniqueResult)
  {
    AdminOutcome(s, p);
  }

  /** The administrator's path is repeatable: running it again with the same
      report succeeds, because it left exactly one result behind. */
  lemma AdminIngestionIsRepeatable(s: Store, p: EvaluationPayload)
    requires ProcessEvaluationResultForAdmin(s, p).Success?
    ensures var s' := ProcessEvaluationResultForAdmin(s, p).value;
      && ResolveForAdmin(s', p) == ResolveForAdmin(s, p)
      && ProcessEvaluationResultForAdmin(s', p).Success?
  {
    AdminOutcome(s, p);
    var k := ResolveForAdmin(s, p).value;
    var record := Record(s, s.applications[k], p);
    RecordOfReport(s, s.applications[k], p);
    ReplaceIsRepeatable(s, k, record, p);
    AdminOutcome(ReplaceResult(s, k, record), p);
  }

  lemma ReplaceIsRepeatable(s: Store, k: nat, record: EvaluationRecord, p: EvaluationPayload)
    requires p.applicantEmail.Some? && ResolveForAdmin(s, p) == Success(k)
    requires record.applicationId == s.applications[k].id
    requires Count(s.results, ForApplication(s.applications[k].id)) <= 1
    ensures ResolveForAdmin(ReplaceResult(s, k, record), p) == Success(k)
    ensures Count(ReplaceResult(s, k, record).results, ForApplication(ReplaceResult(s, k, record).applications[k].id)) <= 1
  {
    var s' := ReplaceResult(s, k, record);
    AdminStoreChanges(s, k, record);
    ResolveIgnoresStatus(s, s', p);
    AdminLeavesExactlyOneResult(s, k, record);
  }

  /** Resolution reads ids and owners only, so a status change does not move it. */
  lemma ResolveIgnoresStatus(s: Store, s': Store, p: EvaluationPayload)
    requires p.applicantEmail.Some?
    requires s'.applicants == s.applicants && |s'.applications| == |s.applications|
    requires forall j | 0 <= j < |s.applications| ::
      s'.applications[j] == s.applications[j].(status := s'.applications[j].status, comment := s'.applications[j].comment)
    ensures ResolveForAdmin(s', p) == ResolveForAdmin(s, p)
  {
    if p.applicationId.Some? {
      var a := ApplicationById(s.applications, p.applicationId.value);
      var a' := ApplicationById(s'.applications, p.applicationId.value);
      assert a.Some? && a'.Some? ==> a.value == a'.value;
    }
    match ApplicantByEmail(s.applicants, p.applicantEmail.value)
    case None =>
    case Some(i) =>
      var l := LatestApplicationOf(s.applications, s.applicants[i].id);
      var l' := LatestApplicationOf(s'.applications, s.applicants[i].id);
      assert l.Some? && l'.Some? ==> l.value == l'.value;
  }

  /** Keeping a subsequence keeps ids increasing and below the counter. */
  lemma FilterKeepsResultIds(rows: seq<EvaluationRecord>, p: EvaluationRecord -> bool, bound: nat)
    requires IdsBelow(ResultIds(rows), bound)
    ensures IdsBelow(ResultIds(Filter(rows, p)), bound)
  {
    var kept, at := Filter(rows, p), Positions(rows, p);
    FilterAtPositions(rows, p);
    assert forall a | 0 <= a < |kept| :: kept[a].id == rows[at[a]].id;
    forall a, b | 0 <= a < b < |kept|
      ensures kept[a].id < kept[b].id
    {
      assert ResultIds(rows)[at[a]] < ResultIds(rows)[at[b]];
    }
  }

  /** The regular path keeps the store invariant. */
  lemma ProcessPreservesValid(s: Store, p: EvaluationPayload)
    requires Valid(s) && ProcessEvaluationResult(s, p).Success?
    ensures Valid(ProcessEvaluationResult(s, p).value)
  {
    var r := ProcessEvaluationResult(s, p).value;
    var k := ResolveLatestApplication(s, p.applicantEmail).value;
    WriteScoresEffect(s.resumeAnswers, s.applications[k].id, Evaluations(p));
    assert ApplicationIds(r.applications) == ApplicationIds(s.applications);
    assert ResumeAnswerIds(r.resumeAnswers) == ResumeAnswerIds(s.resumeAnswers);
    assert ResultIds(r.results) == ResultIds(s.results) + [s.nextId];
    IdsBelowSnoc(ResultIds(s.results), s.nextId);
  }

  /** The administrator's path keeps the store invariant. */
  lemma AdminPreservesValid(s: Store, p: EvaluationPayload)
    requires Valid(s) && ProcessEvaluationResultForAdmin(s, p).Success?
    ensures Valid(ProcessEvaluationResultForAdmin(s, p).value)
  {
    AdminOutcome(s, p);
    var k := ResolveForAdmin(s, p).value;
    RecordOfReport(s, s.applications[k], p);
    ReplacePreservesValid(s, k, Record(s, s.applications[k], p));
  }

  lemma ReplacePreservesValid(s: Store, k: nat, record: EvaluationRecord)
    requires Valid(s) && k < |s.applications| && record.id == s.nextId
    ensures Valid(ReplaceResult(s, k, record))
  {
    var r := ReplaceResult(s, k, record);
    var app := s.applications[k];
    var kept := Kept(s.results, app.id);
    FilterKeepsResultIds(s.results, NotFor(app.id), s.nextId);
    assert ApplicationIds(r.applications) == ApplicationIds(s.applications);
    assert ResultIds(r.results) == ResultIds(kept) + [s.nextId];
    IdsBelowSnoc(ResultIds(kept), s.nextId);
  }
}

=== FILE: final_evaluation.dfy ===
/** The final-evaluation screen: each applicant is placed as passed, failed
    or pending, from a status the screen keeps itself, a status handed down
    by the enclosing app, or the label of the backend status. The app's
    labels (`passed`, `unqualified`, `not-evaluated`, ...) and the screen's
    three statuses are different vocabularies, converted both ways. */
module FinalEvaluation {
  import opened Seqs
  import opened ApplicationStatuses
  import ApiUtils

  datatype FinalStatus = Passed | Failed | Pending {
    /** The string the screen stores and compares. */
    function Tag(): string {
      match this
      case Passed => "passed"
      case Failed => "failed"
      case Pending => "pending"
    }
  }

  /** `convertAppStatusToFinalStatus`: an app label to the screen's status;
      anything but `passed` and `unqualified` is pending. */
  function ConvertAppStatusToFinalStatus(appStatus: string): (r: FinalStatus)
    ensures r == Passed <==> appStatus == "passed"
    ensures r == Failed <==> appStatus == "unqualified"
  {
    match appStatus
    case "passed" => Passed
    case "unqualified" => Failed
    case _ => Pending
  }

  /** The `statusMap` of `handleStatusChange`: the screen's status to the
      app label reported upwards. */
  function StatusMap(s: FinalStatus): string {
    match s
    case Passed => "passed"
    case Failed => "unqualified"
    case Pending => "not-evaluated"
  }

  /** Reporting a status upwards and converting it back gives the status. */
  lemma StatusMapRoundTrip(s: FinalStatus)
    ensures ConvertAppStatusToFinalStatus(StatusMap(s)) == s
  {
  }

  /** The reported labels are app labels, and the backend reads them as the
      decision they stand for. */
  lemma StatusMapReachesBackend(s: FinalStatus)
    ensures StatusMap(s) in ApiUtils.ApplicationLabels
    ensures ApiUtils.ConvertToApplicationStatus(StatusMap(s)) ==
      (match s case Passed => Accepted case Failed => Rejected case Pending => BeforeEvaluation)
  {
  }

  // ---------------------------------------------------------------------------
  // Merging the statuses

  /** `convertedStatuses`: the statuses handed down, converted one by one. */
  function Converted(received: map<string, string>): (r: map<string, FinalStatus>)
    ensures r.Keys == received.Keys
    ensures forall id | id in received ::
      && (r[id] == Passed <==> received[id] == "passed")
      && (r[id] == Failed <==> received[id] == "unqualified")
  {
    map id | id in received :: ConvertAppStatusToFinalStatus(received[id])
  }

  /** `finalApplicantStatuses`: the local statuses overlaid with the
      converted ones. */
  function Merge(local: map<string, FinalStatus>, received: map<string, string>): (r: map<string, FinalStatus>)
    ensures r.Keys == local.Keys + received.Keys
    ensures forall id | id in received :: r[id] == ConvertAppStatusToFinalStatus(received[id])
    ensures forall id | id in local && id !in received :: r[id] == local[id]
  {
    local + Converted(received)
  }

  /** `handleStatusChange` records the new status locally and reports its
      label upwards; once the app hands the label back down, the merged
      status is the one chosen. */
  lemma StatusChangeIsKept(local: map<string, FinalStatus>, received: map<string, string>, id: string, s: FinalStatus)
    ensures Merge(local[id := s], received[id := StatusMap(s)])[id] == s
  {
    StatusMapRoundTrip(s);
  }

  /** A status handed down wins over the local one: until the app reports a
      change back, a local change of an applicant it has a status for does
      not show. */
  lemma ReceivedOverridesLocal(local: map<string, FinalStatus>, received: map<string, string>, id: string, s: FinalStatus)
    requires id in received
    ensures Merge(local[id := s], received)[id] == ConvertAppStatusToFinalStatus(received[id])
  {
  }

  // ---------------------------------------------------------------------------
  // Placing the applicants

  /** An applicant as the screen lists it: the id, and the app label of the
      backend status. */
  datatype Applicant = Applicant(id: string, status: string)

  /** `convertApplicationsToApplicants` for one application. The label is
      never the screen's `failed`: a rejected application carries
      `unqualified`. */
  function FromBackend(id: string, backendStatus: string): (a: Applicant)
    ensures a.id == id && a.status == ApiUtils.ConvertApplicationStatus(backendStatus)
    ensures a.status != "failed"
    ensures a.status == "passed" <==> backendStatus == Accepted.Name()
    ensures a.status == "unqualified" <==> backendStatus == Rejected.Name()
  {
    Applicant(id, ApiUtils.ConvertApplicationStatus(backendStatus))
  }

  /** The `switch` of `categorizedApplicants`: `passed` and `failed` have
      their own lists, everything else is pending. */
  function BucketOf(status: string): (r: FinalStatus)
    ensures r == Passed <==> status == "passed"
    ensures r == Failed <==> status == "failed"
  {
    match status
    case "passed" => Passed
    case "failed" => Failed
    case _ => Pending
  }

  /** The placement as written: the merged status's string when there is
      one, otherwise the applicant's app label, taken as it is. */
  function Placement(finals: map<string, FinalStatus>, a: Applicant): FinalStatus {
    BucketOf(if a.id in finals then finals[a.id].Tag() else a.status)
  }

  /** The placement with the app label converted first, as every other path
      into the screen's statuses does. */
  function CorrectedPlacement(finals: map<string, FinalStatus>, a: Applicant): FinalStatus {
    if a.id in finals then finals[a.id] else ConvertAppStatusToFinalStatus(a.status)
  }

  datatype Categories = Categories(pending: seq<Applicant>, passed: seq<Applicant>, failed: seq<Applicant>)

  function Push(c: Categories, a: Applicant, s: FinalStatus): Categories {
    match s
    case Passed => c.(passed := c.passed + [a])
    case Failed => c.(failed := c.failed + [a])
    case Pending => c.(pending := c.pending + [a])
  }

  /** The `forEach` that pushes every applicant, in order, into the list of
      its placement. */
  function Categorize(apps: seq<Applicant>, place: Applicant -> FinalStatus): (c: Categories)
    ensures |c.pending| + |c.passed| + |c.failed| == |apps|
  {
    if apps == [] then Categories([], [], [])
    else Push(Categorize(apps[..|apps| - 1], place), apps[|apps| - 1], place(apps[|apps| - 1]))
  }

  function PlacedAs(place: Applicant -> FinalStatus, s: FinalStatus): Applicant -> bool {
    (a: Applicant) => place(a) == s
  }

  function ListOf(c: Categories, s: FinalStatus): seq<Applicant> {
    match s
    case Passed => c.passed
    case Failed => c.failed
    case Pending => c.pending
  }

  /** Each list holds exactly the applicants placed there, in their order. */
  lemma {:induction false} CategorizeIsFilter(apps: seq<Applicant>, place: Applicant -> FinalStatus, s: FinalStatus)
    ensures ListOf(Categorize(apps, place), s) == Filter(apps, PlacedAs(place, s))
  {
    if apps != [] {
      var init, last := apps[..|apps| - 1], apps[|apps| - 1];
      assert apps == init + [last];
      CategorizeIsFilter(init, place, s);
      FilterSnoc(init, last, PlacedAs(place, s));
    }
  }

  datatype Stats = Stats(pendingCount: nat, passedCount: nat, failedCount: nat, totalCount: nat)

  /** `stats`: the three list sizes and their sum. */
  function StatsOf(c: Categories): Stats {
    Stats(|c.pending|, |c.passed|, |c.failed|, |c.pending| + |c.passed| + |c.failed|)
  }

  /** The total is the number of applicants, and each count the number
      placed there. */
  lemma StatsCountApplicants(apps: seq<Applicant>, place: Applicant -> FinalStatus)
    ensures StatsOf(Categorize(apps, place)).totalCount == |apps|
    ensures StatsOf(Categorize(apps, place)).passedCount == Count(apps, PlacedAs(place, Passed))
    ensures StatsOf(Categorize(apps, place)).failedCount == Count(apps, PlacedAs(place, Failed))
    ensures StatsOf(Categorize(apps, place)).pendingCount == Count(apps, PlacedAs(place, Pending))
  {
    CategorizeIsFilter(apps, place, Passed);
    CategorizeIsFilter(apps, place, Failed);
    CategorizeIsFilter(apps, place, Pending);
  }

  /** The screen's lists as written. */
  function CategorizedApplicants(apps: seq<Applicant>, finals: map<string, FinalStatus>): Categories {
    Categorize(apps, a => Placement(finals, a))
  }

  /** The lists with the corrected placement. */
  function CorrectedCategories(apps: seq<Applicant>, finals: map<string, FinalStatus>): Categories {
    Categorize(apps, a => CorrectedPlacement(finals, a))
  }

  /** An applicant with a merged status is placed by it, under both rules. */
  lemma MergedStatusDecides(finals: map<string, FinalStatus>, a: Applicant)
    requires a.id in finals
    ensures Placement(finals, a) == CorrectedPlacement(finals, a) == finals[a.id]
  {
  }

  /** For an applicant listed from the backend the two placements part ways
      exactly when it has no merged status and its backend status is
      `REJECTED` (label `unqualified`): as written it is then pending. */
  lemma PlacementsDifferOnlyOnRejected(finals: map<string, FinalStatus>, id: string, backendStatus: string)
    ensures var a := FromBackend(id, backendStatus);
      Placement(finals, a) != CorrectedPlacement(finals, a) <==> id !in finals && backendStatus == Rejected.Name()
    ensures id !in finals && backendStatus == Rejected.Name() ==> Placement(finals, FromBackend(id, backendStatus)) == Pending
  {
  }

  /** A rejected application nobody has re-rated lands among the pending
      ones on the screen, not among the failed. */
  lemma RejectedLandsInPending(id: string, finals: map<string, FinalStatus>)
    requires id !in finals
    ensures var a := FromBackend(id, Rejected.Name());
      && a in CategorizedApplicants([a], finals).pending
      && CategorizedApplicants([a], finals).failed == []
  {
    var a := FromBackend(id, Rejected.Name());
    assert [a][..0] == [];
  }

  /** With the corrected placement an application without a merged status
      is placed by its backend status: accepted passes, rejected fails, the
      rest is pending. */
  lemma CorrectedPlacementFollowsBackend(id: string, backendStatus: ApplicationStatus, finals: map<string, FinalStatus>)
    requires id !in finals
    ensures CorrectedPlacement(finals, FromBackend(id, backendStatus.Name())) ==
      (if backendStatus == Accepted then Passed else if backendStatus == Rejected then Failed else Pending)
  {
  }
}

=== FILE: job_posting_response.dfy ===
/** The posting as the backend hands it out: the response view built from
    the entity, and the criteria export sent to the evaluator, which keeps
    only the resume items that can be scored. */
module JobPostingResponse {
  import opened Wrappers
  import opened Postings
  import opened Seqs

  /** The response view. Dates are reduced to calendar days; the nested lists
      are never null. */
  datatype PostingView = PostingView(
    id: nat,
    title: string,
    jobRole: Option<string>,
    employmentType: Option<EmploymentType>,
    applicationStartDay: Option<int>,
    applicationEndDay: Option<int>,
    evaluationEndDay: Option<int>,
    totalScore: Option<int>,
    resumeScoreWeight: Option<int>,
    coverLetterScoreWeight: Option<int>,
    passingScore: Option<int>,
    postingStatus: Option<PostingStatus>,
    companyId: nat,
    companyName: string,
    applicationCount: nat,
    resumeItems: Option<seq<ResumeItem>>,
    coverLetterQuestions: Option<seq<CoverLetterQuestion>>)

  function DayOfOption(t: Option<Instant>): Option<int> {
    match t
    case None => None
    case Some(x) => Some(DayOf(x))
  }

  /** `JobPostingResponseDto.from`: fields copied, null lists read as empty
      and a null application list counted as none. */
  function From(p: JobPosting): (v: PostingView)
    ensures v.resumeItems == Some(p.resumeItems.GetOr([]))
    ensures v.coverLetterQuestions == Some(p.coverLetterQuestions.GetOr([]))
    ensures p.applications.None? ==> v.applicationCount == 0
    ensures p.applications.Some? ==> v.applicationCount == |p.applications.value|
    ensures v.postingStatus == p.status && v.id == p.id && v.companyId == p.companyId
    ensures v.resumeScoreWeight == p.resumeScoreWeight && v.coverLetterScoreWeight == p.coverLetterScoreWeight
    ensures p.dates.applicationStart.Some? <==> v.applicationStartDay.Some?
    ensures p.dates.applicationStart.Some? ==>
      StartOfDay(v.applicationStartDay.value) <= p.dates.applicationStart.value < StartOfDay(v.applicationStartDay.value + 1)
  {
    PostingView(p.id, p.title, p.jobRole, p.employmentType,
                DayOfOption(p.dates.applicationStart), DayOfOption(p.dates.applicationEnd),
                DayOfOption(p.dates.evaluationEnd),
                p.totalScore, p.resumeScoreWeight, p.coverLetterScoreWeight, p.passingScore,
                p.status, p.companyId, p.companyName,
                if p.applications.Some? then |p.applications.value| else 0,
                Some(p.resumeItems.GetOr([])), Some(p.coverLetterQuestions.GetOr([])))
  }

  // ---------------------------------------------------------------------------
  // Criteria export

  datatype ExportedCriterion = ExportedCriterion(grade: Option<Grade>, description: Option<string>, scorePerGrade: Option<int>)

  datatype ExportedItem = ExportedItem(
    id: nat,
    name: string,
    itemType: Option<ResumeItemType>,
    scoreWeight: int,
    isRequired: Option<bool>,
    criteria: seq<ExportedCriterion>)

  /** A cover-letter detail goes out with grade and description only. */
  datatype ExportedDetail = ExportedDetail(grade: Option<Grade>, description: Option<string>)

  datatype ExportedQuestionCriterion = ExportedQuestionCriterion(name: string, details: seq<ExportedDetail>)

  datatype ExportedQuestion = ExportedQuestion(
    id: nat,
    content: string,
    isRequired: Option<bool>,
    maxCharacters: Option<int>,
    criteria: seq<ExportedQuestionCriterion>)

  /** The export. A list that is null in the view is absent from the export.
      The final-score formula's two weights are the view's percentages; the
      source sends them divided by 100 as doubles. */
  datatype EvaluationData = EvaluationData(
    jobPostingId: nat,
    title: string,
    companyName: string,
    jobRole: Option<string>,
    totalScore: Option<int>,
    passingScore: Option<int>,
    disqualificationCriteria: seq<string>,
    tieBreakerRule: seq<string>,
    resumeWeightPercent: int,
    coverLetterWeightPercent: int,
    resumeItems: Option<seq<ExportedItem>>,
    coverLetterQuestions: Option<seq<ExportedQuestion>>)

  const NameItem: string := "이름"
  const EmailItem: string := "이메일"

  /** An item worth sending to the evaluator: not the name or email field,
      with at least one criterion and a non-zero maximum score. */
  predicate Exportable(item: ResumeItem) {
    && item.name != NameItem
    && item.name != EmailItem
    && |item.criteria| > 0
    && item.maxScore.Some? && item.maxScore.value != 0
  }

  function ExportItem(item: ResumeItem): (e: ExportedItem)
    requires item.maxScore.Some?
    ensures e.id == item.id && e.name == item.name && e.scoreWeight == item.maxScore.value
    ensures |e.criteria| == |item.criteria|
  {
    ExportedItem(item.id, item.name, item.itemType, item.maxScore.value, item.isRequired,
                 seq(|item.criteria|, j requires 0 <= j < |item.criteria| =>
                   ExportedCriterion(item.criteria[j].grade, item.criteria[j].description, item.criteria[j].scorePerGrade)))
  }

  /** The exported items: the exportable ones, in their original order, each
      weighted by its maximum score. */
  function ExportItems(items: seq<ResumeItem>): (r: seq<ExportedItem>)
    ensures |r| == |Positions(items, Exportable)|
    ensures forall a | 0 <= a < |r| ::
      var i := Positions(items, Exportable)[a];
      Exportable(items[i]) && r[a] == ExportItem(items[i])
  {
    var pos := Positions(items, Exportable);
    seq(|pos|, a requires 0 <= a < |pos| => ExportItem(items[pos[a]]))
  }

  function ExportDetails(details: seq<CriterionDetail>): (r: seq<ExportedDetail>)
    ensures |r| == |details|
    ensures forall j | 0 <= j < |details| ::
      r[j].grade == details[j].grade && r[j].description == details[j].description
  {
    seq(|details|, j requires 0 <= j < |details| => ExportedDetail(details[j].grade, details[j].description))
  }

  function ExportQuestion(q: CoverLetterQuestion): (e: ExportedQuestion)
    ensures e.id == q.id && |e.criteria| == |q.criteria|
    ensures forall j | 0 <= j < |q.criteria| ::
      e.criteria[j].name == q.criteria[j].name && |e.criteria[j].details| == |q.criteria[j].details|
    ensures forall j, d | 0 <= j < |q.criteria| && 0 <= d < |q.criteria[j].details| ::
      e.criteria[j].details[d].grade == q.criteria[j].details[d].grade &&
      e.criteria[j].details[d].description == q.criteria[j].details[d].description
  {
    ExportedQuestion(q.id, q.content, q.isRequired, q.maxCharacters,
                     seq(|q.criteria|, j requires 0 <= j < |q.criteria| =>
                       ExportedQuestionCriterion(q.criteria[j].name, ExportDetails(q.criteria[j].details))))
  }

  /** `toFastApiEvaluationData`: resume items filtered, questions all exported.
      Dividing a null score weight by 100.0 unboxes it, so a view missing
      either weight has no export. */
  function ToEvaluationData(v: PostingView): (r: Result<EvaluationData, string>)
    ensures r.Success? <==> v.resumeScoreWeight.Some? && v.coverLetterScoreWeight.Some?
    ensures r.Success? ==>
      r.value.resumeWeightPercent == v.resumeScoreWeight.value &&
      r.value.coverLetterWeightPercent == v.coverLetterScoreWeight.value
    ensures r.Success? ==> (v.resumeItems.None? <==> r.value.resumeItems.None?)
    ensures r.Success? && v.resumeItems.Some? ==> r.value.resumeItems == Some(ExportItems(v.resumeItems.value))
    ensures r.Success? ==> (v.coverLetterQuestions.None? <==> r.value.coverLetterQuestions.None?)
    ensures r.Success? && v.coverLetterQuestions.Some? ==>
      var d := r.value;
      |d.coverLetterQuestions.value| == |v.coverLetterQuestions.value| &&
      forall j | 0 <= j < |v.coverLetterQuestions.value| ::
        d.coverLetterQuestions.value[j] == ExportQuestion(v.coverLetterQuestions.value[j])
  {
    if v.resumeScoreWeight.None? || v.coverLetterScoreWeight.None? then Failure("score weight is null")
    else
      Success(EvaluationData(
        v.id, v.title, v.companyName, v.jobRole, v.totalScore, v.passingScore,
        ["허위/과장된 내용 기재", "표절 또는 AI 생성물을 그대로 사용"],
        ["직무적합(에세이 Q2)", "경력", "자격증", "어학"],
        v.resumeScoreWeight.value, v.coverLetterScoreWeight.value,
        if v.resumeItems.Some? then Some(ExportItems(v.resumeItems.value)) else None,
        if v.coverLetterQuestions.Some? then
          var qs := v.coverLetterQuestions.value;
          Some(seq(|qs|, j requires 0 <= j < |qs| => ExportQuestion(qs[j])))
        else None))
  }

  /** No exported item is the name or email field, has no criteria, or has a
      zero weight; an item passes exactly when it is exportable. */
  lemma ExportKeepsExactlyExportable(items: seq<ResumeItem>)
    ensures forall e | e in ExportItems(items) ::
      e.name != NameItem && e.name != EmailItem && |e.criteria| > 0 && e.scoreWeight != 0
    ensures forall i | 0 <= i < |items| :: Exportable(items[i]) <==> i in Positions(items, Exportable)
  {
    var pos := Positions(items, Exportable);
    forall i | 0 <= i < |items| && i in pos
      ensures Exportable(items[i])
    {
      var a :| 0 <= a < |pos| && pos[a] == i;
    }
  }

  /** Items keep their relative order in the export. */
  lemma ExportKeepsOrder(items: seq<ResumeItem>, a: nat, b: nat)
    requires a < b < |ExportItems(items)|
    ensures Positions(items, Exportable)[a] < Positions(items, Exportable)[b]
    ensures ExportItems(items)[a] == ExportItem(items[Positions(items, Exportable)[a]])
  {
  }

  /** Exporting a posting's view fails only for a missing weight, and drops
      the name and email items whatever else they carry. */
  lemma NameAndEmailNeverExported(p: JobPosting)
    ensures var r := ToEvaluationData(From(p));
      (r.Success? <==> p.resumeScoreWeight.Some? && p.coverLetterScoreWeight.Some?) &&
      (r.Success? ==> r.value.resumeItems.Some? &&
                      forall e | e in r.value.resumeItems.value :: e.name != NameItem && e.name != EmailItem)
  {
    ExportKeepsExactlyExportable(p.resumeItems.GetOr([]));
  }
}

=== FILE: job_posting_service.dfy ===
/** The posting-status side of the job-posting service: the resolver that maps
    three optional dates and "now" to a status, the daily re-scan that persists
    only changed statuses, and the status assignment done on create and update. */
module StatusResolver {
  import opened Wrappers
  import opened Postings
  import Seqs
  import JobPostingResponse

  /** The resolver. A posting missing its start or end date is scheduled; a
      missing evaluation end falls back to the application end. The
      comparisons are the strict `isBefore`/`isAfter` of the source, so the
      instants `now == start` and `now == end` fall to the last branch. */
  function DeterminePostingStatus(d: PostingDates, now: Instant): (r: PostingStatus)
    ensures (d.applicationStart.None? || d.applicationEnd.None?) ==> r == Scheduled
    ensures r == InProgress <==>
      d.applicationStart.Some? && d.applicationEnd.Some? &&
      d.applicationStart.value < now < d.applicationEnd.value
    ensures r == Closed <==>
      d.applicationStart.Some? && d.applicationEnd.Some? && now >= d.applicationStart.value &&
      !(d.applicationStart.value < now < d.applicationEnd.value) &&
      d.applicationEnd.value < now < d.evaluationEnd.GetOr(d.applicationEnd.value)
    ensures r == Scheduled <==>
      d.applicationStart.None? || d.applicationEnd.None? || now < d.applicationStart.value
  {
    if d.applicationStart.None? || d.applicationEnd.None? then
      Scheduled
    else
      var start := d.applicationStart.value;
      var end := d.applicationEnd.value;
      var evaluationEnd := d.evaluationEnd.GetOr(end);
      if now < start then Scheduled
      else if now > start && now < end then InProgress
      else if now > end && now < evaluationEnd then Closed
      else EvaluationComplete
  }

  /** A posting without a start or an end date is scheduled at every instant. */
  lemma MissingBoundaryIsAlwaysScheduled(d: PostingDates)
    requires d.applicationStart.None? || d.applicationEnd.None?
    ensures forall now: Instant :: DeterminePostingStatus(d, now) == Scheduled
  {
  }

  /** Without an evaluation end the closed window `(end, end)` is empty, so no
      instant yields `Closed`. */
  lemma NoEvaluationEndNeverCloses(d: PostingDates, now: Instant)
    requires d.evaluationEnd.None?
    ensures DeterminePostingStatus(d, now) != Closed
  {
  }

  /** The strict-interval cases. */
  lemma StrictIntervals(start: Instant, end: Instant, evaluationEnd: Instant, now: Instant)
    ensures var d := PostingDates(Some(start), Some(end), Some(evaluationEnd));
      && (now < start ==> DeterminePostingStatus(d, now) == Scheduled)
      && (start < now < end ==> DeterminePostingStatus(d, now) == InProgress)
      && (start <= end < now < evaluationEnd ==> DeterminePostingStatus(d, now) == Closed)
  {
  }

  /** Both boundary instants resolve to `EvaluationComplete` whenever the
      windows are well ordered: neither strict comparison holds there. */
  lemma BoundaryInstantsAreEvaluationComplete(start: Instant, end: Instant, evaluationEnd: Option<Instant>)
    requires start <= end
    ensures DeterminePostingStatus(PostingDates(Some(start), Some(end), evaluationEnd), start) == EvaluationComplete
    ensures DeterminePostingStatus(PostingDates(Some(start), Some(end), evaluationEnd), end) == EvaluationComplete
  {
  }

  /** The half-open convention `start <= now < end`, `end <= now < evaluationEnd`,
      in which a boundary instant belongs to the later window. */
  function HalfOpenStatus(d: PostingDates, now: Instant): PostingStatus {
    if d.applicationStart.None? || d.applicationEnd.None? then
      Scheduled
    else
      var start := d.applicationStart.value;
      var end := d.applicationEnd.value;
      var evaluationEnd := d.evaluationEnd.GetOr(end);
      if now < start then Scheduled
      else if now < end then InProgress
      else if now < evaluationEnd then Closed
      else EvaluationComplete
  }

  /** The resolver and the half-open convention disagree only at the two
      boundary instants `now == start` and `now == end`. */
  lemma DisagreementOnlyAtBoundaries(d: PostingDates, now: Instant)
    requires DeterminePostingStatus(d, now) != HalfOpenStatus(d, now)
    ensures d.applicationStart.Some? && d.applicationEnd.Some?
    ensures now == d.applicationStart.value || now == d.applicationEnd.value
  {
  }

  /** At the start instant of a non-empty application window the half-open
      convention says `InProgress` but the resolver says `EvaluationComplete`. */
  lemma StartInstantDisagrees(start: Instant, end: Instant, evaluationEnd: Option<Instant>)
    requires start < end
    ensures HalfOpenStatus(PostingDates(Some(start), Some(end), evaluationEnd), start) == InProgress
    ensures DeterminePostingStatus(PostingDates(Some(start), Some(end), evaluationEnd), start) == EvaluationComplete
  {
  }

  // ---------------------------------------------------------------------------
  // The daily re-scan

  /** A posting whose stored status differs from the resolver's value at `now`. */
  predicate Stale(p: JobPosting, now: Instant) {
    p.status != Some(DeterminePostingStatus(p.dates, now))
  }

  /** Number of stale postings in `ps`, counted from the back. */
  function StaleCount(ps: seq<JobPosting>, now: Instant): (n: nat)
    ensures n <= |ps|
  {
    if ps == [] then 0
    else StaleCount(ps[..|ps| - 1], now) + (if Stale(ps[|ps| - 1], now) then 1 else 0)
  }

  /** The count is zero exactly when no posting is stale. */
  lemma {:induction false} StaleCountZero(ps: seq<JobPosting>, now: Instant)
    ensures StaleCount(ps, now) == 0 <==> forall i | 0 <= i < |ps| :: !Stale(ps[i], now)
  {
    if ps != [] {
      var init := ps[..|ps| - 1];
      StaleCountZero(init, now);
      assert forall i | 0 <= i < |init| :: init[i] == ps[i];
    }
  }

  /** Every posting with its status replaced by the resolver's value: no
      posting is stale afterwards, and nothing but the status changes. */
  function Refreshed(ps: seq<JobPosting>, now: Instant): (r: seq<JobPosting>)
    ensures |r| == |ps|
    ensures forall i | 0 <= i < |ps| :: !Stale(r[i], now) && r[i].(status := ps[i].status) == ps[i]
    ensures StaleCount(r, now) == 0
  {
    var r := seq(|ps|, i requires 0 <= i < |ps| => ps[i].(status := Some(DeterminePostingStatus(ps[i].dates, now))));
    StaleCountZero(r, now);
    r
  }

  /** What one run of the re-scan persists: the refreshed list, the positions
      (in `findAll` order) of the postings it saved, and the count it logs. */
  datatype ScanOutcome = ScanOutcome(postings: seq<JobPosting>, saved: seq<nat>, updatedCount: nat)

  /** Positions of the stale postings of `ps`, in list order. */
  function StalePositions(ps: seq<JobPosting>, now: Instant): seq<nat> {
    if ps == [] then []
    else StalePositions(ps[..|ps| - 1], now) + (if Stale(ps[|ps| - 1], now) then [|ps| - 1] else [])
  }

  /** Every saved position is a stale posting, the positions increase, and
      the logged count is their number. */
  lemma {:induction false} StalePositionsAreStale(ps: seq<JobPosting>, now: Instant)
    ensures var r := StalePositions(ps, now);
      && (forall a | 0 <= a < |r| :: r[a] < |ps| && Stale(ps[r[a]], now))
      && (forall a, b | 0 <= a < b < |r| :: r[a] < r[b])
      && |r| == StaleCount(ps, now)
  {
    if ps != [] {
      var init := ps[..|ps| - 1];
      StalePositionsAreStale(init, now);
      assert forall k | 0 <= k < |init| :: init[k] == ps[k];
    }
  }

  /** Every stale posting is saved. */
  lemma {:induction false} StalePostingsAreSaved(ps: seq<JobPosting>, now: Instant)
    ensures forall k | 0 <= k < |ps| && Stale(ps[k], now) :: k in StalePositions(ps, now)
  {
    if ps != [] {
      var init := ps[..|ps| - 1];
      StalePostingsAreSaved(init, now);
      assert forall k | 0 <= k < |init| :: init[k] == ps[k];
    }
  }

  /** The scan loop. A posting whose stored status is null always differs from
      the resolver's value, so the change log dereferences null; the exception
      aborts the transactional scan and nothing is persisted. Because of that
      rollback, the outcome is the same as refusing the whole list up front. */
  method UpdateJobPostingStatuses(ps: seq<JobPosting>, now: Instant) returns (r: Result<ScanOutcome, string>)
    ensures r.Success? <==> forall i | 0 <= i < |ps| :: ps[i].status.Some?
    ensures r.Success? ==> r.value.postings == Refreshed(ps, now)
    ensures r.Success? ==> r.value.saved == StalePositions(ps, now)
    ensures r.Success? ==> r.value.updatedCount == StaleCount(ps, now)
  {
    if exists k | 0 <= k < |ps| :: ps[k].status.None? {
      return Failure("status change log dereferences a null status");
    }
    var updated: seq<JobPosting> := [];
    var saved: seq<nat> := [];
    var updatedCount: nat := 0;
    var i := 0;
    while i < |ps|
      invariant 0 <= i <= |ps|
      invariant updated == Refreshed(ps[..i], now)
      invariant saved == StalePositions(ps[..i], now)
      invariant updatedCount == StaleCount(ps[..i], now)
    {
      var next := DeterminePostingStatus(ps[i].dates, now);
      ScanStep(ps, i, now);
      if ps[i].status != Some(next) {
        saved := saved + [i];
        updatedCount := updatedCount + 1;
      }
      updated := updated + [ps[i].(status := Some(next))];
      i := i + 1;
    }
    assert ps[..i] == ps;
    r := Success(ScanOutcome(updated, saved, updatedCount));
  }

  /** How the refreshed prefix and the saved positions grow by one posting. */
  lemma ScanStep(ps: seq<JobPosting>, i: nat, now: Instant)
    requires i < |ps|
    ensures Refreshed(ps[..i + 1], now) == Refreshed(ps[..i], now) + [ps[i].(status := Some(DeterminePostingStatus(ps[i].dates, now)))]
    ensures StalePositions(ps[..i + 1], now) == StalePositions(ps[..i], now) + (if Stale(ps[i], now) then [i] else [])
    ensures StaleCount(ps[..i + 1], now) == StaleCount(ps[..i], now) + (if Stale(ps[i], now) then 1 else 0)
  {
    assert ps[..i + 1][..i] == ps[..i];
  }

  /** After a scan every posting agrees with the resolver, so a second scan at
      the same instant saves and counts nothing, and leaves the list as it was. */
  lemma {:induction false} RescanIsIdempotent(ps: seq<JobPosting>, now: Instant)
    ensures StaleCount(Refreshed(ps, now), now) == 0
    ensures Refreshed(Refreshed(ps, now), now) == Refreshed(ps, now)
  {
    var once := Refreshed(ps, now);
    forall i | 0 <= i < |once|
      ensures !Stale(once[i], now)
    {
      assert once[i].dates == ps[i].dates;
    }
    StaleCountZero(once, now);
  }

  // ---------------------------------------------------------------------------
  // Status assignment on create and update

  /** The fields of a create/update request that the service stores, plus the
      status the caller asked for (which is overwritten). Dates are calendar
      days; the service stores them at the start of the day. The nested items
      and questions carry the ids the repository assigns when it saves them. */
  datatype PostingRequest = PostingRequest(
    title: string,
    jobRole: Option<string>,
    employmentType: Option<EmploymentType>,
    startDay: Option<int>,
    endDay: Option<int>,
    evaluationEndDay: Option<int>,
    totalScore: Option<int>,
    resumeScoreWeight: Option<int>,
    coverLetterScoreWeight: Option<int>,
    passingScore: Option<int>,
    requestedStatus: Option<PostingStatus>,
    resumeItems: Option<seq<ResumeItem>>,
    coverLetterQuestions: Option<seq<CoverLetterQuestion>>)

  function AtStartOfDay(day: Option<int>): Option<Instant> {
    match day
    case None => None
    case Some(d) => Some(StartOfDay(d))
  }

  function RequestDates(req: PostingRequest): PostingDates {
    PostingDates(AtStartOfDay(req.startDay), AtStartOfDay(req.endDay), AtStartOfDay(req.evaluationEndDay))
  }

  /** Java's `trim().isEmpty()`: every character is at most U+0020. */
  predicate TrimsToEmpty(s: string) {
    forall i | 0 <= i < |s| :: s[i] <= ' '
  }

  /** A question as saved: its criteria whose name is blank are not stored. */
  function StoredQuestion(q: CoverLetterQuestion): (r: CoverLetterQuestion)
    ensures r.id == q.id && r.content == q.content
    ensures forall c | c in r.criteria :: c in q.criteria && !TrimsToEmpty(c.name)
    ensures forall c | c in q.criteria && !TrimsToEmpty(c.name) :: c in r.criteria
  {
    q.(criteria := Seqs.Filter(q.criteria, (c: CoverLetterCriterion) => !TrimsToEmpty(c.name)))
  }

  function StoredQuestions(qs: seq<CoverLetterQuestion>): (r: seq<CoverLetterQuestion>)
    ensures |r| == |qs| && forall j | 0 <= j < |qs| :: r[j] == StoredQuestion(qs[j])
  {
    seq(|qs|, j requires 0 <= j < |qs| => StoredQuestion(qs[j]))
  }

  /** The posting as built from the request, before the export. The builder
      leaves the entity's lists unset: items and questions are saved as rows of
      their own, so the in-memory posting the export is built from carries none. */
  function BuiltPosting(id: nat, req: PostingRequest, companyId: nat, companyName: string, now: Instant): JobPosting {
    var dates := RequestDates(req);
    JobPosting(id, req.title, req.jobRole, req.employmentType, dates,
               req.totalScore, req.resumeScoreWeight, req.coverLetterScoreWeight, req.passingScore,
               Some(DeterminePostingStatus(dates, now)),
               companyId, companyName, Some([]), Some([]), Some([]))
  }

  /** Creating a posting: fails without a registered company; fails (rolling
      back) when the export cannot be built because a score weight is missing,
      or when the evaluator does not acknowledge the exported criteria;
      otherwise the stored status is the date-derived one, never the requested one. */
  function CreateJobPosting(id: nat, req: PostingRequest, companyId: Option<nat>, companyName: string,
                            trainingAcknowledged: bool, now: Instant): (r: Result<JobPosting, string>)
    ensures r.Success? <==>
      companyId.Some? && req.resumeScoreWeight.Some? && req.coverLetterScoreWeight.Some? && trainingAcknowledged
    ensures r.Success? ==> r.value.status == Some(DeterminePostingStatus(RequestDates(req), now))
    ensures r.Success? ==> r.value.dates == RequestDates(req) && r.value.id == id && r.value.title == req.title
    ensures r.Success? ==> r.value.resumeScoreWeight == req.resumeScoreWeight &&
                           r.value.coverLetterScoreWeight == req.coverLetterScoreWeight
  {
    if companyId.None? then Failure("no registered company")
    else
      var posting := BuiltPosting(id, req, companyId.value, companyName, now);
      var exported := JobPostingResponse.ToEvaluationData(JobPostingResponse.From(posting));
      if exported.Failure? || !trainingAcknowledged then Failure("evaluation criteria training failed")
      else Success(posting)
  }

  /** Updating a posting: an unknown id fails; otherwise the request's scalar
      fields overwrite the stored ones, the status is recomputed from the new
      dates, and the stored items and questions are deleted and replaced by
      the request's (none when the request has none), each question without
      its blank-named criteria. */
  function UpdateJobPosting(postings: map<nat, JobPosting>, id: nat, req: PostingRequest, now: Instant): (r: Result<JobPosting, string>)
    ensures r.Success? <==> id in postings
    ensures r.Success? ==> r.value.status == Some(DeterminePostingStatus(RequestDates(req), now))
    ensures r.Success? ==> r.value.id == postings[id].id && r.value.dates == RequestDates(req)
    ensures r.Success? ==> r.value.companyId == postings[id].companyId
    ensures r.Success? ==> r.value.resumeItems == Some(req.resumeItems.GetOr([]))
    ensures r.Success? ==>
      r.value.coverLetterQuestions.Some? &&
      |r.value.coverLetterQuestions.value| == |req.coverLetterQuestions.GetOr([])| &&
      forall j | 0 <= j < |r.value.coverLetterQuestions.value| ::
        r.value.coverLetterQuestions.value[j] == StoredQuestion(req.coverLetterQuestions.GetOr([])[j])
  {
    if id !in postings then Failure("no such job posting")
    else
      var old_ := postings[id];
      var dates := RequestDates(req);
      Success(old_.(title := req.title, jobRole := req.jobRole, employmentType := req.employmentType,
                    dates := dates, totalScore := req.totalScore, resumeScoreWeight := req.resumeScoreWeight,
                    coverLetterScoreWeight := req.coverLetterScoreWeight, passingScore := req.passingScore,
                    status := Some(DeterminePostingStatus(dates, now)),
                    resumeItems := Some(req.resumeItems.GetOr([])),
                    coverLetterQuestions := Some(StoredQuestions(req.coverLetterQuestions.GetOr([])))))
  }

  /** The requested status never influences what create and update store. */
  lemma RequestedStatusIsIgnored(id: nat, req: PostingRequest, s: Option<PostingStatus>, companyId: Option<nat>,
                                 companyName: string, ack: bool, postings: map<nat, JobPosting>, now: Instant)
    ensures CreateJobPosting(id, req.(requestedStatus := s), companyId, companyName, ack, now)
         == CreateJobPosting(id, req, companyId, companyName, ack, now)
    ensures UpdateJobPosting(postings, id, req.(requestedStatus := s), now) == UpdateJobPosting(postings, id, req, now)
  {
  }
}

=== FILE: main_dashboard.dfy ===
/** The main dashboard's own view of postings and applications: a four-way
    posting status computed in the browser from the posting's dates, the
    same rule used to sort postings into the four summary buckets, and the
    per-posting evaluation progress. Times are JavaScript milliseconds on
    the browser's clock. */
module MainDashboard {
  import opened Wrappers
  import opened Seqs
  import opened ApplicationStatuses

  /** A date field of the posting as it arrives over JSON. */
  datatype DateField =
    | Null          // JSON null
    | At(ms: int)   // a readable date-time
    | Garbage       // a non-empty string `Date` cannot read

  /** `new Date(field)`: null is the epoch, an unreadable string an invalid
      date (`None`). */
  function JsDate(f: DateField): (r: Option<int>)
    ensures f.Null? ==> r == Some(0)
    ensures f.At? ==> r == Some(f.ms)
    ensures f.Garbage? <==> r.None?
  {
    match f
    case Null => Some(0)
    case At(ms) => Some(ms)
    case Garbage => None
  }

  /** `a > b` for a date that may be invalid: an invalid date compares false. */
  predicate After(a: Option<int>, b: int) {
    a.Some? && a.value > b
  }

  /** `a <= b` for a date that may be invalid. */
  predicate NotAfter(a: Option<int>, b: int) {
    a.Some? && a.value <= b
  }

  datatype DashboardPosting = DashboardPosting(
    id: int,
    applicationStart: DateField,
    applicationEnd: DateField,
    evaluationEnd: DateField)

  datatype DashboardStatus = Scheduled | Active | EvaluationCompleted | Completed

  /** `getPostingStatus`. The evaluation end only counts when the field is
      truthy, that is, not null. */
  function GetPostingStatus(p: DashboardPosting, now: int): (r: DashboardStatus)
    ensures r == Scheduled <==> After(JsDate(p.applicationStart), now)
    ensures r == Active <==> NotAfter(JsDate(p.applicationStart), now) && After(JsDate(p.applicationEnd), now)
    ensures r == EvaluationCompleted ==> !p.evaluationEnd.Null? && NotAfter(JsDate(p.evaluationEnd), now)
  {
    var start := JsDate(p.applicationStart);
    var end := JsDate(p.applicationEnd);
    var evaluationEnd := if p.evaluationEnd.Null? then None else JsDate(p.evaluationEnd);
    if After(start, now) then Scheduled
    else if NotAfter(start, now) && After(end, now) then Active
    else if evaluationEnd.Some? && NotAfter(evaluationEnd, now) then EvaluationCompleted
    else Completed
  }

  /** On readable dates the status walks through the windows in order:
      scheduled before the start, active from the start up to the end,
      then evaluation-completed once the evaluation end has passed and
      completed until then. */
  lemma StatusOnReadableDates(start: int, end: int, evaluationEnd: Option<int>, now: int)
    ensures var p := DashboardPosting(0, At(start), At(end), if evaluationEnd.Some? then At(evaluationEnd.value) else Null);
      var r := GetPostingStatus(p, now);
      && (r == Scheduled <==> now < start)
      && (r == Active <==> start <= now < end)
      && (r == EvaluationCompleted <==> start <= now && end <= now && evaluationEnd.Some? && evaluationEnd.value <= now)
      && (r == Completed <==> start <= now && end <= now && !(evaluationEnd.Some? && evaluationEnd.value <= now))
  {
  }

  /** Without an evaluation end a posting whose application window has
      passed is completed at every later instant. */
  lemma NoEvaluationEndStaysCompleted(p: DashboardPosting, now: int, later: int)
    requires p.evaluationEnd.Null?
    requires GetPostingStatus(p, now) == Completed && now <= later
    requires p.applicationStart.At? && p.applicationEnd.At?
    ensures GetPostingStatus(p, later) == Completed
  {
  }

  /** A null start date reads as the epoch, so such a posting is never
      scheduled at a non-negative time. */
  lemma NullStartIsEpoch(p: DashboardPosting, now: int)
    requires p.applicationStart.Null? && now >= 0
    ensures GetPostingStatus(p, now) != Scheduled
  {
  }

  // ---------------------------------------------------------------------------
  // Buckets

  datatype Buckets = Buckets(
    active: seq<DashboardPosting>,
    scheduled: seq<DashboardPosting>,
    completed: seq<DashboardPosting>,
    evaluationCompleted: seq<DashboardPosting>)

  /** One step of the `reduce` in `categorizeJobPostings`, which repeats the
      status conditions rather than calling `getPostingStatus`. */
  function Push(acc: Buckets, p: DashboardPosting, now: int): Buckets {
    var start := JsDate(p.applicationStart);
    var end := JsDate(p.applicationEnd);
    var evaluationEnd := if p.evaluationEnd.Null? then None else JsDate(p.evaluationEnd);
    if After(start, now) then acc.(scheduled := acc.scheduled + [p])
    else if NotAfter(start, now) && After(end, now) then acc.(active := acc.active + [p])
    else if evaluationEnd.Some? && NotAfter(evaluationEnd, now) then acc.(evaluationCompleted := acc.evaluationCompleted + [p])
    else acc.(completed := acc.completed + [p])
  }

  /** `categorizeJobPostings`: every posting pushed, in order, into one bucket. */
  function Categorize(ps: seq<DashboardPosting>, now: int): (b: Buckets)
    ensures |b.active| + |b.scheduled| + |b.completed| + |b.evaluationCompleted| == |ps|
  {
    if ps == [] then Buckets([], [], [], [])
    else Push(Categorize(ps[..|ps| - 1], now), ps[|ps| - 1], now)
  }

  function StatusIs(now: int, s: DashboardStatus): DashboardPosting -> bool {
    (p: DashboardPosting) => GetPostingStatus(p, now) == s
  }

  /** Each bucket holds exactly the postings `getPostingStatus` gives its
      status, in their original order. */
  lemma {:induction false} CategorizeAgreesWithStatus(ps: seq<DashboardPosting>, now: int)
    ensures Categorize(ps, now).scheduled == Filter(ps, StatusIs(now, Scheduled))
    ensures Categorize(ps, now).active == Filter(ps, StatusIs(now, Active))
    ensures Categorize(ps, now).evaluationCompleted == Filter(ps, StatusIs(now, EvaluationCompleted))
    ensures Categorize(ps, now).completed == Filter(ps, StatusIs(now, Completed))
  {
    if ps != [] {
      var init, last := ps[..|ps| - 1], ps[|ps| - 1];
      assert ps == init + [last];
      CategorizeAgreesWithStatus(init, now);
      FilterSnoc(init, last, StatusIs(now, Scheduled));
      FilterSnoc(init, last, StatusIs(now, Active));
      FilterSnoc(init, last, StatusIs(now, EvaluationCompleted));
      FilterSnoc(init, last, StatusIs(now, Completed));
    }
  }

  /** The "completed" summary card: both kinds of finished postings. */
  function CompletedCard(b: Buckets): nat {
    |b.completed| + |b.evaluationCompleted|
  }

  function IsFinished(now: int): DashboardPosting -> bool {
    (p: DashboardPosting) => GetPostingStatus(p, now) == Completed || GetPostingStatus(p, now) == EvaluationCompleted
  }

  /** The card counts exactly the postings that are finished either way. */
  lemma {:induction false} CompletedCardCountsFinished(ps: seq<DashboardPosting>, now: int)
    ensures CompletedCard(Categorize(ps, now)) == Count(ps, IsFinished(now))
  {
    if ps != [] {
      var init, last := ps[..|ps| - 1], ps[|ps| - 1];
      assert ps == init + [last];
      CompletedCardCountsFinished(init, now);
      FilterSnoc(init, last, IsFinished(now));
    }
  }

  // ---------------------------------------------------------------------------
  // Evaluation progress per posting

  datatype DashboardApplication = DashboardApplication(jobPostingId: int, status: string)

  datatype ApplicationStats = ApplicationStats(total: nat, evaluated: nat, percentage: int)

  /** The statuses the dashboard counts as evaluated. */
  const EvaluatedStatuses: seq<string> := ["EVALUATION_COMPLETE", "PASSED", "FAILED"]

  function ForPosting(postingId: int): DashboardApplication -> bool {
    (a: DashboardApplication) => a.jobPostingId == postingId
  }

  function IsEvaluated(a: DashboardApplication): bool {
    a.status in EvaluatedStatuses
  }

  /** `r` is the share `n` of `d` in percent, rounded to the nearest
      integer with halves rounded up. */
  predicate RoundsShare(r: int, n: nat, d: nat) {
    2 * r * d <= 200 * n + d < 2 * (r + 1) * d
  }

  /** The completion percentage: the integer nearest to the exact rational
      100n/d, halves rounded up. The screen's `Math.round(n / d * 100)` rounds
      a double instead, which can fall just below a half (23 of 40 gives 57). */
  function RoundedPercentage(n: nat, d: nat): (r: int)
    requires d > 0
    ensures RoundsShare(r, n, d)
  {
    var q := (200 * n + d) / (2 * d);
    assert 200 * n + d == 2 * d * q + (200 * n + d) % (2 * d);
    q
  }

  /** An application that counts as evaluated for a posting: it belongs to
      the posting and its status is one of the evaluated ones. */
  function EvaluatedFor(postingId: int): DashboardApplication -> bool {
    (a: DashboardApplication) => a.jobPostingId == postingId && a.status in EvaluatedStatuses
  }

  /** `getApplicationStats`. */
  function GetApplicationStats(apps: seq<DashboardApplication>, postingId: int): (s: ApplicationStats)
    ensures s.total == Count(apps, ForPosting(postingId))
    ensures s.evaluated == Count(apps, EvaluatedFor(postingId))
    ensures s.evaluated <= s.total
    ensures s.total == 0 ==> s.percentage == 0
    ensures s.total > 0 ==> RoundsShare(s.percentage, s.evaluated, s.total)
    ensures s.total > 0 ==> 0 <= s.percentage <= 100
  {
    var mine := Filter(apps, ForPosting(postingId));
    var evaluated := Count(mine, IsEvaluated);
    var total := |mine|;
    EvaluatedAmongMine(apps, postingId);
    ApplicationStats(total, evaluated, Percentage(evaluated, total))
  }

  /** The percentage shown for `n` evaluated of `d` applications: 0 when
      there are none, the rounded share otherwise. */
  function Percentage(n: nat, d: nat): (r: int)
    requires n <= d
    ensures d == 0 ==> r == 0
    ensures d > 0 ==> RoundsShare(r, n, d)
    ensures 0 <= r <= 100
  {
    if d > 0 then PercentageBounds(n, d); RoundedPercentage(n, d) else 0
  }

  /** Counting the evaluated ones among a posting's applications is counting
      the applications that are the posting's and evaluated. */
  lemma EvaluatedAmongMine(apps: seq<DashboardApplication>, postingId: int)
    ensures Count(Filter(apps, ForPosting(postingId)), IsEvaluated) == Count(apps, EvaluatedFor(postingId))
    ensures Count(apps, EvaluatedFor(postingId)) <= Count(apps, ForPosting(postingId))
  {
    var mine := Filter(apps, ForPosting(postingId));
    assert forall j | 0 <= j < |mine| :: ForPosting(postingId)(mine[j]);
    FilterAgree(mine, IsEvaluated, EvaluatedFor(postingId));
    FilterFilterImplied(apps, EvaluatedFor(postingId), ForPosting(postingId));
  }

  /** One more application adds one to the posting's evaluated count
      exactly when it is the posting's and its status is EVALUATION_COMPLETE,
      PASSED or FAILED, and one to its total exactly when it is the posting's. */
  lemma EvaluatedCountsOneMore(apps: seq<DashboardApplication>, a: DashboardApplication, postingId: int)
    ensures GetApplicationStats(apps + [a], postingId).evaluated ==
      GetApplicationStats(apps, postingId).evaluated +
      (if a.jobPostingId == postingId && a.status in ["EVALUATION_COMPLETE", "PASSED", "FAILED"] then 1 else 0)
    ensures GetApplicationStats(apps + [a], postingId).total ==
      GetApplicationStats(apps, postingId).total + (if a.jobPostingId == postingId then 1 else 0)
  {
    FilterSnoc(apps, a, EvaluatedFor(postingId));
    FilterSnoc(apps, a, ForPosting(postingId));
    assert EvaluatedFor(postingId)(a) <==>
      a.jobPostingId == postingId && a.status in ["EVALUATION_COMPLETE", "PASSED", "FAILED"];
  }

  lemma PercentageBounds(n: nat, d: nat)
    requires 0 < d && n <= d
    ensures 0 <= RoundedPercentage(n, d) <= 100
  {
    var r := RoundedPercentage(n, d);
    assert 2 * r * d <= 201 * d;
    MulCancel(2 * r, 201, d);
  }

  lemma MulCancel(a: int, b: int, c: int)
    requires c > 0 && a * c <= b * c
    ensures a <= b
  {
    assert (b - a) * c == b * c - a * c;
  }

  /** No name of a backend application status is among the evaluated ones. */
  lemma BackendNameIsNotEvaluated(st: ApplicationStatus)
    ensures st.Name() !in EvaluatedStatuses
  {
  }

  /** On the backend's statuses the dashboard never shows any progress. */
  lemma BackendStatusesNeverCountAsEvaluated(apps: seq<DashboardApplication>, postingId: int)
    requires forall a | a in apps :: ValueOf(a.status).Some?
    ensures GetApplicationStats(apps, postingId).evaluated == 0
    ensures GetApplicationStats(apps, postingId).percentage == 0
  {
    var mine := Filter(apps, ForPosting(postingId));
    forall j | 0 <= j < |mine|
      ensures !IsEvaluated(mine[j])
    {
      BackendNameIsNotEvaluated(ValueOf(mine[j].status).value);
    }
    if |mine| > 0 {
      NothingEvaluatedIsZeroPercent(|mine|);
    }
  }

  lemma NothingEvaluatedIsZeroPercent(d: nat)
    requires d > 0
    ensures RoundedPercentage(0, d) == 0
  {
  }
}

=== FILE: numbers.dfy ===
/** `Math.max`/`Math.min` and Python's `max`/`min` on two integers. */
module Numbers {
  function Max(a: int, b: int): int {
    if a < b then b else a
  }

  function Min(a: int, b: int): int {
    if a < b then a else b
  }
}

=== FILE: p1_builder.dfy ===
/** The asset builder: the scoring rules the evaluator reads, the criterion
    packets and example sentences of the retrieval data, the per-criterion
    tally of the language model's answers, and the choice of what goes into
    the vector store. The model's answers are a parameter; files and the
    store are left to their callers. */
module P1Builder {
  import opened Wrappers
  import opened Seqs
  import opened Text
  import P2Evaluator
  import SentenceRefiner

  // ---------------------------------------------------------------------------
  // Scoring rules

  const CareerItemName: string := "경력"

  /** Whether a `jobRole` is set: Python reads an absent, null or empty one
      as false. */
  predicate HasJobRole(jobRole: Option<string>) {
    jobRole.Some? && jobRole.value != []
  }

  /** `generate_scoring_rules`: with a job role, every item named for career
      becomes a career-similarity rule; everything else passes through. */
  function GenerateScoringRules(jobRole: Option<string>, items: seq<P2Evaluator.Rule>): (r: seq<P2Evaluator.Rule>)
    ensures |r| == |items|
    ensures !HasJobRole(jobRole) ==> r == items
    ensures forall j | 0 <= j < |items| :: r[j].(ruleType := items[j].ruleType) == items[j]
    ensures forall j | 0 <= j < |items| ::
      HasJobRole(jobRole) && items[j].name == CareerItemName ==> r[j].ruleType == P2Evaluator.CareerSimilarityBased
    ensures forall j | 0 <= j < |items| :: items[j].name != CareerItemName ==> r[j] == items[j]
  {
    if !HasJobRole(jobRole) then items
    else
      seq(|items|, j requires 0 <= j < |items| =>
        if items[j].name == CareerItemName then items[j].(ruleType := P2Evaluator.CareerSimilarityBased) else items[j])
  }

  /** Rewriting the rules a second time changes nothing. */
  lemma GenerateScoringRulesIdempotent(jobRole: Option<string>, items: seq<P2Evaluator.Rule>)
    ensures GenerateScoringRules(jobRole, GenerateScoringRules(jobRole, items)) == GenerateScoringRules(jobRole, items)
  {
  }

  /** The evaluator scores the same items after the rewrite: the rewrite
      keeps every rule's id. */
  lemma {:induction false} RewriteKeepsScoredItems(jobRole: Option<string>, items: seq<P2Evaluator.Rule>,
                                                   answers: seq<P2Evaluator.AnswerItem>, o: P2Evaluator.Oracles)
    ensures P2Evaluator.Evaluate(GenerateScoringRules(jobRole, items), answers, o).Keys == P2Evaluator.Evaluate(items, answers, o).Keys
  {
    var r := GenerateScoringRules(jobRole, items);
    var after, before := P2Evaluator.Evaluate(r, answers, o), P2Evaluator.Evaluate(items, answers, o);
    forall id
      ensures id in after <==> id in before
    {
      if id in after {
        var j :| 0 <= j < |r| && r[j].id == id;
        assert items[j].id == id;
      }
      if id in before {
        var j :| 0 <= j < |items| && items[j].id == id;
        assert r[j].id == id;
      }
    }
  }

  /** With a job role, a career item is scored by job similarity; any other
      item is scored as before the rewrite. */
  lemma RewrittenRuleScores(jobRole: Option<string>, items: seq<P2Evaluator.Rule>, j: nat,
                            answers: seq<P2Evaluator.AnswerItem>, o: P2Evaluator.Oracles)
    requires j < |items|
    ensures var rule := GenerateScoringRules(jobRole, items)[j];
      HasJobRole(jobRole) && items[j].name == CareerItemName ==>
        P2Evaluator.RuleResult(rule, answers, o) ==
          (match P2Evaluator.FindAnswerItem(rule.id, answers) case None => 0 case Some(item) => o.floatRule(rule, item))
    ensures !(HasJobRole(jobRole) && items[j].name == CareerItemName) ==>
      P2Evaluator.RuleResult(GenerateScoringRules(jobRole, items)[j], answers, o) == P2Evaluator.RuleResult(items[j], answers, o)
  {
  }

  // ---------------------------------------------------------------------------
  // Criterion packets

  /** A cover-letter criterion; `details` stands for the grade descriptions
      the prompt quotes. */
  datatype Criterion = Criterion(name: string, details: string)

  datatype Question = Question(id: nat, criteria: seq<Criterion>)

  datatype Label = Good | Bad {
    function Name(): string {
      match this
      case Good => "good"
      case Bad => "bad"
    }
  }

  datatype Content =
    | CriterionContent(criterion: Criterion)
    | SentenceContent(exampleLabel: Label, linkedCriterion: string, extractedSentence: string)

  /** One entry of the retrieval data. */
  datatype Packet = Packet(packetId: string, questionId: nat, content: Content) {
    /** The entry's `type`. */
    function Type(): string {
      if content.CriterionContent? then "criterion" else "example_sentence"
    }
  }

  /** The packet of one criterion of one question, `Q<id>_<name>`. */
  function CriterionPacket(q: Question, c: Criterion): (p: Packet)
    ensures p.Type() == "criterion" && p.questionId == q.id && p.content.criterion == c
  {
    Packet("Q" + Decimal(q.id) + "_" + c.name, q.id, CriterionContent(c))
  }

  function QuestionPackets(q: Question): (r: seq<Packet>)
    ensures |r| == |q.criteria| && forall k | 0 <= k < |r| :: r[k] == CriterionPacket(q, q.criteria[k])
  {
    seq(|q.criteria|, k requires 0 <= k < |q.criteria| => CriterionPacket(q, q.criteria[k]))
  }

  /** The number of (question, criterion) pairs. */
  function PairCount(qs: seq<Question>): nat {
    if qs == [] then 0 else PairCount(qs[..|qs| - 1]) + |qs[|qs| - 1].criteria|
  }

  /** `criteria_packets`: one packet per criterion, question by question. */
  function CriteriaPackets(qs: seq<Question>): (r: seq<Packet>)
    ensures |r| == PairCount(qs)
  {
    if qs == [] then [] else CriteriaPackets(qs[..|qs| - 1]) + QuestionPackets(qs[|qs| - 1])
  }

  /** The packet of the `k`-th criterion of the `i`-th question sits after
      the pairs of the questions before it, so there is exactly one packet
      per pair, in order. */
  lemma {:induction false} CriteriaPacketAt(qs: seq<Question>, i: nat, k: nat)
    requires i < |qs| && k < |qs[i].criteria|
    ensures PairCount(qs[..i]) + k < |CriteriaPackets(qs)|
    ensures CriteriaPackets(qs)[PairCount(qs[..i]) + k] == CriterionPacket(qs[i], qs[i].criteria[k])
  {
    var n := |qs| - 1;
    var init := qs[..n];
    if i < n {
      assert init[..i] == qs[..i];
      CriteriaPacketAt(init, i, k);
      PairCountPrefix(init, i);
    } else {
      assert qs[..i] == init;
    }
  }

  lemma {:induction false} PairCountPrefix(qs: seq<Question>, i: nat)
    requires i < |qs|
    ensures PairCount(qs[..i]) + |qs[i].criteria| <= PairCount(qs)
  {
    var n := |qs| - 1;
    if i < n {
      assert qs[..n][..i] == qs[..i];
      PairCountPrefix(qs[..n], i);
    } else {
      assert qs[..i] == qs[..n];
    }
  }

  /** Every criterion packet comes from a pair of the questions. */
  lemma {:induction false} CriteriaPacketsFromPairs(qs: seq<Question>, m: nat)
    requires m < |CriteriaPackets(qs)|
    ensures exists i, k | 0 <= i < |qs| && 0 <= k < |qs[i].criteria| :: CriteriaPackets(qs)[m] == CriterionPacket(qs[i], qs[i].criteria[k])
  {
    var n := |qs| - 1;
    var init := qs[..n];
    if m < |CriteriaPackets(init)| {
      CriteriaPacketsFromPairs(init, m);
      var i, k :| 0 <= i < |init| && 0 <= k < |init[i].criteria| && CriteriaPackets(init)[m] == CriterionPacket(init[i], init[i].criteria[k]);
      assert init[i] == qs[i];
    } else {
      var k := m - |CriteriaPackets(init)|;
      assert CriteriaPackets(qs)[m] == QuestionPackets(qs[n])[k];
    }
  }

  // ---------------------------------------------------------------------------
  // Tasks

  datatype Example = Example(id: string, content: string)

  /** The good and bad examples of one question. */
  datatype ExampleGroup = ExampleGroup(questionId: nat, good: seq<Example>, bad: seq<Example>)

  /** One prompt: a criterion of a question, an example answer and its label. */
  datatype Task = Task(questionId: nat, criterion: Criterion, example: Example, exampleLabel: Label)

  function Labelled(questionId: nat, c: Criterion, examples: seq<Example>, exampleLabel: Label): (r: seq<Task>)
    ensures |r| == |examples| && forall e | 0 <= e < |r| :: r[e] == Task(questionId, c, examples[e], exampleLabel)
  {
    seq(|examples|, e requires 0 <= e < |examples| => Task(questionId, c, examples[e], exampleLabel))
  }

  /** The tasks of one packet and one example group: none when the group
      belongs to another question, else its good examples then its bad. */
  function GroupTasks(p: Packet, g: ExampleGroup): seq<Task> {
    match p.content
    case CriterionContent(c) =>
      if g.questionId == p.questionId then Labelled(p.questionId, c, g.good, Good) + Labelled(p.questionId, c, g.bad, Bad)
      else []
    case SentenceContent(_, _, _) => []
  }

  function PacketTasks(p: Packet, groups: seq<ExampleGroup>): seq<Task> {
    if groups == [] then [] else PacketTasks(p, groups[..|groups| - 1]) + GroupTasks(p, groups[|groups| - 1])
  }

  /** `tasks_to_process`: for each packet, each group of its question, the
      good then the bad examples. */
  function Tasks(packets: seq<Packet>, groups: seq<ExampleGroup>): seq<Task> {
    if packets == [] then [] else Tasks(packets[..|packets| - 1], groups) + PacketTasks(packets[|packets| - 1], groups)
  }

  /** The example of a task is listed, under the task's label, in a group
      of the task's question. */
  predicate ListedIn(t: Task, groups: seq<ExampleGroup>) {
    exists g | g in groups :: g.questionId == t.questionId && t.example in (if t.exampleLabel == Good then g.good else g.bad)
  }

  /** Every task pairs a criterion packet with an example of the same
      question, listed under the task's label. */
  lemma {:induction false} TasksComeFromGroups(packets: seq<Packet>, groups: seq<ExampleGroup>)
    ensures forall t | t in Tasks(packets, groups) ::
      ListedIn(t, groups) && CriterionContent(t.criterion) in PacketContents(packets)
  {
    if packets != [] {
      var n := |packets| - 1;
      TasksComeFromGroups(packets[..n], groups);
      PacketTasksFromGroups(packets[n], groups);
      forall t | t in Tasks(packets, groups)
        ensures ListedIn(t, groups) && CriterionContent(t.criterion) in PacketContents(packets)
      {
        if t in Tasks(packets[..n], groups) {
          assert PacketContents(packets[..n]) <= PacketContents(packets);
        }
      }
    }
  }

  function PacketContents(packets: seq<Packet>): set<Content> {
    set p | p in packets :: p.content
  }

  lemma {:induction false} PacketTasksFromGroups(p: Packet, groups: seq<ExampleGroup>)
    ensures forall t | t in PacketTasks(p, groups) ::
      ListedIn(t, groups) && p.content == CriterionContent(t.criterion) && t.questionId == p.questionId
  {
    if groups != [] {
      var n := |groups| - 1;
      PacketTasksFromGroups(p, groups[..n]);
      forall t | t in PacketTasks(p, groups)
        ensures ListedIn(t, groups) && p.content == CriterionContent(t.criterion) && t.questionId == p.questionId
      {
        if t in PacketTasks(p, groups[..n]) {
          var g :| g in groups[..n] && g.questionId == t.questionId && t.example in (if t.exampleLabel == Good then g.good else g.bad);
          assert g in groups;
        } else {
          assert t in GroupTasks(p, groups[n]);
          var g := groups[n];
          assert g.questionId == t.questionId && t.example in (if t.exampleLabel == Good then g.good else g.bad);
        }
      }
    }
  }

  /** Every packet's tasks are among all the tasks. */
  lemma {:induction false} PacketTasksIncluded(packets: seq<Packet>, groups: seq<ExampleGroup>, i: nat)
    requires i < |packets|
    ensures forall t | t in PacketTasks(packets[i], groups) :: t in Tasks(packets, groups)
  {
    var n := |packets| - 1;
    if i < n {
      assert packets[..n][i] == packets[i];
      PacketTasksIncluded(packets[..n], groups, i);
    }
  }

  /** Every group's tasks for a packet are among the packet's tasks. */
  lemma {:induction false} GroupTasksIncluded(p: Packet, groups: seq<ExampleGroup>, g: nat)
    requires g < |groups|
    ensures forall t | t in GroupTasks(p, groups[g]) :: t in PacketTasks(p, groups)
  {
    var n := |groups| - 1;
    if g < n {
      assert groups[..n][g] == groups[g];
      GroupTasksIncluded(p, groups[..n], g);
    }
  }

  /** Conversely, every example of a question's group, good or bad, is
      prompted once for each criterion packet of that question. */
  lemma EveryExampleIsPrompted(packets: seq<Packet>, groups: seq<ExampleGroup>, i: nat, g: nat, c: Criterion, e: Example, exampleLabel: Label)
    requires i < |packets| && g < |groups|
    requires packets[i].content == CriterionContent(c) && groups[g].questionId == packets[i].questionId
    requires e in (if exampleLabel == Good then groups[g].good else groups[g].bad)
    ensures Task(packets[i].questionId, c, e, exampleLabel) in Tasks(packets, groups)
  {
    var t := Task(packets[i].questionId, c, e, exampleLabel);
    var examples := if exampleLabel == Good then groups[g].good else groups[g].bad;
    var x :| 0 <= x < |examples| && examples[x] == e;
    assert Labelled(packets[i].questionId, c, examples, exampleLabel)[x] == t;
    assert t in GroupTasks(packets[i], groups[g]);
    GroupTasksIncluded(packets[i], groups, g);
    PacketTasksIncluded(packets, groups, i);
  }

  // ---------------------------------------------------------------------------
  // Example sentences and the tally

  /** The model's refusal ("cannot extract"). */
  const Unextractable: string := "추출불가"

  /** A refined sentence is kept when it is non-empty and not a refusal. */
  predicate Keeps(sentence: string) {
    sentence != [] && !Contains(sentence, Unextractable)
  }

  /** The refined sentence of a task, from the model's answer to its prompt. */
  function RefinedSentence(t: Task, generate: Task -> string): string {
    SentenceRefiner.Refine(generate(t), t.example.content)
  }

  /** The `example_sentence` entry of a task, `EX_<example id>_<criterion>`. */
  function ExampleRecord(t: Task, sentence: string): (p: Packet)
    ensures p.Type() == "example_sentence" && p.questionId == t.questionId
    ensures p.content == SentenceContent(t.exampleLabel, t.criterion.name, sentence)
  {
    Packet("EX_" + t.example.id + "_" + t.criterion.name, t.questionId, SentenceContent(t.exampleLabel, t.criterion.name, sentence))
  }

  datatype Tally = Tally(success: nat, fail: nat)

  /** The records made so far and the per-criterion tally. */
  datatype Outcome = Outcome(records: seq<Packet>, stats: map<string, Tally>)

  function TallyOf(stats: map<string, Tally>, name: string): Tally {
    if name in stats then stats[name] else Tally(0, 0)
  }

  /** One task's answer: a kept sentence becomes a record and a success of
      its criterion, anything else a failure. */
  function Record(o: Outcome, t: Task, sentence: string): Outcome {
    var name := t.criterion.name;
    var tally := TallyOf(o.stats, name);
    if Keeps(sentence) then Outcome(o.records + [ExampleRecord(t, sentence)], o.stats[name := tally.(success := tally.success + 1)])
    else Outcome(o.records, o.stats[name := tally.(fail := tally.fail + 1)])
  }

  /** The batch loop of `generate_rag_data`, task by task in order, given
      each task's refined sentence; the batches of eight pair every answer
      with its own task. */
  function Process(tasks: seq<Task>, refined: Task -> string): Outcome {
    if tasks == [] then Outcome([], map[])
    else
      var t := tasks[|tasks| - 1];
      Record(Process(tasks[..|tasks| - 1], refined), t, refined(t))
  }

  /** Each task's sentence refined from the model's answer to its prompt. */
  function Refined(generate: Task -> string): Task -> string {
    (t: Task) => RefinedSentence(t, generate)
  }

  function Named(name: string): Task -> bool {
    (t: Task) => t.criterion.name == name
  }

  function LinkedTo(name: string): Packet -> bool {
    (p: Packet) => p.content.SentenceContent? && p.content.linkedCriterion == name
  }

  function KeptBy(refined: Task -> string): Task -> bool {
    (t: Task) => Keeps(refined(t))
  }

  /** Per criterion, successes and failures add up to the tasks of that
      criterion, the successes are its records, and a criterion has a tally
      exactly when it had a task. */
  lemma {:induction false} TallyCountsTasks(tasks: seq<Task>, refined: Task -> string, name: string)
    ensures var o := Process(tasks, refined);
      && TallyOf(o.stats, name).success + TallyOf(o.stats, name).fail == Count(tasks, Named(name))
      && TallyOf(o.stats, name).success == Count(o.records, LinkedTo(name))
      && (name in o.stats <==> Count(tasks, Named(name)) > 0)
  {
    if tasks != [] {
      var n := |tasks| - 1;
      var init, t := tasks[..n], tasks[n];
      assert tasks == init + [t];
      TallyCountsTasks(init, refined, name);
      FilterSnoc(init, t, Named(name));
      var o := Process(init, refined);
      var sentence := refined(t);
      if Keeps(sentence) {
        FilterSnoc(o.records, ExampleRecord(t, sentence), LinkedTo(name));
      }
    }
  }

  /** The records are exactly the kept answers' entries, in task order:
      as many as kept tasks, each carrying the refined sentence of a task. */
  lemma {:induction false} RecordsAreKeptSentences(tasks: seq<Task>, refined: Task -> string)
    ensures var records := Process(tasks, refined).records;
      && |records| == Count(tasks, KeptBy(refined))
      && forall j | 0 <= j < |records| :: exists i | 0 <= i < |tasks| ::
           && KeptBy(refined)(tasks[i])
           && records[j] == ExampleRecord(tasks[i], refined(tasks[i]))
  {
    if tasks != [] {
      var n := |tasks| - 1;
      var init, t := tasks[..n], tasks[n];
      assert tasks == init + [t];
      RecordsAreKeptSentences(init, refined);
      FilterSnoc(init, t, KeptBy(refined));
      var records := Process(tasks, refined).records;
      var before := Process(init, refined).records;
      forall j | 0 <= j < |records|
        ensures exists i | 0 <= i < |tasks| ::
          KeptBy(refined)(tasks[i]) && records[j] == ExampleRecord(tasks[i], refined(tasks[i]))
      {
        if j < |before| {
          var i :| 0 <= i < |init| && KeptBy(refined)(init[i]) && before[j] == ExampleRecord(init[i], refined(init[i]));
          assert tasks[i] == init[i];
        } else {
          assert KeptBy(refined)(tasks[n]);
        }
      }
    }
  }

  /** A kept sentence is one of the example's own sentences, stripped. */
  lemma KeptSentenceIsOriginal(t: Task, generate: Task -> string)
    requires Keeps(RefinedSentence(t, generate))
    ensures var sentences := SentenceRefiner.Sentences(t.example.content);
      exists j | 0 <= j < |sentences| :: RefinedSentence(t, generate) == Strip(sentences[j])
  {
    SentenceRefiner.RefinedIsOriginal(generate(t), t.example.content);
  }

  /** The retrieval data given each task's refined sentence: the criterion
      packets, then the example sentences. */
  function Assemble(qs: seq<Question>, groups: seq<ExampleGroup>, refined: Task -> string): seq<Packet> {
    var packets := CriteriaPackets(qs);
    packets + Process(Tasks(packets, groups), refined).records
  }

  /** `rag_data` as `generate_rag_data` writes it. */
  function RagData(qs: seq<Question>, groups: seq<ExampleGroup>, generate: Task -> string): seq<Packet> {
    Assemble(qs, groups, Refined(generate))
  }

  // ---------------------------------------------------------------------------
  // The upload

  datatype Metadata = Metadata(questionId: nat, exampleLabel: string, linkedCriterion: string)

  /** What `upload_rag_data_to_db` does to the store: nothing when the data
      is missing or empty; otherwise the collection is replaced and holds the
      listed documents (none at all when there is no example sentence). */
  datatype Upload =
    | Skipped
    | Replaced(documents: seq<string>, metadatas: seq<Metadata>, ids: seq<string>)

  function IsExampleSentence(p: Packet): bool {
    p.Type() == "example_sentence"
  }

  function DocumentOf(p: Packet): string {
    if p.content.SentenceContent? then p.content.extractedSentence else []
  }

  function MetadataOf(p: Packet): Metadata {
    if p.content.SentenceContent? then Metadata(p.questionId, p.content.exampleLabel.Name(), p.content.linkedCriterion)
    else Metadata(p.questionId, [], [])
  }

  /** `upload_rag_data_to_db` on the loaded file (`None` when it is missing
      or not JSON): the example sentences, in order, each under its packet
      id; criterion packets are not uploaded. */
  function UploadRagData(rag: Option<seq<Packet>>): (u: Upload)
    ensures u.Skipped? <==> rag.None? || rag.value == []
    ensures u.Replaced? ==>
      var selected := Filter(rag.value, IsExampleSentence);
      && |u.documents| == |u.metadatas| == |u.ids| == |selected|
      && forall j | 0 <= j < |selected| ::
           && selected[j].content.SentenceContent?
           && u.ids[j] == selected[j].packetId
           && u.documents[j] == selected[j].content.extractedSentence
           && u.metadatas[j] == Metadata(selected[j].questionId, selected[j].content.exampleLabel.Name(), selected[j].content.linkedCriterion)
  {
    if rag.None? || rag.value == [] then Skipped
    else
      var selected := Filter(rag.value, IsExampleSentence);
      Replaced(
        seq(|selected|, j requires 0 <= j < |selected| => DocumentOf(selected[j])),
        seq(|selected|, j requires 0 <= j < |selected| => MetadataOf(selected[j])),
        seq(|selected|, j requires 0 <= j < |selected| => selected[j].packetId))
  }

  /** Uploading what the builder wrote stores exactly its example sentences,
      in order, under their ids: none of the criterion packets. */
  lemma UploadOfBuiltData(qs: seq<Question>, groups: seq<ExampleGroup>, refined: Task -> string)
    requires Assemble(qs, groups, refined) != []
    ensures var records := Process(Tasks(CriteriaPackets(qs), groups), refined).records;
      var u := UploadRagData(Some(Assemble(qs, groups, refined)));
      && u.Replaced?
      && u.ids == seq(|records|, j requires 0 <= j < |records| => records[j].packetId)
      && u.documents == seq(|records|, j requires 0 <= j < |records| => DocumentOf(records[j]))
  {
    var packets := CriteriaPackets(qs);
    var records := Process(Tasks(packets, groups), refined).records;
    SelectedAreRecords(packets, records, qs, Tasks(packets, groups), refined);
  }

  lemma SelectedAreRecords(packets: seq<Packet>, records: seq<Packet>, qs: seq<Question>, tasks: seq<Task>, refined: Task -> string)
    requires packets == CriteriaPackets(qs) && records == Process(tasks, refined).records
    ensures Filter(packets + records, IsExampleSentence) == records
  {
    CriterionPacketsAreCriteria(qs);
    RecordsAreSentences(tasks, refined);
    FilterAppend(packets, records, IsExampleSentence);
    FilterAllOrNone(packets, IsExampleSentence);
    FilterAllOrNone(records, IsExampleSentence);
  }

  lemma CriterionPacketsAreCriteria(qs: seq<Question>)
    ensures forall j | 0 <= j < |CriteriaPackets(qs)| :: !IsExampleSentence(CriteriaPackets(qs)[j])
  {
    forall j | 0 <= j < |CriteriaPackets(qs)|
      ensures !IsExampleSentence(CriteriaPackets(qs)[j])
    {
      CriteriaPacketsFromPairs(qs, j);
    }
  }

  lemma RecordsAreSentences(tasks: seq<Task>, refined: Task -> string)
    ensures var records := Process(tasks, refined).records;
      forall j | 0 <= j < |records| :: IsExampleSentence(records[j]) && records[j].content.SentenceContent?
  {
    RecordsAreKeptSentences(tasks, refined);
  }
}

=== FILE: p2_evaluator.dfy ===
/** The evaluator's quantitative engine: one score per resume-item rule,
    computed from the applicant's answer to that item by the rule's type, and
    the resume part of the report sent back to the backend. The knowledge
    bases (certificate types, university groups), the university-name
    pattern and the two floating-point rule types are parameters. */
module P2Evaluator {
  import opened Wrappers
  import opened Seqs
  import opened Text
  import opened Sorting
  import opened Numbers
  import EvaluationIngestion

  /** One submitted resume answer. An absent content or category reads as
      the empty string, as the lookups' defaults give; a content sent as an
      explicit null is not representable. */
  datatype AnswerItem = AnswerItem(resumeItemId: nat, resumeItemName: string, resumeContent: string, selectedCategory: string)

  /** A criterion of a rule. `threshold` is `int(description)`, used by the
      threshold rules; `maxItems` is absent for an unbounded count. */
  datatype Criterion = Criterion(description: string, threshold: int, scorePerGrade: int, maxItems: Option<nat>)

  datatype RuleType =
    | Category | NumericRange | HoursRange | DurationBased | CareerSimilarityBased | RuleBasedCount | ScoreRange
    | OtherType(name: string)

  datatype Rule = Rule(id: nat, name: string, ruleType: RuleType, criteria: seq<Criterion>, scoreWeight: Option<int>)

  /** What the engine reads outside the rules and the answer. */
  datatype Oracles = Oracles(
    certTypes: map<string, string>,              // lower-cased certificate name or alias to its type
    university: string -> Option<string>,        // the university name the pattern finds in a content
    universityGroups: map<string, string>,       // university name to its group
    floatRule: (Rule, AnswerItem) -> int)        // the GPA and career-similarity rules

  // ---------------------------------------------------------------------------
  // Looking up the answer

  function HasItemId(id: nat): AnswerItem -> bool {
    (a: AnswerItem) => a.resumeItemId == id
  }

  /** `_find_answer_item`: the first answer to the item, or none (`{}`). */
  function FindAnswerItem(ruleId: nat, answers: seq<AnswerItem>): (r: Option<AnswerItem>)
    ensures r.None? <==> forall j | 0 <= j < |answers| :: answers[j].resumeItemId != ruleId
    ensures r.Some? ==> exists j | 0 <= j < |answers| ::
      && answers[j] == r.value && r.value.resumeItemId == ruleId
      && forall k | 0 <= k < j :: answers[k].resumeItemId != ruleId
  {
    match FirstIndex(answers, HasItemId(ruleId))
    case None => None
    case Some(j) => Some(answers[j])
  }

  /** The score of the first criterion satisfying `p`, or 0. */
  function ScoreOfFirst(criteria: seq<Criterion>, p: Criterion -> bool): (r: int)
    ensures (forall j | 0 <= j < |criteria| :: !p(criteria[j])) ==> r == 0
    ensures (exists j | 0 <= j < |criteria| :: p(criteria[j])) ==> exists j | 0 <= j < |criteria| ::
      && p(criteria[j]) && r == criteria[j].scorePerGrade
      && forall k | 0 <= k < j :: !p(criteria[k])
  {
    match FirstIndex(criteria, p)
    case None => 0
    case Some(j) => criteria[j].scorePerGrade
  }

  /** The first criterion satisfying `p` gives the score. */
  lemma ScoreOfFirstAt(criteria: seq<Criterion>, p: Criterion -> bool, j: nat)
    requires j < |criteria| && p(criteria[j])
    requires forall k | 0 <= k < j :: !p(criteria[k])
    ensures ScoreOfFirst(criteria, p) == criteria[j].scorePerGrade
  {
    var i := FirstIndex(criteria, p).value;
    assert i == j;
  }

  // ---------------------------------------------------------------------------
  // Threshold rules

  function NegThreshold(c: Criterion): int {
    -c.threshold
  }

  function Reaches(value: int): Criterion -> bool {
    (c: Criterion) => c.threshold <= value
  }

  /** The criteria sorted by threshold, highest first (ties in their order),
      and the first one the value reaches: the score of the highest
      threshold not above the value, 0 when the value is below them all.
      The sort is stable, so among criteria sharing that threshold the first
      in the rule's order decides. */
  function ThresholdScore(criteria: seq<Criterion>, value: int): (r: int)
    ensures (forall c | c in criteria :: value < c.threshold) ==> r == 0
    ensures (exists c | c in criteria :: c.threshold <= value) ==>
      exists j | 0 <= j < |criteria| ::
        && criteria[j].threshold <= value
        && r == criteria[j].scorePerGrade
        && (forall d | d in criteria && d.threshold <= value :: d.threshold <= criteria[j].threshold)
        && forall k | 0 <= k < j :: criteria[k].threshold != criteria[j].threshold
  {
    var sorted := SortBy(criteria, NegThreshold);
    HighestReachedComesFirst(criteria, sorted, value);
    match FirstIndex(sorted, Reaches(value))
    case None => 0
    case Some(i) =>
      EarlierDoNotReach(sorted, value, i);
      FirstOfThreshold(criteria, i);
      sorted[i].scorePerGrade
  }

  /** A criterion of the sorted list that is the first of its threshold there
      is the first criterion, in the rule's order, with that threshold. */
  lemma FirstOfThreshold(criteria: seq<Criterion>, i: nat)
    requires i < |SortBy(criteria, NegThreshold)|
    requires forall k | 0 <= k < i ::
      NegThreshold(SortBy(criteria, NegThreshold)[k]) != NegThreshold(SortBy(criteria, NegThreshold)[i])
    ensures exists j | 0 <= j < |criteria| ::
      criteria[j] == SortBy(criteria, NegThreshold)[i] &&
      forall k | 0 <= k < j :: criteria[k].threshold != criteria[j].threshold
  {
    FirstOfKeyIsFirstInInput(criteria, NegThreshold, i);
    var j :| 0 <= j < |criteria| && criteria[j] == SortBy(criteria, NegThreshold)[i] &&
             forall k | 0 <= k < j :: NegThreshold(criteria[k]) != NegThreshold(criteria[j]);
    KeysDiffer(criteria, j);
  }

  lemma EarlierDoNotReach(sorted: seq<Criterion>, value: int, i: nat)
    requires FirstIndex(sorted, Reaches(value)) == Some(i)
    ensures forall k | 0 <= k < i :: NegThreshold(sorted[k]) != NegThreshold(sorted[i])
  {
    forall k | 0 <= k < i
      ensures NegThreshold(sorted[k]) != NegThreshold(sorted[i])
    {
      assert !Reaches(value)(sorted[k]);
    }
  }

  lemma KeysDiffer(criteria: seq<Criterion>, j: nat)
    requires j < |criteria| && forall k | 0 <= k < j :: NegThreshold(criteria[k]) != NegThreshold(criteria[j])
    ensures forall k | 0 <= k < j :: criteria[k].threshold != criteria[j].threshold
  {
  }

  lemma HighestReachedComesFirst(criteria: seq<Criterion>, sorted: seq<Criterion>, value: int)
    requires SortedBy(sorted, NegThreshold) && multiset(sorted) == multiset(criteria)
    ensures FirstIndex(sorted, Reaches(value)).None? ==> forall c | c in criteria :: value < c.threshold
    ensures FirstIndex(sorted, Reaches(value)).Some? ==>
      var c := sorted[FirstIndex(sorted, Reaches(value)).value];
      && c in criteria && c.threshold <= value
      && forall d | d in criteria && d.threshold <= value :: d.threshold <= c.threshold
  {
    SameElements(criteria, sorted);
    match FirstIndex(sorted, Reaches(value))
    case None =>
      assert forall j | 0 <= j < |sorted| :: !Reaches(value)(sorted[j]);
    case Some(i) =>
      FirstReachedIsHighest(sorted, value, i);
  }

  lemma SameElements<T>(xs: seq<T>, ys: seq<T>)
    requires multiset(xs) == multiset(ys)
    ensures forall x :: x in xs <==> x in ys
  {
    forall x
      ensures x in xs <==> x in ys
    {
      assert x in xs <==> x in multiset(xs);
      assert x in ys <==> x in multiset(ys);
    }
  }

  /** In criteria sorted by falling threshold, the first one a value reaches
      has the highest threshold among those it reaches. */
  lemma FirstReachedIsHighest(sorted: seq<Criterion>, value: int, i: nat)
    requires SortedBy(sorted, NegThreshold) && FirstIndex(sorted, Reaches(value)) == Some(i)
    ensures forall j | 0 <= j < |sorted| && sorted[j].threshold <= value :: sorted[j].threshold <= sorted[i].threshold
  {
    forall k | 0 <= k < i
      ensures value < sorted[k].threshold
    {
      assert !Reaches(value)(sorted[k]);
    }
    forall a, b | 0 <= a < b < |sorted|
      ensures sorted[b].threshold <= sorted[a].threshold
    {
      assert NegThreshold(sorted[a]) <= NegThreshold(sorted[b]);
    }
    HighestAmongReached(sorted, value, i);
  }

  lemma HighestAmongReached(sorted: seq<Criterion>, value: int, i: nat)
    requires i < |sorted| && sorted[i].threshold <= value
    requires forall k | 0 <= k < i :: value < sorted[k].threshold
    requires forall a, b | 0 <= a < b < |sorted| :: sorted[b].threshold <= sorted[a].threshold
    ensures forall j | 0 <= j < |sorted| && sorted[j].threshold <= value :: sorted[j].threshold <= sorted[i].threshold
  {
    forall j | 0 <= j < |sorted| && sorted[j].threshold <= value
      ensures sorted[j].threshold <= sorted[i].threshold
    {
      if i < j {
        assert sorted[j].threshold <= sorted[i].threshold;
      }
    }
  }

  /** The value of the run of digits starting at `p`. */
  function RunValue(s: string, p: nat): nat
    requires p <= |s|
  {
    var n := DigitRun(s[p..]);
    assert forall i | 0 <= i < n :: s[p..p + n][i] == s[p..][i];
    DigitsValue(s[p..p + n])
  }

  /** `re.search(r'(\\d+)', s)` read as a number: the value of the first run
      of digits. */
  function FirstNumber(s: string): (r: Option<nat>)
    ensures r.None? <==> forall i | 0 <= i < |s| :: !IsDigit(s[i])
    ensures r.Some? ==> exists p | 0 <= p < |s| ::
      && IsDigit(s[p]) && (forall i | 0 <= i < p :: !IsDigit(s[i]))
      && r.value == RunValue(s, p)
  {
    match FirstIndex(s, IsDigit)
    case None => None
    case Some(p) => Some(RunValue(s, p))
  }

  /** `_evaluate_hours_range`: the first number of the content against the
      thresholds; no number scores 0. */
  function HoursScore(criteria: seq<Criterion>, content: string): (r: int)
    ensures (forall i | 0 <= i < |content| :: !IsDigit(content[i])) ==> r == 0
  {
    match FirstNumber(content)
    case None => 0
    case Some(v) => ThresholdScore(criteria, v)
  }

  const MonthsWord: string := "개월"

  /** The pattern `(\\d+)\\s*개월` matched at `p`: a run of digits, then
      whitespace, then the word for months; the number of months. */
  function MonthsAt(s: string, p: nat): (r: Option<nat>)
    ensures r.Some? ==> p < |s| && IsDigit(s[p])
  {
    if p >= |s| then None
    else
      var n := DigitRun(s[p..]);
      if n == 0 then None
      else
        var q := p + n;
        var gap := |s[q..]| - |StripStart(s[q..])|;
        if OccursAt(s, MonthsWord, q + gap) then Some(RunValue(s, p)) else None
  }

  /** `re.search`: the position of the leftmost match at or after `from`. */
  function FirstMonths(s: string, from: nat): (r: Option<nat>)
    ensures r.None? ==> forall p | from <= p :: MonthsAt(s, p).None?
    ensures r.Some? ==>
      && from <= r.value < |s| && MonthsAt(s, r.value).Some?
      && forall p | from <= p < r.value :: MonthsAt(s, p).None?
    decreases |s| - from
  {
    if from >= |s| then None
    else if MonthsAt(s, from).Some? then Some(from)
    else FirstMonths(s, from + 1)
  }

  /** `_evaluate_duration_based`: the months of the stripped content against
      the thresholds; a blank content or one without a number of months
      scores 0. */
  function DurationScore(criteria: seq<Criterion>, content: string): (r: int)
    ensures r != 0 ==> exists p :: MonthsAt(Strip(content), p).Some?
  {
    var c := Strip(content);
    if c == [] then 0
    else
      match FirstMonths(c, 0)
      case None => 0
      case Some(p) => ThresholdScore(criteria, MonthsAt(c, p).value)
  }

  /** A content in which the word for months never occurs scores 0. */
  lemma NoMonthsWordScoresZero(criteria: seq<Criterion>, content: string)
    requires forall k :: !OccursAt(Strip(content), MonthsWord, k)
    ensures DurationScore(criteria, content) == 0
  {
  }

  // ---------------------------------------------------------------------------
  // Counted certificates

  function StripAll(xs: seq<string>): (r: seq<string>)
    ensures |r| == |xs| && forall j | 0 <= j < |xs| :: r[j] == Strip(xs[j])
  {
    seq(|xs|, j requires 0 <= j < |xs| => Strip(xs[j]))
  }

  /** The applicant's certificates: the lower-cased, stripped content cut at
      commas, each piece stripped; none for a blank content. */
  function Certificates(content: string): seq<string> {
    var c := Strip(Lower(content));
    if c == [] then [] else StripAll(Split(c, ","))
  }

  /** A certificate whose known type occurs in the sub-rule's description. */
  function CertMatches(certTypes: map<string, string>, ruleCertType: string): string -> bool {
    (cert: string) => cert in certTypes && certTypes[cert] != [] && Contains(ruleCertType, certTypes[cert])
  }

  /** `min(count, max_items) * points`: a count of matching certificates
      scored by one sub-rule. */
  function Points(sub: Criterion, count: nat): (r: int)
    ensures sub.scorePerGrade >= 0 ==> 0 <= r
    ensures sub.scorePerGrade >= 0 && sub.maxItems.Some? ==> r <= sub.maxItems.value * sub.scorePerGrade
  {
    var counted := if sub.maxItems.Some? then Min(count, sub.maxItems.value) else count;
    MulBounds(counted, if sub.maxItems.Some? then sub.maxItems.value else counted, sub.scorePerGrade);
    counted * sub.scorePerGrade
  }

  /** One sub-rule's score over the applicant's certificates. */
  function SubRuleScore(sub: Criterion, certs: seq<string>, certTypes: map<string, string>): int {
    Points(sub, Count(certs, CertMatches(certTypes, sub.description)))
  }

  lemma MulBounds(a: nat, b: nat, c: int)
    requires a <= b
    ensures c >= 0 ==> 0 <= a * c <= b * c
  {
    if c >= 0 {
      assert b * c == a * c + (b - a) * c;
    }
  }

  function SubRuleTotal(subs: seq<Criterion>, certs: seq<string>, certTypes: map<string, string>): int {
    if subs == [] then 0
    else SubRuleTotal(subs[..|subs| - 1], certs, certTypes) + SubRuleScore(subs[|subs| - 1], certs, certTypes)
  }

  /** `min(total, score_weight)`, the total itself without a weight. */
  function Capped(total: int, weight: Option<int>): (r: int)
    ensures weight.None? ==> r == total
    ensures weight.Some? ==> r <= weight.value && r <= total && (r == total || r == weight.value)
  {
    match weight
    case None => total
    case Some(w) => Min(total, w)
  }

  /** `_evaluate_rule_based_count`, as a reference: the sub-rules' scores
      summed and capped at the rule's weight. */
  function RuleBasedCountScore(rule: Rule, content: string, certTypes: map<string, string>): int {
    Capped(SubRuleTotal(rule.criteria, Certificates(content), certTypes), rule.scoreWeight)
  }

  /** The inner loop of `_evaluate_rule_based_count`: the certificates of a
      matching type, counted one by one. */
  method CountMatching(certs: seq<string>, matches: string -> bool) returns (count: nat)
    ensures count == Count(certs, matches)
  {
    count := 0;
    var k := 0;
    while k < |certs|
      invariant 0 <= k <= |certs|
      invariant count == Count(certs[..k], matches)
    {
      CountSnoc(certs[..k], certs[k], matches);
      assert certs[..k + 1] == certs[..k] + [certs[k]];
      if matches(certs[k]) {
        count := count + 1;
      }
      k := k + 1;
    }
    assert certs[..k] == certs;
  }

  /** The loops of `_evaluate_rule_based_count`: for each sub-rule, count the
      certificates of a matching type, then add the capped count times the
      points; finally cap the total at the weight. */
  method EvaluateRuleBasedCount(rule: Rule, content: string, certTypes: map<string, string>) returns (score: int)
    ensures score == RuleBasedCountScore(rule, content, certTypes)
    ensures rule.scoreWeight.Some? ==> score <= rule.scoreWeight.value
  {
    var certs := Certificates(content);
    var subs := rule.criteria;
    var total := 0;
    var i := 0;
    while i < |subs|
      invariant 0 <= i <= |subs|
      invariant total == SubRuleTotal(subs[..i], certs, certTypes)
    {
      var count := CountMatching(certs, CertMatches(certTypes, subs[i].description));
      SubRuleTotalStep(subs, i, certs, certTypes);
      total := total + Points(subs[i], count);
      i := i + 1;
    }
    assert subs[..i] == subs;
    score := Capped(total, rule.scoreWeight);
  }

  lemma SubRuleTotalStep(subs: seq<Criterion>, i: nat, certs: seq<string>, certTypes: map<string, string>)
    requires i < |subs|
    ensures SubRuleTotal(subs[..i + 1], certs, certTypes) == SubRuleTotal(subs[..i], certs, certTypes) + SubRuleScore(subs[i], certs, certTypes)
  {
    assert subs[..i + 1][..i] == subs[..i];
  }

  lemma CountSnoc<T>(xs: seq<T>, x: T, p: T -> bool)
    ensures Count(xs + [x], p) == Count(xs, p) + (if p(x) then 1 else 0)
  {
    FilterSnoc(xs, x, p);
  }

  /** With non-negative points the score is never negative, unless the
      weight itself is. */
  lemma {:induction false} SubRuleTotalNonNegative(subs: seq<Criterion>, certs: seq<string>, certTypes: map<string, string>)
    requires forall j | 0 <= j < |subs| :: subs[j].scorePerGrade >= 0
    ensures SubRuleTotal(subs, certs, certTypes) >= 0
  {
    if subs != [] {
      SubRuleTotalNonNegative(subs[..|subs| - 1], certs, certTypes);
    }
  }

  /** A blank content holds no certificate and scores 0, whatever the rule. */
  lemma {:induction false} BlankContentCountsNothing(subs: seq<Criterion>, content: string, certTypes: map<string, string>)
    requires Strip(Lower(content)) == []
    ensures SubRuleTotal(subs, Certificates(content), certTypes) == 0
  {
    if subs != [] {
      BlankContentCountsNothing(subs[..|subs| - 1], content, certTypes);
    }
  }

  // ---------------------------------------------------------------------------
  // Score ranges and categories

  /** The applicant's tokens: the content stripped, lower-cased and split
      on whitespace. */
  function ApplicantTokens(content: string): seq<string> {
    Words(Lower(Strip(content)))
  }

  /** Every token is among the criterion's lower-cased description tokens. */
  predicate HasAllTokens(tokens: seq<string>, c: Criterion) {
    forall t | t in tokens :: t in Words(Lower(c.description))
  }

  function Covers(tokens: seq<string>): Criterion -> bool {
    (c: Criterion) => HasAllTokens(tokens, c)
  }

  /** `_evaluate_score_range`: the first criterion whose tokens include all
      of the applicant's (stripped, lower-cased) tokens; a blank content
      scores 0. */
  function ScoreRangeScore(criteria: seq<Criterion>, content: string): (r: int)
    ensures Strip(content) == [] ==> r == 0
    ensures Strip(content) != [] ==> r == ScoreOfFirst(criteria, Covers(ApplicantTokens(content)))
    ensures Strip(content) != [] ==>
      forall j: nat | FirstCovering(criteria, ApplicantTokens(content), j) :: r == criteria[j].scorePerGrade
    ensures NoneCovers(criteria, ApplicantTokens(content)) ==> r == 0
  {
    var c := Lower(Strip(content));
    FirstCoveringDecides(criteria, ApplicantTokens(content));
    if c == [] then 0 else ScoreOfFirst(criteria, Covers(Words(c)))
  }

  /** Criterion `j` is the first whose description holds every token. */
  predicate FirstCovering(criteria: seq<Criterion>, tokens: seq<string>, j: nat) {
    && j < |criteria|
    && HasAllTokens(tokens, criteria[j])
    && forall k | 0 <= k < j :: !HasAllTokens(tokens, criteria[k])
  }

  /** No criterion's description holds every token. */
  predicate NoneCovers(criteria: seq<Criterion>, tokens: seq<string>) {
    forall k | 0 <= k < |criteria| :: !HasAllTokens(tokens, criteria[k])
  }

  /** The first covering criterion's score is the score; with none, 0. */
  lemma FirstCoveringDecides(criteria: seq<Criterion>, tokens: seq<string>)
    ensures forall j: nat | FirstCovering(criteria, tokens, j) :: ScoreOfFirst(criteria, Covers(tokens)) == criteria[j].scorePerGrade
    ensures NoneCovers(criteria, tokens) ==> ScoreOfFirst(criteria, Covers(tokens)) == 0
  {
    var p := Covers(tokens);
    forall j: nat | FirstCovering(criteria, tokens, j)
      ensures ScoreOfFirst(criteria, p) == criteria[j].scorePerGrade
    {
      ScoreOfFirstAt(criteria, p, j);
    }
    if NoneCovers(criteria, tokens) {
      assert forall k | 0 <= k < |criteria| :: !p(criteria[k]);
    }
  }

  /** The criterion whose description's tokens contain every applicant token,
      when some token is missing from each earlier criterion's, decides the
      score of a non-blank content. */
  lemma ScoreRangePicksFirstCovering(criteria: seq<Criterion>, content: string, j: nat)
    requires Strip(content) != [] && j < |criteria|
    requires HasAllTokens(ApplicantTokens(content), criteria[j])
    requires forall k | 0 <= k < j :: !HasAllTokens(ApplicantTokens(content), criteria[k])
    ensures ScoreRangeScore(criteria, content) == criteria[j].scorePerGrade
  {
    ScoreOfFirstAt(criteria, Covers(ApplicantTokens(content)), j);
  }

  /** A content none of whose criteria has all its tokens scores 0. */
  lemma ScoreRangeWithoutCoverIsZero(criteria: seq<Criterion>, content: string)
    requires forall k | 0 <= k < |criteria| :: !HasAllTokens(ApplicantTokens(content), criteria[k])
    ensures ScoreRangeScore(criteria, content) == 0
  {
    var p := Covers(ApplicantTokens(content));
    assert forall k | 0 <= k < |criteria| :: !p(criteria[k]);
  }

  const CategorySeparator: string := "·"

  /** The category is the criterion's description or one of its `·` parts. */
  function CategoryMatches(category: string): Criterion -> bool {
    (c: Criterion) => category == c.description || category in Split(c.description, CategorySeparator)
  }

  /** The criterion's stripped description occurs in the content. */
  function DescribedIn(content: string): Criterion -> bool {
    (c: Criterion) => Contains(content, Strip(c.description))
  }

  const EducationWord: string := "학력"

  /** `_evaluate_category`. With a selected category, the first criterion it
      matches. Without one, an education item looks the university of the
      content up among the groups and matches the group, any other item takes
      the first criterion described in the content. Nothing found scores 0. */
  function CategoryScore(rule: Rule, item: AnswerItem, o: Oracles): int {
    if item.selectedCategory != [] then ScoreOfFirst(rule.criteria, CategoryMatches(item.selectedCategory))
    else if Contains(rule.name, EducationWord) then
      match o.university(item.resumeContent)
      case Some(u) =>
        if u in o.universityGroups && o.universityGroups[u] != [] then
          ScoreOfFirst(rule.criteria, CategoryMatches(o.universityGroups[u]))
        else 0
      case None => 0
    else ScoreOfFirst(rule.criteria, DescribedIn(item.resumeContent))
  }

  /** A selected category decides alone: the content, the university
      pattern and the knowledge bases do not matter. */
  lemma SelectedCategoryDecides(rule: Rule, item: AnswerItem, o: Oracles, content: string, o': Oracles)
    requires item.selectedCategory != []
    ensures CategoryScore(rule, item, o) == CategoryScore(rule, item.(resumeContent := content), o')
  {
  }

  /** A category listed as one `·` part of a description gets that
      criterion's score when no earlier criterion matches. */
  lemma CategoryPartMatches(rule: Rule, item: AnswerItem, o: Oracles, j: nat, before: string, after: string)
    requires j < |rule.criteria| && item.selectedCategory != []
    requires CategorySeparator[0] !in before && CategorySeparator[0] !in item.selectedCategory
    requires rule.criteria[j].description == before + CategorySeparator + item.selectedCategory
    requires forall k | 0 <= k < j :: !CategoryMatches(item.selectedCategory)(rule.criteria[k])
    ensures CategoryScore(rule, item, o) == rule.criteria[j].scorePerGrade
  {
    SplitJoin(before, CategorySeparator, item.selectedCategory);
    SplitWithoutSeparator(item.selectedCategory, CategorySeparator);
    assert CategoryMatches(item.selectedCategory)(rule.criteria[j]);
  }

  // ---------------------------------------------------------------------------
  // The whole evaluation

  /** One rule's score for the answer found; an unknown type scores 0. */
  function ScoreRule(rule: Rule, item: AnswerItem, o: Oracles): int {
    match rule.ruleType
    case Category => CategoryScore(rule, item, o)
    case NumericRange => o.floatRule(rule, item)
    case HoursRange => HoursScore(rule.criteria, item.resumeContent)
    case DurationBased => DurationScore(rule.criteria, item.resumeContent)
    case CareerSimilarityBased => o.floatRule(rule, item)
    case RuleBasedCount => RuleBasedCountScore(rule, item.resumeContent, o.certTypes)
    case ScoreRange => ScoreRangeScore(rule.criteria, item.resumeContent)
    case OtherType(_) => 0
  }

  /** The rule's score, 0 when the applicant did not answer its item. */
  function RuleResult(rule: Rule, answers: seq<AnswerItem>, o: Oracles): int {
    match FindAnswerItem(rule.id, answers)
    case None => 0
    case Some(item) => ScoreRule(rule, item, o)
  }

  /** The `results_by_id` loop for any scoring: each rule's score stored
      under its id in rule order, so a later rule with the same id
      overwrites an earlier one. */
  function ScoresById(rules: seq<Rule>, score: Rule -> int): map<nat, int> {
    if rules == [] then map[]
    else ScoresById(rules[..|rules| - 1], score)[rules[|rules| - 1].id := score(rules[|rules| - 1])]
  }

  /** Every id of a rule is a key, and every key holds the score of a rule
      with that id. */
  lemma {:induction false} ScoresByIdKeys(rules: seq<Rule>, score: Rule -> int)
    ensures forall id :: id in ScoresById(rules, score) <==> exists j | 0 <= j < |rules| :: rules[j].id == id
    ensures forall id | id in ScoresById(rules, score) ::
      exists j | 0 <= j < |rules| :: rules[j].id == id && ScoresById(rules, score)[id] == score(rules[j])
  {
    if rules != [] {
      var n := |rules| - 1;
      var init := rules[..n];
      ScoresByIdKeys(init, score);
      assert forall j | 0 <= j < n :: init[j] == rules[j];
    }
  }

  /** A rule's id holds that rule's score unless a later rule shares the
      id; with distinct ids, every rule's score is kept. */
  lemma {:induction false} ScoresByIdKeepsRule(rules: seq<Rule>, score: Rule -> int, j: nat)
    requires j < |rules|
    requires forall b | j < b < |rules| :: rules[b].id != rules[j].id
    ensures rules[j].id in ScoresById(rules, score)
    ensures ScoresById(rules, score)[rules[j].id] == score(rules[j])
  {
    var n := |rules| - 1;
    var init := rules[..n];
    if j < n {
      assert init[j] == rules[j];
      assert rules[n].id != rules[j].id;
      assert forall b | j < b < |init| :: init[b] == rules[b];
      ScoresByIdKeepsRule(init, score, j);
    }
  }

  function RuleResults(answers: seq<AnswerItem>, o: Oracles): Rule -> int {
    (rule: Rule) => RuleResult(rule, answers, o)
  }

  /** `evaluate`: a score under every rule's id, 0 for an item the applicant
      did not answer. */
  function Evaluate(rules: seq<Rule>, answers: seq<AnswerItem>, o: Oracles): (r: map<nat, int>)
    ensures forall id :: id in r <==> exists j | 0 <= j < |rules| :: rules[j].id == id
    ensures forall id | id in r :: (forall j | 0 <= j < |answers| :: answers[j].resumeItemId != id) ==> r[id] == 0
  {
    ScoresByIdKeys(rules, RuleResults(answers, o));
    ScoresById(rules, RuleResults(answers, o))
  }

  /** With no later rule sharing its id, a rule's score is the one reported
      under its id. */
  lemma EvaluateScoresEveryRule(rules: seq<Rule>, answers: seq<AnswerItem>, o: Oracles, j: nat)
    requires j < |rules|
    requires forall b | j < b < |rules| :: rules[b].id != rules[j].id
    ensures rules[j].id in Evaluate(rules, answers, o)
    ensures Evaluate(rules, answers, o)[rules[j].id] == RuleResult(rules[j], answers, o)
  {
    ScoresByIdKeepsRule(rules, RuleResults(answers, o), j);
  }

  // ---------------------------------------------------------------------------
  // The report's resume part

  /** The content the report carries: the answer's content, or its
      category when the content is empty. */
  function ReportContent(a: AnswerItem): string {
    if a.resumeContent != [] then a.resumeContent else a.selectedCategory
  }

  /** `scores.get(id, 0)`. */
  function ScoreFor(scores: map<nat, int>, id: nat): int {
    if id in scores then scores[id] else 0
  }

  /** The `resumeEvaluations` of the report: one entry per submitted answer,
      in order, scored by its item's quantitative score or 0. */
  function Report(answers: seq<AnswerItem>, scores: map<nat, int>): (r: seq<EvaluationIngestion.ResumeEvaluation>)
    ensures |r| == |answers|
    ensures forall j | 0 <= j < |r| ::
      && r[j].resumeItemId == answers[j].resumeItemId
      && r[j].resumeItemName == Some(answers[j].resumeItemName)
      && r[j].resumeContent == Some(ReportContent(answers[j]))
      && r[j].score == Some(ScoreFor(scores, answers[j].resumeItemId))
  {
    seq(|answers|, j requires 0 <= j < |answers| =>
      EvaluationIngestion.ResumeEvaluation(
        answers[j].resumeItemId, Some(answers[j].resumeItemName), Some(ReportContent(answers[j])),
        Some(ScoreFor(scores, answers[j].resumeItemId))))
  }

  /** The quantitative scores of the submitted answers, summed in order. */
  function AnswerTotal(answers: seq<AnswerItem>, scores: map<nat, int>): int {
    if answers == [] then 0
    else AnswerTotal(answers[..|answers| - 1], scores) + ScoreFor(scores, answers[|answers| - 1].resumeItemId)
  }

  /** The backend's total of the report is the sum of the answers'
      quantitative scores: no score is sent as null. */
  lemma {:induction false} ReportTotal(answers: seq<AnswerItem>, scores: map<nat, int>)
    ensures EvaluationIngestion.ScoreSum(Report(answers, scores)) == AnswerTotal(answers, scores)
  {
    if answers != [] {
      var n := |answers| - 1;
      ReportTotal(answers[..n], scores);
      assert Report(answers, scores)[..n] == Report(answers[..n], scores);
    }
  }
}

=== FILE: postings.dfy ===
/** The job-posting side of the backend's domain: the posting entity, its
    resume items and cover-letter questions with their grading criteria, and
    the enumerations they use. Instants (`LocalDateTime`) are seconds on the
    server's local timeline. */
module Postings {
  import opened Wrappers

  /** A `LocalDateTime`, as seconds on the server's local timeline. */
  type Instant = int

  const SecondsPerDay: int := 86400

  /** The instant `LocalDate.atStartOfDay()` yields for day number `day`. */
  function StartOfDay(day: int): Instant {
    day * SecondsPerDay
  }

  /** The day `LocalDateTime.toLocalDate()` keeps of an instant (floor division). */
  function DayOf(t: Instant): int {
    t / SecondsPerDay
  }

  /** The four posting states, in the order the enum declares them. */
  datatype PostingStatus = Scheduled | InProgress | Closed | EvaluationComplete {
    /** The enum constant's name, as it travels over JSON. */
    function Name(): string {
      match this
      case Scheduled => "SCHEDULED"
      case InProgress => "IN_PROGRESS"
      case Closed => "CLOSED"
      case EvaluationComplete => "EVALUATION_COMPLETE"
    }
  }

  datatype EmploymentType = FullTime | PartTime | Contract | Internship | Freelance {
    function Name(): string {
      match this
      case FullTime => "FULL_TIME"
      case PartTime => "PART_TIME"
      case Contract => "CONTRACT"
      case Internship => "INTERNSHIP"
      case Freelance => "FREELANCE"
    }
  }

  datatype Grade = Excellent | Good | Normal | Poor

  datatype ResumeItemType = Number | Date | File | Text

  /** The three optional date boundaries of a posting. */
  datatype PostingDates = PostingDates(
    applicationStart: Option<Instant>,
    applicationEnd: Option<Instant>,
    evaluationEnd: Option<Instant>)

  datatype ResumeItemCriterion = ResumeItemCriterion(
    grade: Option<Grade>,
    description: Option<string>,
    scorePerGrade: Option<int>)

  datatype ResumeItem = ResumeItem(
    id: nat,
    name: string,
    itemType: Option<ResumeItemType>,
    isRequired: Option<bool>,
    maxScore: Option<int>,
    criteria: seq<ResumeItemCriterion>)

  datatype CriterionDetail = CriterionDetail(
    grade: Option<Grade>,
    description: Option<string>,
    scorePerGrade: Option<int>)

  datatype CoverLetterCriterion = CoverLetterCriterion(
    name: string,
    overallDescription: Option<string>,
    details: seq<CriterionDetail>)

  datatype CoverLetterQuestion = CoverLetterQuestion(
    id: nat,
    content: string,
    isRequired: Option<bool>,
    maxCharacters: Option<int>,
    criteria: seq<CoverLetterCriterion>)

  /** The posting entity. The collections are `Option` because the entity's
      lazily loaded lists may be null when read back. */
  datatype JobPosting = JobPosting(
    id: nat,
    title: string,
    jobRole: Option<string>,
    employmentType: Option<EmploymentType>,
    dates: PostingDates,
    totalScore: Option<int>,
    resumeScoreWeight: Option<int>,
    coverLetterScoreWeight: Option<int>,
    passingScore: Option<int>,
    status: Option<PostingStatus>,
    companyId: nat,
    companyName: string,
    resumeItems: Option<seq<ResumeItem>>,
    coverLetterQuestions: Option<seq<CoverLetterQuestion>>,
    applications: Option<seq<nat>>)
}

=== FILE: review_panel.dfy ===
/** The review screen's side panel: the applications of a posting grouped
    by status, the count of evaluated ones in the header, and the resume
    score of the selected application. Statuses arrive as the backend
    enum's names, or as any other string. */
module ReviewPanel {
  import opened Wrappers
  import opened Seqs
  import opened ApplicationStatuses
  import EvaluationIngestion

  datatype ReviewApplication = ReviewApplication(applicantName: string, status: string)

  function HasStatus(st: ApplicationStatus): ReviewApplication -> bool {
    (a: ReviewApplication) => a.status == st.Name()
  }

  /** A status string that names no backend status. */
  function Unknown(a: ReviewApplication): bool {
    ValueOf(a.status).None?
  }

  datatype StatusGroups = StatusGroups(
    beforeEvaluation: seq<ReviewApplication>,
    inProgress: seq<ReviewApplication>,
    accepted: seq<ReviewApplication>,
    rejected: seq<ReviewApplication>,
    onHold: seq<ReviewApplication>)

  /** The group of one status. */
  function GroupOf(g: StatusGroups, st: ApplicationStatus): seq<ReviewApplication> {
    match st
    case BeforeEvaluation => g.beforeEvaluation
    case InProgress => g.inProgress
    case Accepted => g.accepted
    case Rejected => g.rejected
    case OnHold => g.onHold
  }

  function Size(g: StatusGroups): nat {
    |g.beforeEvaluation| + |g.inProgress| + |g.accepted| + |g.rejected| + |g.onHold|
  }

  /** `categorizedApplicants`: one filter per status, each keeping the
      applications' order. */
  function CategorizeByStatus(apps: seq<ReviewApplication>): (g: StatusGroups)
    ensures forall st: ApplicationStatus :: GroupOf(g, st) == Filter(apps, HasStatus(st))
  {
    StatusGroups(
      Filter(apps, HasStatus(BeforeEvaluation)),
      Filter(apps, HasStatus(InProgress)),
      Filter(apps, HasStatus(Accepted)),
      Filter(apps, HasStatus(Rejected)),
      Filter(apps, HasStatus(OnHold)))
  }

  /** Every application is in the group of its status, and in no other. */
  lemma GroupMembership(apps: seq<ReviewApplication>, a: ReviewApplication, st: ApplicationStatus)
    requires a in apps
    ensures a in GroupOf(CategorizeByStatus(apps), st) <==> ValueOf(a.status) == Some(st)
  {
    ValueOfName(st);
  }

  /** The groups and the applications with an unknown status together
      account for every application exactly once. */
  lemma {:induction false} GroupsAndUnknownCoverAll(apps: seq<ReviewApplication>)
    ensures Size(CategorizeByStatus(apps)) + Count(apps, Unknown) == |apps|
  {
    if apps != [] {
      var init, last := apps[..|apps| - 1], apps[|apps| - 1];
      assert apps == init + [last];
      GroupsAndUnknownCoverAll(init);
      FilterSnoc(init, last, HasStatus(BeforeEvaluation));
      FilterSnoc(init, last, HasStatus(InProgress));
      FilterSnoc(init, last, HasStatus(Accepted));
      FilterSnoc(init, last, HasStatus(Rejected));
      FilterSnoc(init, last, HasStatus(OnHold));
      FilterSnoc(init, last, Unknown);
      ExactlyOneGroup(last);
    }
  }

  function Indicator(b: bool): nat {
    if b then 1 else 0
  }

  /** An application matches exactly one status filter, or has an unknown status. */
  lemma ExactlyOneGroup(a: ReviewApplication)
    ensures Indicator(HasStatus(BeforeEvaluation)(a)) + Indicator(HasStatus(InProgress)(a)) + Indicator(HasStatus(Accepted)(a))
      + Indicator(HasStatus(Rejected)(a)) + Indicator(HasStatus(OnHold)(a)) + Indicator(Unknown(a)) == 1
  {
  }

  /** When every status is a backend status the five groups partition the
      applications. */
  lemma GroupsPartition(apps: seq<ReviewApplication>)
    requires forall j | 0 <= j < |apps| :: ValueOf(apps[j].status).Some?
    ensures Size(CategorizeByStatus(apps)) == |apps|
  {
    GroupsAndUnknownCoverAll(apps);
  }

  function IsEvaluated(a: ReviewApplication): bool {
    a.status != "BEFORE_EVALUATION" && a.status != "IN_PROGRESS"
  }

  /** The header's "evaluated" count: applications neither before nor in
      evaluation. */
  function EvaluatedCount(apps: seq<ReviewApplication>): (n: nat)
    ensures n <= |apps|
  {
    Count(apps, IsEvaluated)
  }

  /** The count is everything outside the first two groups: the decided and
      held applications, and those with an unknown status. */
  lemma {:induction false} EvaluatedCountOutsideFirstGroups(apps: seq<ReviewApplication>)
    ensures EvaluatedCount(apps) + |CategorizeByStatus(apps).beforeEvaluation| + |CategorizeByStatus(apps).inProgress| == |apps|
  {
    if apps != [] {
      var init, last := apps[..|apps| - 1], apps[|apps| - 1];
      assert apps == init + [last];
      EvaluatedCountOutsideFirstGroups(init);
      FilterSnoc(init, last, HasStatus(BeforeEvaluation));
      FilterSnoc(init, last, HasStatus(InProgress));
      FilterSnoc(init, last, IsEvaluated);
    }
  }

  /** With backend statuses only, the count is the size of the accepted,
      rejected and on-hold groups. */
  lemma EvaluatedAreDecidedOrHeld(apps: seq<ReviewApplication>)
    requires forall j | 0 <= j < |apps| :: ValueOf(apps[j].status).Some?
    ensures var g := CategorizeByStatus(apps);
      EvaluatedCount(apps) == |g.accepted| + |g.rejected| + |g.onHold|
  {
    EvaluatedCountOutsideFirstGroups(apps);
    GroupsPartition(apps);
  }

  // ---------------------------------------------------------------------------
  // Scores of the selected application

  /** A resume answer as the screen receives it; either score may be null. */
  datatype ReviewAnswer = ReviewAnswer(resumeScore: Option<int>, maxScore: Option<int>)

  /** `x || 0` on a number that may be null; zero stays zero. */
  function OrZero(x: Option<int>): int {
    x.GetOr(0)
  }

  function ScoreOf(a: ReviewAnswer): int {
    OrZero(a.resumeScore)
  }

  function MaxOf(a: ReviewAnswer): int {
    OrZero(a.maxScore)
  }

  /** The `reduce` over the answers, in order. */
  function SumOf(answers: seq<ReviewAnswer>, f: ReviewAnswer -> int): int {
    if answers == [] then 0 else SumOf(answers[..|answers| - 1], f) + f(answers[|answers| - 1])
  }

  /** `actualTotalScore`; no selected application gives 0. */
  function ActualTotalScore(selected: Option<seq<ReviewAnswer>>): (r: int)
    ensures selected.None? ==> r == 0
  {
    match selected
    case None => 0
    case Some(answers) => SumOf(answers, ScoreOf)
  }

  /** `actualMaxScore`; no selected application gives 0. */
  function ActualMaxScore(selected: Option<seq<ReviewAnswer>>): (r: int)
    ensures selected.None? ==> r == 0
  {
    match selected
    case None => 0
    case Some(answers) => SumOf(answers, MaxOf)
  }

  /** Answers that carry a report's scores one for one, in report order, each
      with its item's maximum: what the screen shows when every answer
      received the score of exactly one of the report's evaluations. */
  function AnswersOf(evals: seq<EvaluationIngestion.ResumeEvaluation>, maxScores: seq<Option<int>>): (r: seq<ReviewAnswer>)
    requires |maxScores| == |evals|
    ensures |r| == |evals|
    ensures forall j | 0 <= j < |r| :: r[j].resumeScore == evals[j].score && r[j].maxScore == maxScores[j]
  {
    seq(|evals|, j requires 0 <= j < |evals| => ReviewAnswer(evals[j].score, maxScores[j]))
  }

  /** Over answers carrying a report's scores one for one, the screen's total
      is the total score the backend computes for that report: both read a
      null score as zero. The answers as stored are not reconstructed here. */
  lemma {:induction false} TotalAgreesWithIngestion(evals: seq<EvaluationIngestion.ResumeEvaluation>, maxScores: seq<Option<int>>)
    requires |maxScores| == |evals|
    ensures ActualTotalScore(Some(AnswersOf(evals, maxScores))) == EvaluationIngestion.ScoreSum(evals)
  {
    if evals != [] {
      var n := |evals| - 1;
      TotalAgreesWithIngestion(evals[..n], maxScores[..n]);
      assert AnswersOf(evals, maxScores)[..n] == AnswersOf(evals[..n], maxScores[..n]);
    }
  }

  /** When no answer scores above its maximum, neither does the total. */
  lemma {:induction false} TotalWithinMax(answers: seq<ReviewAnswer>)
    requires forall j | 0 <= j < |answers| :: ScoreOf(answers[j]) <= MaxOf(answers[j])
    ensures ActualTotalScore(Some(answers)) <= ActualMaxScore(Some(answers))
  {
    if answers != [] {
      TotalWithinMax(answers[..|answers| - 1]);
    }
  }
}

=== FILE: sentence_refiner.dfy ===
/** The asset builder's `refine_with_original`: the language model's clue
    for a criterion is matched back against the example text, so that the
    stored example sentence is always a sentence of the original and never
    the model's paraphrase. */
module SentenceRefiner {
  import opened Wrappers
  import opened Seqs
  import opened Text
  import opened Numbers

  // ---------------------------------------------------------------------------
  // Cleaning the clue

  /** The phrase ("as follows") a model uses to introduce its answer. */
  const Marker: string := "다음과 같습니다"

  predicate IsColonOrSpace(c: char) {
    c == ':' || IsSpace(c)
  }

  /** Length of the run of `[:\s]` that starts `s`. */
  function ColonSpaceRun(s: string): (n: nat)
    ensures n <= |s|
    ensures forall i | 0 <= i < n :: IsColonOrSpace(s[i])
    ensures n == |s| || !IsColonOrSpace(s[n])
  {
    if s == [] || !IsColonOrSpace(s[0]) then 0 else 1 + ColonSpaceRun(s[1..])
  }

  /** `re.sub(r'.*?' + marker + r'[:\s]*', '', s, flags=re.DOTALL)`: each
      match runs from where the previous one ended through the next marker
      and the colons and whitespace after it. What is left is a suffix of
      the text without the marker, and the part removed holds a marker
      whenever the text does. */
  function DropThrough(s: string, marker: string): (r: string)
    requires marker != []
    ensures |r| <= |s| && r == s[|s| - |r|..]
    ensures !Contains(r, marker)
    ensures !Contains(s, marker) ==> r == s
    ensures Contains(s, marker) ==> Contains(s[..|s| - |r|], marker)
    decreases |s|
  {
    ContainsIffIndexOf(s, marker);
    match IndexOf(s, marker, 0)
    case None => s
    case Some(k) =>
      var rest := AfterMarker(s, marker, k);
      var r := DropThrough(rest, marker);
      PrefixKeepsOccurrence(s, marker, k, |s| - |r|);
      r
  }

  /** What the match at `k` leaves: the text after the marker and the
      colons and whitespace that follow it, a suffix of `s`. */
  function AfterMarker(s: string, marker: string, k: nat): (rest: string)
    requires marker != [] && OccursAt(s, marker, k)
    ensures |rest| <= |s| - k - |marker| && rest == s[|s| - |rest|..]
  {
    var after := s[k + |marker|..];
    after[ColonSpaceRun(after)..]
  }

  lemma PrefixKeepsOccurrence(s: string, pat: string, k: nat, n: nat)
    requires OccursAt(s, pat, k) && k + |pat| <= n <= |s|
    ensures Contains(s[..n], pat)
  {
    assert s[..n][k..k + |pat|] == s[k..k + |pat|];
    assert OccursAt(s[..n], pat, k);
  }

  /** The preamble a model writes before its answer, dropped. */
  function DropPreamble(s: string): (r: string)
    ensures |r| <= |s| && r == s[|s| - |r|..] && !Contains(r, Marker)
    ensures !Contains(s, Marker) ==> r == s
  {
    DropThrough(s, Marker)
  }

  predicate IsQuote(c: char) {
    c == '"' || c == '“'
  }

  function NotQuote(c: char): bool {
    !IsQuote(c)
  }

  /** The clue as matched: preamble dropped, quotes removed, stripped. */
  function CleanClue(generated: string): (r: string)
    ensures forall i | 0 <= i < |r| :: !IsQuote(r[i])
    ensures r == [] || (!IsSpace(r[0]) && !IsSpace(r[|r| - 1]))
  {
    Strip(Filter(DropPreamble(generated), NotQuote))
  }

  // ---------------------------------------------------------------------------
  // Cutting the original into sentences

  predicate IsTerminator(c: char) {
    c == '.' || c == '!' || c == '?'
  }

  /** `(?<=[.!?])\s+` can start at `k`: whitespace right after a terminator. */
  predicate BreaksAt(s: string, k: int) {
    0 < k < |s| && IsTerminator(s[k - 1]) && IsSpace(s[k])
  }

  function FirstBreak(s: string, from: nat): (r: Option<nat>)
    ensures r.Some? ==> from <= r.value && BreaksAt(s, r.value) && forall k | from <= k < r.value :: !BreaksAt(s, k)
    ensures r.None? ==> forall k | from <= k :: !BreaksAt(s, k)
    decreases |s| - from
  {
    if from >= |s| then None
    else if BreaksAt(s, from) then Some(from)
    else FirstBreak(s, from + 1)
  }

  lemma ContainsInSuffix(s: string, n: nat, x: string)
    requires n <= |s| && Contains(s[n..], x)
    ensures Contains(s, x)
  {
    var k :| 0 <= k <= |s[n..]| - |x| && OccursAt(s[n..], x, k);
    assert s[n + k..n + k + |x|] == s[n..][k..k + |x|];
    assert OccursAt(s, x, n + k);
  }

  /** A sentence as `re.split` cuts it from `s`: it occurs in `s` and holds
      no break. */
  predicate IsPieceOf(s: string, piece: string) {
    Contains(s, piece) && forall k | 0 <= k < |piece| :: !BreaksAt(piece, k)
  }

  predicate EndsSentence(piece: string) {
    piece != [] && IsTerminator(piece[|piece| - 1])
  }

  /** `re.split(r'(?<=[.!?])\s+', text)`: the text cut at every whitespace
      run that follows a terminator, the runs dropped. Every piece occurs in
      the text and holds no such break; all pieces but the last end with a
      terminator. */
  function Sentences(s: string): (r: seq<string>)
    ensures |r| >= 1
    ensures forall j | 0 <= j < |r| :: IsPieceOf(s, r[j])
    ensures forall j | 0 <= j < |r| - 1 :: EndsSentence(r[j])
    decreases |s|
  {
    match FirstBreak(s, 0)
    case None =>
      WholeIsPiece(s);
      [s]
    case Some(k) =>
      var rest := AfterBreak(s, k);
      var tail := Sentences(rest);
      HeadIsPiece(s, k);
      forall j | 0 <= j < |tail|
        ensures IsPieceOf(s, tail[j])
      {
        ContainsInSuffix(s, |s| - |rest|, tail[j]);
      }
      [s[..k]] + tail
  }

  lemma WholeIsPiece(s: string)
    requires FirstBreak(s, 0).None?
    ensures IsPieceOf(s, s)
  {
    assert OccursAt(s, s, 0);
  }

  /** The text after the break at `k` and its whitespace run: a strictly
      shorter suffix. */
  function AfterBreak(s: string, k: nat): (rest: string)
    requires BreaksAt(s, k)
    ensures |rest| < |s| && rest == s[|s| - |rest|..]
  {
    StripStart(s[k..])
  }

  /** The text before the first break is a sentence ending in a terminator. */
  lemma HeadIsPiece(s: string, k: nat)
    requires FirstBreak(s, 0) == Some(k)
    ensures IsPieceOf(s, s[..k]) && EndsSentence(s[..k])
  {
    var head := s[..k];
    assert OccursAt(s, head, 0);
    forall i | 0 <= i < |head|
      ensures !BreaksAt(head, i)
    {
      if BreaksAt(head, i) {
        assert BreaksAt(s, i);
      }
    }
  }

  // ---------------------------------------------------------------------------
  // Matching

  /** `' '.join(key_phrases[:5])`: the clue's first five words. */
  function Phrase(words: seq<string>): string {
    Join(words[..Min(5, |words|)], " ")
  }

  function HasPhrase(phrase: string): string -> bool {
    (sentence: string) => Contains(sentence, phrase)
  }

  function InSentence(sentence: string): string -> bool {
    (w: string) => Contains(sentence, w)
  }

  /** How many of the clue's words (with repetitions) occur in the sentence. */
  function MatchCount(sentence: string, words: seq<string>): nat {
    Count(words, InSentence(sentence))
  }

  /** Every sentence's match count, in order. */
  function Counts(sentences: seq<string>, words: seq<string>): (r: seq<nat>)
    ensures |r| == |sentences| && forall i | 0 <= i < |r| :: r[i] == MatchCount(sentences[i], words)
  {
    seq(|sentences|, i requires 0 <= i < |sentences| => MatchCount(sentences[i], words))
  }

  /** `match_count / len(key_phrases) > 0.5`, on integers. */
  predicate Qualifies(count: nat, wordCount: nat) {
    2 * count > wordCount
  }

  datatype Pick = Pick(index: Option<nat>, count: nat)

  /** The fuzzy loop over the sentences' counts: the first sentence whose
      count beats every earlier qualifying sentence's. The pick qualifies,
      no qualifying sentence has a higher count, and every earlier
      qualifying one a lower count: a tie keeps the earlier sentence. */
  function BestMatch(counts: seq<nat>, wordCount: nat): (p: Pick)
    ensures p.index.None? <==> forall i | 0 <= i < |counts| :: !Qualifies(counts[i], wordCount)
    ensures p.index.None? ==> p.count == 0
    ensures p.index.Some? ==>
      && p.index.value < |counts|
      && Qualifies(counts[p.index.value], wordCount)
      && p.count == counts[p.index.value]
      && (forall i | 0 <= i < |counts| && Qualifies(counts[i], wordCount) :: counts[i] <= p.count)
      && (forall i | 0 <= i < p.index.value && Qualifies(counts[i], wordCount) :: counts[i] < p.count)
  {
    if counts == [] then Pick(None, 0)
    else
      var n := |counts| - 1;
      var p := BestMatch(counts[..n], wordCount);
      assert forall i | 0 <= i < n :: counts[..n][i] == counts[i];
      if counts[n] > p.count && Qualifies(counts[n], wordCount) then Pick(Some(n), counts[n]) else p
  }

  const MinimumWords: nat := 3

  /** The matching of `refine_with_original` on the clue's words and the
      original's sentences: nothing for fewer than three words; otherwise the
      first sentence holding the opening phrase, else the best fuzzy match,
      else nothing; the sentence is stripped. */
  function Choose(words: seq<string>, sentences: seq<string>): (r: string)
    ensures |words| < MinimumWords ==> r == []
    ensures r != [] ==> exists j | 0 <= j < |sentences| :: r == Strip(sentences[j])
  {
    if |words| < MinimumWords then []
    else
      match FirstIndex(sentences, HasPhrase(Phrase(words)))
      case Some(j) => Strip(sentences[j])
      case None =>
        match BestMatch(Counts(sentences, words), |words|).index
        case None => []
        case Some(j) => Strip(sentences[j])
  }

  /** `refine_with_original`: the clue cleaned and cut into words, the
      original cut into sentences. Whatever it returns is empty or one of the
      original's sentences, stripped. */
  function Refine(generated: string, original: string): (r: string)
    ensures |Words(CleanClue(generated))| < MinimumWords ==> r == []
    ensures r != [] ==> exists j | 0 <= j < |Sentences(original)| :: r == Strip(Sentences(original)[j])
  {
    var words := Words(CleanClue(generated));
    var sentences := Sentences(original);
    Choose(words, sentences)
  }

  /** The first sentence holding the opening phrase wins, whatever the
      fuzzy scores. */
  lemma PhraseMatchWins(words: seq<string>, sentences: seq<string>, j: nat)
    requires |words| >= MinimumWords
    requires j < |sentences| && Contains(sentences[j], Phrase(words))
    requires forall i | 0 <= i < j :: !Contains(sentences[i], Phrase(words))
    ensures Choose(words, sentences) == Strip(sentences[j])
  {
    var phrase := Phrase(words);
    assert HasPhrase(phrase)(sentences[j]);
    assert forall i | 0 <= i < j :: !HasPhrase(phrase)(sentences[i]);
    assert FirstIndex(sentences, HasPhrase(phrase)) == Some(j);
  }

  /** A sentence matching more than half of the clue's words holds a word,
      so it is not blank. */
  lemma QualifyingSentenceNotBlank(sentence: string, words: seq<string>)
    requires forall j | 0 <= j < |words| :: IsWord(words[j])
    requires Qualifies(MatchCount(sentence, words), |words|)
    ensures Strip(sentence) != []
  {
    var w := Filter(words, InSentence(sentence))[0];
    assert w in words && Contains(sentence, w);
    var k :| 0 <= k <= |sentence| - |w| && OccursAt(sentence, w, k);
    assert sentence[k] == w[0];
    StripEmptyIffAllSpace(sentence);
  }

  /** Without a phrase match the fuzzy fallback decides: nothing exactly
      when no sentence matches more than half of the words, otherwise the
      sentence of the best count, the earliest among equals. */
  lemma FuzzyFallback(words: seq<string>, sentences: seq<string>)
    requires |words| >= MinimumWords && forall j | 0 <= j < |words| :: IsWord(words[j])
    requires forall i | 0 <= i < |sentences| :: !Contains(sentences[i], Phrase(words))
    ensures var counts := Counts(sentences, words);
      && (Choose(words, sentences) == [] <==> forall i | 0 <= i < |sentences| :: !Qualifies(counts[i], |words|))
      && (Choose(words, sentences) != [] ==> exists j | 0 <= j < |sentences| ::
            && Choose(words, sentences) == Strip(sentences[j])
            && Qualifies(counts[j], |words|)
            && (forall i | 0 <= i < |sentences| && Qualifies(counts[i], |words|) :: counts[i] <= counts[j])
            && (forall i | 0 <= i < j && Qualifies(counts[i], |words|) :: counts[i] < counts[j]))
  {
    var counts := Counts(sentences, words);
    assert forall i | 0 <= i < |sentences| :: !HasPhrase(Phrase(words))(sentences[i]);
    var pick := BestMatch(counts, |words|);
    if pick.index.Some? {
      QualifyingSentenceNotBlank(sentences[pick.index.value], words);
    }
  }

  /** A non-empty refinement is one of the original's sentences, stripped. */
  lemma RefinedIsOriginal(generated: string, original: string)
    requires Refine(generated, original) != []
    ensures exists j | 0 <= j < |Sentences(original)| :: Refine(generated, original) == Strip(Sentences(original)[j])
  {
  }
}

=== FILE: seqs.dfy ===
/** Searches and counts over sequences, shared by the repository lookups of
    the backend model and the list handling of the frontend and pipeline
    models. Every search scans in sequence order, as `stream().findFirst()`,
    `Array.find` and Python's `next(...)` do. */
module Seqs {
  import opened Wrappers

  /** Position of the first element satisfying `p`. */
  function FirstIndex<T>(xs: seq<T>, p: T -> bool): (r: Option<nat>)
    ensures r.Some? ==> r.value < |xs| && p(xs[r.value]) && forall j | 0 <= j < r.value :: !p(xs[j])
    ensures r.None? <==> forall j | 0 <= j < |xs| :: !p(xs[j])
  {
    if xs == [] then None
    else if p(xs[0]) then Some(0)
    else
      match FirstIndex(xs[1..], p)
      case None => None
      case Some(k) => Some(k + 1)
  }

  /** Position of the last element satisfying `p`. */
  function LastIndex<T>(xs: seq<T>, p: T -> bool): (r: Option<nat>)
    ensures r.Some? ==> r.value < |xs| && p(xs[r.value]) && forall j | r.value < j < |xs| :: !p(xs[j])
    ensures r.None? <==> forall j | 0 <= j < |xs| :: !p(xs[j])
  {
    if xs == [] then None
    else if p(xs[|xs| - 1]) then Some(|xs| - 1)
    else LastIndex(xs[..|xs| - 1], p)
  }

  /** The elements satisfying `p`, in their original order. */
  function Filter<T>(xs: seq<T>, p: T -> bool): (r: seq<T>)
    ensures |r| <= |xs|
    ensures forall j | 0 <= j < |r| :: r[j] in xs && p(r[j])
    ensures forall j | 0 <= j < |xs| && p(xs[j]) :: xs[j] in r
  {
    if xs == [] then []
    else
      var init := xs[..|xs| - 1];
      assert xs == init + [xs[|xs| - 1]];
      Filter(init, p) + (if p(xs[|xs| - 1]) then [xs[|xs| - 1]] else [])
  }

  /** The first element kept by a filter is the first element satisfying `p`. */
  lemma {:induction false} FilterHeadIsFirst<T>(xs: seq<T>, p: T -> bool, j: nat)
    requires j < |xs| && p(xs[j]) && forall k | 0 <= k < j :: !p(xs[k])
    ensures Filter(xs, p) != [] && Filter(xs, p)[0] == xs[j]
    decreases |xs|
  {
    var init := xs[..|xs| - 1];
    assert xs == init + [xs[|xs| - 1]];
    if j < |xs| - 1 {
      FilterHeadIsFirst(init, p, j);
    }
  }

  /** Number of elements satisfying `p`. */
  function Count<T>(xs: seq<T>, p: T -> bool): (n: nat)
    ensures n <= |xs|
    ensures n == 0 <==> forall j | 0 <= j < |xs| :: !p(xs[j])
  {
    var r := Filter(xs, p);
    assert r != [] ==> exists j | 0 <= j < |xs| :: xs[j] == r[0] && p(xs[j]);
    |r|
  }

  lemma FilterSnoc<T>(xs: seq<T>, x: T, p: T -> bool)
    ensures Filter(xs + [x], p) == Filter(xs, p) + (if p(x) then [x] else [])
  {
    assert (xs + [x])[..|xs|] == xs;
  }

  lemma FilterAppend<T>(xs: seq<T>, ys: seq<T>, p: T -> bool)
    ensures Filter(xs + ys, p) == Filter(xs, p) + Filter(ys, p)
    decreases |ys|
  {
    if ys == [] {
      assert xs + ys == xs;
    } else {
      var init := ys[..|ys| - 1];
      var last := ys[|ys| - 1];
      assert ys == init + [last];
      assert xs + ys == (xs + init) + [last];
      FilterSnoc(xs + init, last, p);
      FilterSnoc(init, last, p);
      FilterAppend(xs, init, p);
    }
  }

  /** A stronger condition never counts more elements. */
  lemma {:induction false} CountMonotone<T>(xs: seq<T>, p: T -> bool, q: T -> bool)
    requires forall j | 0 <= j < |xs| :: p(xs[j]) ==> q(xs[j])
    ensures Count(xs, p) <= Count(xs, q)
  {
    if xs != [] {
      var init := xs[..|xs| - 1];
      assert xs == init + [xs[|xs| - 1]];
      FilterSnoc(init, xs[|xs| - 1], p);
      FilterSnoc(init, xs[|xs| - 1], q);
      assert forall j | 0 <= j < |init| :: init[j] == xs[j];
      CountMonotone(init, p, q);
    }
  }

  /** Filtering by `q` first changes nothing when `p` already implies `q`. */
  lemma {:induction false} FilterFilterImplied<T>(xs: seq<T>, p: T -> bool, q: T -> bool)
    requires forall j | 0 <= j < |xs| :: p(xs[j]) ==> q(xs[j])
    ensures Filter(Filter(xs, q), p) == Filter(xs, p)
  {
    if xs != [] {
      var init := xs[..|xs| - 1];
      var last := xs[|xs| - 1];
      assert forall j | 0 <= j < |init| :: init[j] == xs[j];
      FilterFilterImplied(init, p, q);
      assert Filter(xs, q) == Filter(init, q) + (if q(last) then [last] else []);
      assert Filter(xs, p) == Filter(init, p) + (if p(last) then [last] else []);
      if q(last) {
        FilterSnoc(Filter(init, q), last, p);
      } else {
        assert Filter(xs, q) == Filter(init, q);
      }
    }
  }

  /** Filters by two conditions that agree on every element are equal. */
  lemma {:induction false} FilterAgree<T>(xs: seq<T>, p: T -> bool, q: T -> bool)
    requires forall j | 0 <= j < |xs| :: p(xs[j]) == q(xs[j])
    ensures Filter(xs, p) == Filter(xs, q)
  {
    if xs != [] {
      var init := xs[..|xs| - 1];
      assert forall j | 0 <= j < |init| :: init[j] == xs[j];
      FilterAgree(init, p, q);
    }
  }

  /** Nothing satisfying `p` survives a filter by a condition `p` excludes. */
  lemma {:induction false} FilterFilterDisjoint<T>(xs: seq<T>, p: T -> bool, q: T -> bool)
    requires forall j | 0 <= j < |xs| :: p(xs[j]) ==> !q(xs[j])
    ensures Filter(Filter(xs, q), p) == []
  {
    if xs != [] {
      var init := xs[..|xs| - 1];
      var last := xs[|xs| - 1];
      assert forall j | 0 <= j < |init| :: init[j] == xs[j];
      FilterFilterDisjoint(init, p, q);
      assert Filter(xs, q) == Filter(init, q) + (if q(last) then [last] else []);
      if q(last) {
        FilterSnoc(Filter(init, q), last, p);
      } else {
        assert Filter(xs, q) == Filter(init, q);
      }
    }
  }

  /** A filter every element passes keeps the sequence; one none passes
      leaves nothing. */
  lemma {:induction false} FilterAllOrNone<T>(xs: seq<T>, p: T -> bool)
    ensures (forall j | 0 <= j < |xs| :: p(xs[j])) ==> Filter(xs, p) == xs
    ensures (forall j | 0 <= j < |xs| :: !p(xs[j])) ==> Filter(xs, p) == []
  {
    if xs != [] {
      var init := xs[..|xs| - 1];
      assert forall j | 0 <= j < |init| :: init[j] == xs[j];
      FilterAllOrNone(init, p);
      assert xs == init + [xs[|xs| - 1]];
    }
  }

  /** An element `p` rejects leaves the filter as it was. */
  lemma FilterSkip<T>(lo: seq<T>, x: T, hi: seq<T>, p: T -> bool)
    requires !p(x)
    ensures Filter(lo + [x] + hi, p) == Filter(lo + hi, p)
  {
    FilterAppend(lo + [x], hi, p);
    FilterSnoc(lo, x, p);
    FilterAppend(lo, hi, p);
  }

  /** An element `p` keeps, followed only by elements it rejects, comes last
      in the filter. */
  lemma FilterKeepLast<T>(lo: seq<T>, x: T, hi: seq<T>, p: T -> bool)
    requires p(x) && forall j | 0 <= j < |hi| :: !p(hi[j])
    ensures Filter(lo + [x] + hi, p) == Filter(lo + hi, p) + [x]
  {
    FilterAppend(lo + [x], hi, p);
    FilterSnoc(lo, x, p);
    FilterAppend(lo, hi, p);
    FilterAllOrNone(hi, p);
    assert Filter(lo, p) + [x] + [] == Filter(lo, p) + [] + [x];
  }

  /** Positions of the elements satisfying `p`, in increasing order: the
      index view of `Filter`. */
  function Positions<T>(xs: seq<T>, p: T -> bool): (r: seq<nat>)
    ensures forall a | 0 <= a < |r| :: r[a] < |xs| && p(xs[r[a]])
    ensures forall k | 0 <= k < |xs| && p(xs[k]) :: k in r
    ensures forall a, b | 0 <= a < b < |r| :: r[a] < r[b]
  {
    if xs == [] then []
    else
      var init := xs[..|xs| - 1];
      assert forall k | 0 <= k < |init| :: init[k] == xs[k];
      Positions(init, p) + (if p(xs[|xs| - 1]) then [|xs| - 1] else [])
  }

  /** `Filter` picks exactly the elements at `Positions`. */
  lemma {:induction false} FilterAtPositions<T>(xs: seq<T>, p: T -> bool)
    ensures |Filter(xs, p)| == |Positions(xs, p)|
    ensures forall a | 0 <= a < |Filter(xs, p)| :: Filter(xs, p)[a] == xs[Positions(xs, p)[a]]
  {
    if xs != [] {
      var init := xs[..|xs| - 1];
      assert forall k | 0 <= k < |init| :: init[k] == xs[k];
      FilterAtPositions(init, p);
    }
  }
}

=== FILE: sorting.dfy ===
/** Stable sorting by an integer key: `Array.prototype.sort` with a
    comparator `(a, b) => key(a) - key(b)`, and Python's `sorted` with a key,
    both of which keep equal elements in their original order. */
module Sorting {
  import opened Seqs

  predicate SortedBy<T>(xs: seq<T>, key: T -> int) {
    forall i, j | 0 <= i < j < |xs| :: key(xs[i]) <= key(xs[j])
  }

  /** Where `x` goes: behind every element whose key is not larger. */
  function InsertionPoint<T>(x: T, xs: seq<T>, key: T -> int): (m: nat)
    ensures m <= |xs|
    ensures forall j | m <= j < |xs| :: key(x) < key(xs[j])
    ensures m > 0 ==> key(xs[m - 1]) <= key(x)
  {
    if xs == [] then 0
    else if key(xs[|xs| - 1]) <= key(x) then |xs|
    else InsertionPoint(x, xs[..|xs| - 1], key)
  }

  /** `xs` with `x` placed at its insertion point. */
  function Insert<T>(x: T, xs: seq<T>, key: T -> int): (r: seq<T>)
    requires SortedBy(xs, key)
    ensures SortedBy(r, key)
    ensures multiset(r) == multiset(xs) + multiset{x}
    ensures |r| == |xs| + 1
  {
    var m := InsertionPoint(x, xs, key);
    InsertionKeepsOrder(x, xs, key, m);
    SpliceElements(x, xs, m);
    xs[..m] + [x] + xs[m..]
  }

  lemma SpliceElements<T>(x: T, xs: seq<T>, m: nat)
    requires m <= |xs|
    ensures multiset(xs[..m] + [x] + xs[m..]) == multiset(xs) + multiset{x}
  {
    assert xs == xs[..m] + xs[m..];
  }

  lemma InsertionKeepsOrder<T>(x: T, xs: seq<T>, key: T -> int, m: nat)
    requires SortedBy(xs, key) && m == InsertionPoint(x, xs, key)
    ensures SortedBy(xs[..m] + [x] + xs[m..], key)
  {
    forall j | 0 <= j < m
      ensures key(xs[j]) <= key(x)
    {
      assert key(xs[j]) <= key(xs[m - 1]);
    }
    SpliceSorted(xs, m, x, key);
  }

  /** Splicing `x` between the elements with keys up to `key(x)` and those
      above it keeps a sorted sequence sorted. */
  lemma SpliceSorted<T>(xs: seq<T>, m: nat, x: T, key: T -> int)
    requires m <= |xs| && SortedBy(xs, key)
    requires forall j | 0 <= j < m :: key(xs[j]) <= key(x)
    requires forall j | m <= j < |xs| :: key(x) < key(xs[j])
    ensures SortedBy(xs[..m] + [x] + xs[m..], key)
  {
    var r := xs[..m] + [x] + xs[m..];
    assert forall i | 0 <= i < |r| :: r[i] == if i < m then xs[i] else if i == m then x else xs[i - 1];
    forall i, j | 0 <= i < j < |r|
      ensures key(r[i]) <= key(r[j])
    {
      if j < m {
      } else if j == m {
      } else if i < m {
        assert key(xs[i]) <= key(xs[j - 1]);
      } else if i > m {
        assert key(xs[i - 1]) <= key(xs[j - 1]);
      }
    }
  }

  /** Insertion sort, taking the elements in their original order. */
  function SortBy<T>(xs: seq<T>, key: T -> int): (r: seq<T>)
    ensures SortedBy(r, key)
    ensures multiset(r) == multiset(xs)
    ensures |r| == |xs|
  {
    if xs == [] then []
    else
      var init := xs[..|xs| - 1];
      assert xs == init + [xs[|xs| - 1]];
      Insert(xs[|xs| - 1], SortBy(init, key), key)
  }

  /** The elements whose key is `k`. */
  function KeyIs<T>(key: T -> int, k: int): T -> bool {
    (x: T) => key(x) == k
  }

  /** Splicing `x` in front of elements with larger keys puts it behind
      every element of its own key. */
  lemma FilterSplice<T>(lo: seq<T>, x: T, hi: seq<T>, key: T -> int, k: int)
    requires forall j | 0 <= j < |hi| :: key(x) < key(hi[j])
    ensures Filter(lo + [x] + hi, KeyIs(key, k)) ==
      Filter(lo + hi, KeyIs(key, k)) + (if key(x) == k then [x] else [])
  {
    var p := KeyIs(key, k);
    if key(x) == k {
      assert forall j | 0 <= j < |hi| :: !p(hi[j]);
      FilterKeepLast(lo, x, hi, p);
    } else {
      FilterSkip(lo, x, hi, p);
      assert Filter(lo + hi, p) + [] == Filter(lo + hi, p);
    }
  }

  /** Inserting puts `x` behind every element with the same key. */
  lemma InsertAfterEqualKeys<T>(x: T, xs: seq<T>, key: T -> int, k: int)
    requires SortedBy(xs, key)
    ensures Filter(Insert(x, xs, key), KeyIs(key, k)) ==
      Filter(xs, KeyIs(key, k)) + (if key(x) == k then [x] else [])
  {
    var m := InsertionPoint(x, xs, key);
    FilterSpliceAt(x, xs, key, k, m);
  }

  lemma FilterSpliceAt<T>(x: T, xs: seq<T>, key: T -> int, k: int, m: nat)
    requires m <= |xs| && forall j | m <= j < |xs| :: key(x) < key(xs[j])
    ensures Filter(xs[..m] + [x] + xs[m..], KeyIs(key, k)) ==
      Filter(xs, KeyIs(key, k)) + (if key(x) == k then [x] else [])
  {
    var lo, hi := xs[..m], xs[m..];
    assert xs == lo + hi;
    forall j | 0 <= j < |hi|
      ensures key(x) < key(hi[j])
    {
      assert hi[j] == xs[m + j];
    }
    FilterSplice(lo, x, hi, key, k);
  }

  /** Stability: among elements with equal keys the original order survives. */
  lemma {:induction false} SortIsStable<T>(xs: seq<T>, key: T -> int, k: int)
    ensures Filter(SortBy(xs, key), KeyIs(key, k)) == Filter(xs, KeyIs(key, k))
  {
    if xs != [] {
      var init := xs[..|xs| - 1];
      var last := xs[|xs| - 1];
      assert xs == init + [last];
      SortIsStable(init, key, k);
      InsertAfterEqualKeys(last, SortBy(init, key), key, k);
      FilterSnoc(init, last, KeyIs(key, k));
    }
  }

  /** An element of the sorted list that is the first of its key there is
      also the first of its key in the input, since equal keys keep their order. */
  lemma FirstOfKeyIsFirstInInput<T>(xs: seq<T>, key: T -> int, i: nat)
    requires i < |SortBy(xs, key)|
    requires forall k | 0 <= k < i :: key(SortBy(xs, key)[k]) != key(SortBy(xs, key)[i])
    ensures exists j | 0 <= j < |xs| ::
      xs[j] == SortBy(xs, key)[i] && forall k | 0 <= k < j :: key(xs[k]) != key(xs[j])
  {
    var sorted := SortBy(xs, key);
    var p := KeyIs(key, key(sorted[i]));
    FilterHeadIsFirst(sorted, p, i);
    SortIsStable(xs, key, key(sorted[i]));
    var f := Filter(xs, p);
    assert f[0] in xs && p(f[0]);
    var j0 := FirstIndex(xs, p).value;
    FilterHeadIsFirst(xs, p, j0);
    assert xs[j0] == sorted[i];
  }

  /** An element with a key no smaller than the last one goes at the end. */
  lemma InsertAtEnd<T>(x: T, xs: seq<T>, key: T -> int)
    requires SortedBy(xs, key)
    requires xs != [] ==> key(xs[|xs| - 1]) <= key(x)
    ensures Insert(x, xs, key) == xs + [x]
  {
    assert InsertionPoint(x, xs, key) == |xs|;
    assert xs[..|xs|] == xs && xs[|xs|..] == [];
  }

  lemma SortedInit<T>(xs: seq<T>, key: T -> int)
    requires xs != [] && SortedBy(xs, key)
    ensures SortedBy(xs[..|xs| - 1], key)
  {
    var init := xs[..|xs| - 1];
    forall i, j | 0 <= i < j < |init|
      ensures key(init[i]) <= key(init[j])
    {
      assert init[i] == xs[i] && init[j] == xs[j];
    }
  }

  /** Sorting an already sorted sequence changes nothing. */
  lemma {:induction false} SortOfSortedIsIdentity<T>(xs: seq<T>, key: T -> int)
    requires SortedBy(xs, key)
    ensures SortBy(xs, key) == xs
  {
    if xs != [] {
      var init, last := xs[..|xs| - 1], xs[|xs| - 1];
      SortedInit(xs, key);
      SortOfSortedIsIdentity(init, key);
      assert SortBy(xs, key) == Insert(last, SortBy(init, key), key);
      if init != [] {
        assert key(xs[|init| - 1]) <= key(last);
      }
      InsertAtEnd(last, init, key);
      assert xs == init + [last];
    }
  }
}

=== FILE: status_agreement.dfy ===
/** How the three posting-status resolvers relate: the backend's
    `determinePostingStatus`, the main dashboard's four-way
    `getPostingStatus`, and the workspace screens' three-way
    `calculateWorkspaceStatus`. They agree inside the windows and part ways
    at the boundaries. A backend instant `t` (seconds) reaches the browser as
    the JavaScript time `t * 1000` (milliseconds). */
module StatusAgreement {
  import opened Wrappers
  import opened Postings
  import opened StatusResolver
  import MainDashboard
  import DateUtils

  /** The dashboard status the backend's status corresponds to. */
  function DashboardOf(st: PostingStatus): (r: MainDashboard.DashboardStatus)
    ensures r == MainDashboard.Scheduled <==> st == Scheduled
    ensures r == MainDashboard.Active <==> st == InProgress
  {
    match st
    case Scheduled => MainDashboard.Scheduled
    case InProgress => MainDashboard.Active
    case Closed => MainDashboard.Completed
    case EvaluationComplete => MainDashboard.EvaluationCompleted
  }

  /** The workspace phase the backend's status corresponds to: both finished
      statuses read as completed. */
  function PhaseOf(st: PostingStatus): (r: DateUtils.Phase)
    ensures r == DateUtils.Scheduled <==> st == Scheduled
    ensures r == DateUtils.Recruiting <==> st == InProgress
  {
    match st
    case Scheduled => DateUtils.Scheduled
    case InProgress => DateUtils.Recruiting
    case Closed => DateUtils.Completed
    case EvaluationComplete => DateUtils.Completed
  }

  function Ms(t: Instant): int {
    t * 1000
  }

  function AsField(t: Option<Instant>): MainDashboard.DateField {
    match t
    case None => MainDashboard.Null
    case Some(v) => MainDashboard.At(Ms(v))
  }

  /** The posting as the dashboard receives it: present dates as
      milliseconds, missing ones as JSON null. */
  function AsDashboardPosting(id: int, d: PostingDates): MainDashboard.DashboardPosting {
    MainDashboard.DashboardPosting(id, AsField(d.applicationStart), AsField(d.applicationEnd), AsField(d.evaluationEnd))
  }

  lemma MsOrder(a: Instant, b: Instant)
    ensures a < b <==> Ms(a) < Ms(b)
  {
  }

  /** On well-ordered dates the dashboard and the backend disagree exactly
      at the start instant of a non-empty window, at the end instant when
      an evaluation window follows it, and from the end on when there is no
      evaluation end at all. */
  lemma DashboardDisagreement(start: Instant, end: Instant, evaluationEnd: Option<Instant>, now: Instant)
    requires start <= end && (evaluationEnd.Some? ==> end <= evaluationEnd.value)
    ensures var d := PostingDates(Some(start), Some(end), evaluationEnd);
      DashboardOf(DeterminePostingStatus(d, now)) != MainDashboard.GetPostingStatus(AsDashboardPosting(0, d), Ms(now))
      <==>
      || (now == start && start < end)
      || (now == end && end < evaluationEnd.GetOr(end))
      || (evaluationEnd.None? && end <= now)
  {
    MsOrder(start, now);
    MsOrder(now, start);
    MsOrder(end, now);
    MsOrder(now, end);
    if evaluationEnd.Some? {
      MsOrder(evaluationEnd.value, now);
    }
  }

  /** Away from those instants the two agree: the interior of each window,
      on both sides. */
  lemma DashboardAgreesInsideWindows(start: Instant, end: Instant, evaluationEnd: Instant, now: Instant)
    requires start <= end <= evaluationEnd
    requires now != start && now != end
    ensures var d := PostingDates(Some(start), Some(end), Some(evaluationEnd));
      DashboardOf(DeterminePostingStatus(d, now)) == MainDashboard.GetPostingStatus(AsDashboardPosting(0, d), Ms(now))
  {
    DashboardDisagreement(start, end, Some(evaluationEnd), now);
  }

  /** At the very start instant the dashboard already says active while the
      backend says evaluation complete. */
  lemma StartInstantActiveOnDashboard(start: Instant, end: Instant, evaluationEnd: Option<Instant>)
    requires start < end
    ensures var d := PostingDates(Some(start), Some(end), evaluationEnd);
      && MainDashboard.GetPostingStatus(AsDashboardPosting(0, d), Ms(start)) == MainDashboard.Active
      && DeterminePostingStatus(d, start) == EvaluationComplete
  {
  }

  /** Without an evaluation end the dashboard keeps a past posting completed
      forever while the backend calls it evaluation complete. */
  lemma NoEvaluationEndPartsWays(start: Instant, end: Instant, now: Instant)
    requires start <= end < now
    ensures var d := PostingDates(Some(start), Some(end), None);
      && MainDashboard.GetPostingStatus(AsDashboardPosting(0, d), Ms(now)) == MainDashboard.Completed
      && DeterminePostingStatus(d, now) == EvaluationComplete
  {
    MsOrder(end, now);
  }

  /** A missing start date is scheduled forever on the backend, but reaches
      the dashboard as null, which reads as the epoch: from then on the
      dashboard never says scheduled. */
  lemma MissingStartReadsAsEpoch(end: Option<Instant>, evaluationEnd: Option<Instant>, now: Instant)
    requires now >= 0
    ensures var d := PostingDates(None, end, evaluationEnd);
      && DeterminePostingStatus(d, now) == Scheduled
      && MainDashboard.GetPostingStatus(AsDashboardPosting(0, d), Ms(now)) != MainDashboard.Scheduled
  {
  }

  // ---------------------------------------------------------------------------
  // The workspace screens' day-based phases

  lemma DayBounds(t: Instant)
    ensures StartOfDay(DayOf(t)) <= t < StartOfDay(DayOf(t) + 1)
  {
  }

  /** How an instant on day `today` compares with the start of day `d`. */
  lemma InstantAgainstDay(t: Instant, d: int)
    ensures DayOf(t) < d ==> t < StartOfDay(d)
    ensures DayOf(t) > d ==> t >= StartOfDay(d + 1) > StartOfDay(d)
    ensures DayOf(t) == d ==> StartOfDay(d) <= t < StartOfDay(d + 1)
  {
    DayBounds(t);
    if DayOf(t) < d {
      StartOfDayMonotone(DayOf(t) + 1, d);
    } else if DayOf(t) > d {
      StartOfDayMonotone(d + 1, DayOf(t));
    }
  }

  lemma StartOfDayMonotone(a: int, b: int)
    requires a <= b
    ensures StartOfDay(a) <= StartOfDay(b)
  {
  }

  /** The backend's view of a posting whose dates are the calendar days
      `startDay` and `endDay`, stored at the start of those days. */
  function DayDates(startDay: int, endDay: int, evaluationEnd: Option<Instant>): PostingDates {
    PostingDates(Some(StartOfDay(startDay)), Some(StartOfDay(endDay)), evaluationEnd)
  }

  /** On any day other than the first and the last day of the window, the
      workspace phase is the backend's status collapsed to three phases,
      when the server and the browser are on the same calendar day. */
  lemma WorkspaceAgreesAwayFromBoundaryDays(start: string, end: string, evaluationEnd: Option<Instant>,
                                            now: Instant, koreaNowMs: int)
    requires ' ' !in start && ' ' !in end
    requires DateUtils.ParseDate(start).Some? && DateUtils.ParseDate(end).Some?
    requires DateUtils.ParseDate(start).value <= DateUtils.ParseDate(end).value
    requires DateUtils.DayOfMs(koreaNowMs) == DayOf(now)
    requires DayOf(now) != DateUtils.ParseDate(start).value && DayOf(now) != DateUtils.ParseDate(end).value
    ensures var d := DayDates(DateUtils.ParseDate(start).value, DateUtils.ParseDate(end).value, evaluationEnd);
      DateUtils.CalculateWorkspaceStatus(DateUtils.Period(start, end), koreaNowMs) == Success(PhaseOf(DeterminePostingStatus(d, now)))
  {
    var s, e := DateUtils.ParseDate(start).value, DateUtils.ParseDate(end).value;
    DateUtils.WorkspaceStatusPartition(start, end, koreaNowMs);
    InstantAgainstDay(now, s);
    InstantAgainstDay(now, e);
    PhaseAwayFromBoundaryDays(s, e, evaluationEnd, now);
  }

  lemma PhaseAwayFromBoundaryDays(s: int, e: int, evaluationEnd: Option<Instant>, now: Instant)
    requires s <= e && DayOf(now) != s && DayOf(now) != e
    requires DayOf(now) < s ==> now < StartOfDay(s)
    requires DayOf(now) > s ==> now > StartOfDay(s)
    requires DayOf(now) < e ==> now < StartOfDay(e)
    requires DayOf(now) > e ==> now > StartOfDay(e)
    ensures PhaseOf(DeterminePostingStatus(DayDates(s, e, evaluationEnd), now)) ==
      (if DayOf(now) < s then DateUtils.Scheduled
       else if DayOf(now) <= e then DateUtils.Recruiting
       else DateUtils.Completed)
  {
  }

  /** The last day of the window is still recruiting on the workspace
      screens, but on the backend the window has closed when that day begins. */
  lemma EndDayIsInclusiveOnlyInBrowser(start: string, end: string, evaluationEnd: Option<Instant>,
                                       now: Instant, koreaNowMs: int)
    requires ' ' !in start && ' ' !in end
    requires DateUtils.ParseDate(start).Some? && DateUtils.ParseDate(end).Some?
    requires DateUtils.ParseDate(start).value <= DateUtils.ParseDate(end).value
    requires DateUtils.DayOfMs(koreaNowMs) == DayOf(now) == DateUtils.ParseDate(end).value
    ensures DateUtils.CalculateWorkspaceStatus(DateUtils.Period(start, end), koreaNowMs) == Success(DateUtils.Recruiting)
    ensures var d := DayDates(DateUtils.ParseDate(start).value, DateUtils.ParseDate(end).value, evaluationEnd);
      DeterminePostingStatus(d, now) != InProgress
  {
    DateUtils.WorkspaceStatusPartition(start, end, koreaNowMs);
    InstantAgainstDay(now, DateUtils.ParseDate(end).value);
  }
}

=== FILE: text.dfy ===
/** String primitives shared by the frontend and pipeline models: substring
    search, whitespace handling and splitting. Characters are compared as
    code points; whitespace and letter case are the ASCII ones. */
module Text {
  import opened Wrappers

  /** The six C whitespace characters: space, tab, line feed, carriage
      return, vertical tab and form feed. These are the ASCII characters that
      JavaScript's whitespace and Python's `str.split()`, `str.strip()` and
      `\s` all agree on. */
  predicate IsSpace(c: char) {
    c == ' ' || c == '\t' || c == '\n' || c == '\r' || c == '\U{B}' || c == '\U{C}'
  }

  predicate IsDigit(c: char) {
    '0' <= c <= '9'
  }

  /** `pat` occurs in `s` starting at `k`. */
  predicate OccursAt(s: string, pat: string, k: int) {
    0 <= k && k + |pat| <= |s| && s[k..k + |pat|] == pat
  }

  /** `pat in s` / `s.includes(pat)`. */
  predicate Contains(s: string, pat: string) {
    exists k | 0 <= k <= |s| - |pat| :: OccursAt(s, pat, k)
  }

  /** `s.indexOf(pat, from)` for `0 <= from`: the first occurrence at or after `from`. */
  function IndexOf(s: string, pat: string, from: nat): (r: Option<nat>)
    ensures r.Some? ==> from <= r.value && OccursAt(s, pat, r.value)
    ensures r.Some? ==> forall k | from <= k < r.value :: !OccursAt(s, pat, k)
    ensures r.None? ==> forall k | from <= k :: !OccursAt(s, pat, k)
    decreases |s| - from
  {
    if from + |pat| > |s| then None
    else if s[from..from + |pat|] == pat then Some(from)
    else IndexOf(s, pat, from + 1)
  }

  lemma ContainsIffIndexOf(s: string, pat: string)
    ensures Contains(s, pat) <==> IndexOf(s, pat, 0).Some?
  {
    if Contains(s, pat) {
      var k :| 0 <= k <= |s| - |pat| && OccursAt(s, pat, k);
    }
  }

  /** `s.lower()` for ASCII letters. */
  function Lower(s: string): (r: string)
    ensures |r| == |s|
    ensures forall i | 0 <= i < |s| :: r[i] == (if 'A' <= s[i] <= 'Z' then (s[i] as int + 32) as char else s[i])
  {
    seq(|s|, i requires 0 <= i < |s| => if 'A' <= s[i] <= 'Z' then (s[i] as int + 32) as char else s[i])
  }

  function StripStart(s: string): (r: string)
    ensures |r| <= |s| && r == s[|s| - |r|..]
    ensures r == [] || !IsSpace(r[0])
    ensures forall i | 0 <= i < |s| - |r| :: IsSpace(s[i])
  {
    if s == [] || !IsSpace(s[0]) then s else StripStart(s[1..])
  }

  function StripEnd(s: string): (r: string)
    ensures |r| <= |s| && r == s[..|r|]
    ensures r == [] || !IsSpace(r[|r| - 1])
    ensures forall i | |r| <= i < |s| :: IsSpace(s[i])
  {
    if s == [] || !IsSpace(s[|s| - 1]) then s else StripEnd(s[..|s| - 1])
  }

  /** `s.strip()`: `s` without its leading and trailing whitespace. */
  function Strip(s: string): (r: string)
    ensures r == [] || (!IsSpace(r[0]) && !IsSpace(r[|r| - 1]))
  {
    StripEnd(StripStart(s))
  }

  /** A string strips to nothing exactly when it is all whitespace. */
  lemma StripEmptyIffAllSpace(s: string)
    ensures Strip(s) == [] <==> forall i | 0 <= i < |s| :: IsSpace(s[i])
  {
    var t := StripStart(s);
    if t != [] {
      assert StripEnd(t) != [];
      assert s[|s| - |t|] == t[0];
    }
  }

  /** A non-empty run of non-whitespace characters. */
  predicate IsWord(w: string) {
    w != [] && forall i | 0 <= i < |w| :: !IsSpace(w[i])
  }

  /** `s.split()`: the maximal runs of non-whitespace characters, in order. */
  function Words(s: string): (r: seq<string>)
    ensures forall j | 0 <= j < |r| :: IsWord(r[j])
    decreases |s|
  {
    var t := StripStart(s);
    if t == [] then []
    else
      var n := WordLength(t);
      var w := t[..n];
      assert IsWord(w);
      var rest := t[n..];
      assert |rest| < |s|;
      [w] + Words(rest)
  }

  /** Length of the run of non-whitespace characters that starts `s`. */
  function WordLength(s: string): (n: nat)
    ensures n <= |s|
    ensures forall i | 0 <= i < n :: !IsSpace(s[i])
    ensures n == |s| || IsSpace(s[n])
    ensures s != [] && !IsSpace(s[0]) ==> n > 0
  {
    if s == [] || IsSpace(s[0]) then 0 else 1 + WordLength(s[1..])
  }

  /** `s.split(sep)` for a non-empty separator: the pieces between the
      non-overlapping occurrences of `sep`, found left to right; always at
      least one piece. */
  function Split(s: string, sep: string): (r: seq<string>)
    requires sep != []
    ensures |r| >= 1
    decreases |s|
  {
    match IndexOf(s, sep, 0)
    case None => [s]
    case Some(k) => [s[..k]] + Split(s[k + |sep|..], sep)
  }

  /** A string without the separator's first character is one piece. */
  lemma SplitWithoutSeparator(s: string, sep: string)
    requires sep != [] && sep[0] !in s
    ensures Split(s, sep) == [s]
  {
  }

  /** Cutting at the first separator: when `a` cannot hold the start of a
      separator, `a + sep + b` splits into `a` followed by the pieces of `b`. */
  lemma SplitJoin(a: string, sep: string, b: string)
    requires sep != [] && sep[0] !in a
    ensures Split(a + sep + b, sep) == [a] + Split(b, sep)
  {
    var s := a + sep + b;
    assert OccursAt(s, sep, |a|) by {
      assert s[|a|..|a| + |sep|] == sep;
    }
    assert IndexOf(s, sep, 0) == Some(|a|);
    assert s[..|a|] == a;
    assert s[|a| + |sep|..] == b;
  }

  /** Three pieces joined by a separator that none of them holds split back
      into the three. */
  lemma SplitThree(a: string, b: string, c: string, sep: string)
    requires sep != [] && sep[0] !in a && sep[0] !in b && sep[0] !in c
    ensures Split(a + sep + b + sep + c, sep) == [a, b, c]
  {
    var bc := b + sep + c;
    assert a + sep + b + sep + c == a + sep + bc;
    SplitJoin(b, sep, c);
    SplitWithoutSeparator(c, sep);
    assert Split(bc, sep) == [b, c];
    SplitJoin(a, sep, bc);
  }

  /** Joining the pieces with the separator gives back the string. */
  lemma {:induction false} JoinSplit(s: string, sep: string)
    requires sep != []
    ensures Join(Split(s, sep), sep) == s
    decreases |s|
  {
    var i := IndexOf(s, sep, 0);
    if i.Some? {
      var k := i.value;
      var rest := s[k + |sep|..];
      SplitAtFirst(s, sep, k);
      JoinSplit(rest, sep);
      JoinCons(s[..k], Split(rest, sep), sep);
    }
  }

  /** One step of `Split`: the piece before the first separator, then the
      rest after it. */
  lemma SplitAtFirst(s: string, sep: string, k: nat)
    requires sep != [] && IndexOf(s, sep, 0) == Some(k)
    ensures k + |sep| <= |s|
    ensures Split(s, sep) == [s[..k]] + Split(s[k + |sep|..], sep)
    ensures s == s[..k] + sep + s[k + |sep|..]
  {
    assert s == s[..k] + s[k..k + |sep|] + s[k + |sep|..];
  }

  /** `Join` read from the front. */
  lemma {:induction false} JoinCons(a: string, parts: seq<string>, sep: string)
    requires parts != []
    ensures Join([a] + parts, sep) == a + sep + Join(parts, sep)
    decreases |parts|
  {
    var all := [a] + parts;
    if |parts| == 1 {
      assert all[..1] == [a];
    } else {
      var init := parts[..|parts| - 1];
      assert all[..|all| - 1] == [a] + init;
      JoinCons(a, init, sep);
    }
  }

  /** `sep.join(parts)`. */
  function Join(parts: seq<string>, sep: string): string {
    if parts == [] then []
    else if |parts| == 1 then parts[0]
    else Join(parts[..|parts| - 1], sep) + sep + parts[|parts| - 1]
  }

  /** The number of a run of decimal digits. */
  function DigitsValue(ds: string): (n: nat)
    requires forall i | 0 <= i < |ds| :: IsDigit(ds[i])
  {
    if ds == [] then 0
    else
      assert IsDigit(ds[|ds| - 1]);
      10 * DigitsValue(ds[..|ds| - 1]) + (ds[|ds| - 1] as int - '0' as int)
  }

  /** Length of the run of digits that starts `s`. */
  function DigitRun(s: string): (n: nat)
    ensures n <= |s|
    ensures forall i | 0 <= i < n :: IsDigit(s[i])
    ensures n == |s| || !IsDigit(s[n])
  {
    if s == [] || !IsDigit(s[0]) then 0 else 1 + DigitRun(s[1..])
  }

  /** `str(n)` / `f"{n}"` for a natural number: its decimal digits, which
      read back as `n`. */
  function Decimal(n: nat): (r: string)
    ensures r != [] && forall i | 0 <= i < |r| :: IsDigit(r[i])
    ensures DigitsValue(r) == n
  {
    var last := ('0' as int + n % 10) as char;
    if n < 10 then
      assert [last][..0] == [];
      [last]
    else
      var init := Decimal(n / 10);
      assert (init + [last])[..|init|] == init;
      init + [last]
  }
}

=== FILE: wrappers.dfy ===
/** Failure-compatible wrappers shared by every module of the model:
    `Option` stands for a Java/TypeScript/Python value that may be null or
    absent, `Result` for an operation that may raise. */
module Wrappers {

  datatype Option<+T> = None | Some(value: T) {

    predicate IsFailure() {
      None?
    }

    function PropagateFailure<U>(): Option<U>
      requires None?
    {
      None
    }

    function Extract(): T
      requires Some?
    {
      value
    }

    /** The wrapped value, or `default` when absent. */
    function GetOr(default: T): T {
      match this
      case Some(v) => v
      case None => default
    }
  }

  datatype Result<+R, +E> = Success(value: R) | Failure(error: E) {

    predicate IsFailure() {
      Failure?
    }

    function PropagateFailure<U>(): Result<U, E>
      requires Failure?
    {
      Failure(error)
    }

    function Extract(): R
      requires Success?
    {
      value
    }
  }
}
